=== FILE: README.md ===
# Open Stream Hub — orchestration core in Dafny

Open Stream Hub is a self-hosted live-video restreaming hub. A broadcaster pushes one RTMP
feed into the hub's ingest server. The hub then relays that feed through one ffmpeg process
per destination to YouTube, Twitch or any RTMP server. The repository holds three backend
generations side by side. This project models the orchestration core of all three and keeps
each generation's behaviour apart, because the generations differ on purpose.

- **Deno snapshot** (`backend/services`): `StreamManager` with its media-server publish hooks,
  the `ReStreamService` supervisor, and the JSON document store `DatabaseService`. Modules:
  `StreamManager`, `ReStreamService`, `Database`, with the records in `LegacyModel`.
- **Service snapshot** (`backend/service`): the stream lifecycle manager `StreamMgrService`, the
  CRUD service `StreamCrudService`, the ffmpeg process runner `FfmpegRunnerService`, the ingest
  gateway `RtmpInjestService`, and the internal ingest address (`backend/utils/stream.ts`).
  The modules have the same names as the services. Records and lookups are in `ServiceModel`,
  and the address is in `StreamUrl`.
- **NestJS snapshot** (`backend/src`): the RTMP admission hooks (`NestRtmpServer`), the stream
  lifecycle (`NestStreamMgrService`), relay CRUD (`NestStreamRelayService`), relay orchestration
  (`NestRelayService`) and the relay process registry (`NestRelayRunner`). Records and store
  operations are in `NestModel`.

Shared helpers:
- `Outcomes`: `Option`, `Result` and the error kinds.
- `Text`: the JavaScript string operations the services use, each specified by its result.
- `Hex`: the lower-case hex rendering of random key buffers, with its decoder.

How the model represents the system:
- A document collection is a sequence in store order, and a lookup returns the first match.
- Every operation is a pure function from the old state to the new state.
- Side effects are returned as data:
  - process spawns and kills;
  - backoff waits;
  - session rejections;
  - emitted bus events.
- Values that the source gets from the outside world are parameters:
  - random draws;
  - document ids;
  - the current time;
  - whether a spawn of the repaired Deno supervisor succeeds (as written it always throws; see Findings). The service snapshot's runner and the NestJS relay runner spawn unconditionally, since a failed spawn is reported later through a process event;
  - the media server's live sessions.
- An exception becomes an `Err` with its fault kind.

## Model

| member | source | states |
|---|---|---|
| `Database.FindOne` | backend/services/DatabaseService.ts:26-30 | a missing collection fails; otherwise the first document matching every query field, and none exactly when no document matches |
| `Database.Find` | backend/services/DatabaseService.ts:32-36 | a missing collection fails; otherwise exactly the matching documents, in collection order |
| `Database.InsertOne` | backend/services/DatabaseService.ts:38-42 | the document is appended to the end of the collection and returned |
| `Database.Merge` | backend/services/DatabaseService.ts:49-52 | an update's fields win, the stored document's other fields stay, and no new field appears |
| `Database.UpdateOne` | backend/services/DatabaseService.ts:44-57 | only the first match is replaced by the merge, and that merge is returned; with no match the store is unchanged and the answer is null; other collections and positions are untouched |
| `Database.DeleteOne` | backend/services/DatabaseService.ts:59-67 | every matching document is removed, not only the first, and the answer is true exactly when something matched |
| `Database.RejectShrinks` | backend/services/DatabaseService.ts:59-67 | kept plus matched documents make up the collection, so it shrinks exactly when a document matches |
| `Database.FilterConcat` | backend/services/DatabaseService.ts:32-36 | `find` over a concatenation is the concatenation of the finds |
| `Database.EmptyQueryFindsAll` | backend/services/DatabaseService.ts:32-36 | the empty query matches every document |
| `Database.FindOneIsFirstOfFind` | backend/services/DatabaseService.ts:26-36 | `findOne` finds nothing exactly when `find` is empty, and otherwise finds the head of `find` |
| `Database.DeleteThenFindNone` | backend/services/DatabaseService.ts:26-67 | after a delete, neither lookup finds a document matching the same query |
| `Database.InsertThenFindOne` | backend/services/DatabaseService.ts:26-42 | a matching document inserted where nothing matched before is what `findOne` returns |
| `StreamManager.SetStatus` | backend/services/StreamManager.ts:162-181 | the first stream with the id takes the status and loses its message; an unknown id changes nothing |
| `StreamManager.KeyOfPath` | backend/services/StreamManager.ts:41 | the key is the text after the last slash, or the whole path when there is none, and holds no slash |
| `StreamManager.FindByStreamKey` | backend/services/StreamManager.ts:90-95 | the found stream's endpoint contains the key anywhere; nothing is found exactly when no endpoint contains it |
| `StreamManager.FindByStreamKeyIsFirst` | backend/services/StreamManager.ts:90-95 | the stream found is the first in collection order whose endpoint contains the key |
| `StreamManager.Admit` | backend/services/StreamManager.ts:43-58 | an unmatched key or a Stopped stream gets the session rejected; any other stream, Error included, becomes Waiting and records the session |
| `StreamManager.GoLive` | backend/services/StreamManager.ts:61-74 | a matched stream goes Live whatever its state, and the session table is kept |
| `StreamManager.EndPublish` | backend/services/StreamManager.ts:76-87 | a matched stream goes back to Waiting and its session record is dropped |
| `StreamManager.PrePublish` | backend/services/StreamManager.ts:38-59 | a path with an empty last segment is ignored; otherwise the key-level admission runs |
| `StreamManager.PostPublish` | backend/services/StreamManager.ts:61-74 | a path with an empty last segment is ignored; otherwise the stream goes Live |
| `StreamManager.DonePublish` | backend/services/StreamManager.ts:76-87 | a path with an empty last segment is ignored; otherwise the publish ends |
| `StreamManager.PublishLifecycle` | backend/services/StreamManager.ts:38-87 | admit, go live, then end leaves the stream Waiting, and the session is recorded while live and forgotten afterwards |
| `StreamManager.StartStream` | backend/services/StreamManager.ts:97-111 | null for an unknown id; otherwise the stream becomes Waiting from any state and the stored record is returned |
| `StreamManager.StopStream` | backend/services/StreamManager.ts:113-134 | null for an unknown id; otherwise the stream is Stopped and its recorded session is dropped; that session is rejected only while the media server still knows it |
| `StreamManager.WithoutStream` | backend/services/StreamManager.ts:152-154 | no stream with the id remains; the collection shrinks exactly when one existed |
| `StreamManager.WithoutStreamKeepsOthers` | backend/services/StreamManager.ts:152-154 | a stream is kept exactly when it was in the collection and its id differs |
| `StreamManager.WithoutStreamConcat` | backend/services/StreamManager.ts:152-154 | the filter distributes over concatenation, so the kept streams stay in collection order |
| `StreamManager.DeleteStream` | backend/services/StreamManager.ts:136-160 | false for an unknown id; refused unless Stopped or Error; otherwise the stream and its session record go, and the answer is true |
| `StreamManager.StopThenDelete` | backend/services/StreamManager.ts:113-160 | a stopped stream can always be deleted, leaving no stream with its id and no session record |
| `StreamManager.GenerateStreamKey` | backend/services/StreamManager.ts:246-252 | the key is 32 lower-case hex characters, and the 16 random bytes can be read back from it |
| `StreamManager.CreateStream` | backend/services/StreamManager.ts:187-200 | a Stopped stream without destinations is appended; its endpoint is the local `live` application followed by its key |
| `StreamManager.CreatedStreamIsFound` | backend/services/StreamManager.ts:41-95 | publishing to `/live/<key>` of a new stream whose key no other endpoint contains finds that stream |
| `StreamManager.AddDestination` | backend/services/StreamManager.ts:210-226 | null for an unknown stream; otherwise a disconnected, enabled destination with the new id is appended and the record returned |
| `StreamManager.RemoveDestination` | backend/services/StreamManager.ts:228-244 | null for an unknown stream or destination; otherwise exactly the first destination with the id is spliced out |
| `StreamManager.AddThenRemoveRestores` | backend/services/StreamManager.ts:210-244 | adding under an unused id and removing that id gives the original manager back |
| `StreamManager.SetStatusTwice` | backend/services/StreamManager.ts:162-181 | of two status writes in a row only the second shows |
| `ReStreamService.AccessUrl` | backend/services/ReStreamService.ts:264-271 | an endpoint without the scheme, a host or a one-line path is returned unchanged; an `rtmp://<host>/<rest>` endpoint with a one-line rest becomes `rtmp://<host>/` followed by the rest without its slashes; only slashes are ever removed |
| `ReStreamService.AccessUrlOfEndpoint` | backend/services/ReStreamService.ts:264-271 | `rtmp://<host>/<rest>` becomes `rtmp://<host>/` followed by `rest` without its slashes |
| `ReStreamService.AccessUrlIdempotent` | backend/services/ReStreamService.ts:264-271 | rewriting an access URL a second time changes nothing |
| `ReStreamService.FfmpegArgs` | backend/services/ReStreamService.ts:122-132 | nine arguments: `-i` and the access URL, then `-c copy -f flv -flags +global_header`, then `serverUrl/streamKey` |
| `ReStreamService.FfmpegArgsOfEndpoint` | backend/services/ReStreamService.ts:105-132 | a stream published at `rtmp://<host>/<rest>` is read from `rtmp://<host>/` followed by `rest` without its slashes |
| `ReStreamService.StartReStream` | backend/services/ReStreamService.ts:17-57 | with the access-URL call repaired (the spawn outcome is a parameter): an existing key answers true without spawning; a new key is registered with restart count 0 before the spawn; a failed spawn leaves the entry without a process and answers false; other keys are untouched |
| `ReStreamService.StartReStreamAsWritten` | backend/services/ReStreamService.ts:17-57 | as written: an existing key answers true; a new key keeps its placeholder entry without a process, nothing is spawned, no handler is attached, and the answer is false |
| `ReStreamService.StartAllRestreamsAsWritten` | backend/services/ReStreamService.ts:59-78 | as written: every destination's key is registered without a process, and no spawn and no exit handler results |
| `ReStreamService.StartAllFailingSpawnsNothing` | backend/services/ReStreamService.ts:17-78 | when every destination's spawn throws, the starts emit nothing, attach no handler and register only entries without a process |
| `ReStreamService.NoExitHandlerAsWritten` | backend/services/ReStreamService.ts:101-192 | as written no exit handler is ever attached, so after the starts every process exit, under either handler, changes nothing |
| `ReStreamService.StartAllRestreams` | backend/services/ReStreamService.ts:59-78 | every destination's key ends up registered, earlier entries are unchanged, only spawns are issued, and entries stay under their own keys |
| `ReStreamService.StopReStream` | backend/services/ReStreamService.ts:80-91 | the key's entry is removed and its process, if any, is killed; an absent key is a no-op |
| `ReStreamService.StopAllStreams` | backend/services/ReStreamService.ts:93-99 | exactly the entries of the stream are removed, each of their processes is killed, nothing else is, and entries stay under their own keys |
| `ReStreamService.GetStreamStatus` | backend/services/ReStreamService.ts:195-215 | running exactly when the key is registered, and then the uptime and restart count; otherwise not running with zero restarts |
| `ReStreamService.StatusAfterStartAndStop` | backend/services/ReStreamService.ts:17-215 | a started key reports running from its start time with no restarts, even when its spawn failed; after a stop it reports not running |
| `ReStreamService.BackoffSchedule` | backend/services/ReStreamService.ts:161-168 | the waits are 5, 10 and 20 seconds, each double the last, and a restart never waits more than 20 seconds |
| `ReStreamService.Restart` | backend/services/ReStreamService.ts:161-191 | with the access-URL call repaired (the respawn outcome is a parameter): a failed exit below three restarts waits, respawns with the same arguments and stores count + 1; otherwise, or when the respawn throws, the key goes |
| `ReStreamService.RestartAsWritten` | backend/services/ReStreamService.ts:161-191 | as written the respawn throws, so the key is removed and at most a wait is emitted |
| `ReStreamService.OnExitAsWritten` | backend/services/ReStreamService.ts:156-192 | the handler fires once and acts on the entry it captured, whatever the registry now holds under the key |
| `ReStreamService.StopThenExitAsWrittenRestarts` | backend/services/ReStreamService.ts:80-91 | with the access-URL call repaired but the handler as written, a stopped key comes back: the killed process exits with null, which counts as a failure, and the handler re-registers the key |
| `ReStreamService.StopIsUndoneAsWritten` | backend/services/ReStreamService.ts:156-191 | with the access-URL call repaired but the handler as written, the concrete start, stop and exit with code null of stream `s` and destination `d` re-registers `s-d` |
| `ReStreamService.OnExit` | backend/services/ReStreamService.ts:156-192 | the corrected handler acts only for the process still registered under its key; any other process only loses its handler |
| `ReStreamService.ExitNeverResurrects` | backend/services/ReStreamService.ts:156-192 | with the corrected handler no exit brings back a key the registry does not hold |
| `ReStreamService.StopIsFinal` | backend/services/ReStreamService.ts:80-91 | with the corrected handler a stopped key stays stopped |
| `ReStreamService.ExitOfCurrentProcess` | backend/services/ReStreamService.ts:161-191 | the registered process's exit keeps its key exactly when the code is not 0, fewer than three restarts happened and the respawn works; the count grows by one |
| `ReStreamService.CountsStayBounded` | backend/services/ReStreamService.ts:14 | no operation ever takes a restart count above three |
| `ReStreamService.WellKeyedPreserved` | backend/services/ReStreamService.ts:17-191 | start, stop and both exit handlers keep each entry, and each entry an exit handler captured, under the key `<streamId>-<destinationId>` of its own ids |
| `StreamUrl.UrlStartsWithLocalhost` | backend/utils/stream.ts:5-7 | the internal address always points at the local ingest server |
| `StreamUrl.UrlNamesPortThenRoot` | backend/utils/stream.ts:5-7 | the address names the configured port, then the link root between slashes |
| `StreamUrl.UrlEndsWithKey` | backend/utils/stream.ts:5-7 | the address ends with `/<apiKey>` |
| `StreamUrl.UrlInjective` | backend/utils/stream.ts:5-7 | two keys with the same address are the same key |
| `StreamMgrService.ResetDestinations` | backend/service/StreamMgrService.ts:65-68 | every destination becomes Disconnected without an error and keeps its configuration |
| `StreamMgrService.StartStream` | backend/service/StreamMgrService.ts:51-72 | succeeds exactly for a known Stopped stream; an unknown id or a stream that is not Stopped fails; otherwise only that stream changes: Waiting, destinations reset |
| `StreamMgrService.StopStream` | backend/service/StreamMgrService.ts:74-90 | succeeds exactly for a known stream that is not Stopped; otherwise it fails; on success it becomes Stopped, its client is kicked and its processes are stopped |
| `StreamMgrService.OnInjestStarted` | backend/service/StreamMgrService.ts:93-108 | only a Waiting stream record is accepted; it is written back Live and its processes are started |
| `StreamMgrService.OnInjestStopped` | backend/service/StreamMgrService.ts:111-125 | an unknown id fails; a Live stream goes back to Waiting and its processes stop; any other stream is left alone |
| `StreamMgrService.OnProcessStatus` | backend/service/StreamMgrService.ts:137-163 | the first destination with the process's id takes the state its status maps to; nothing else changes |
| `StreamMgrService.DestinationStateMapping` | backend/service/StreamMgrService.ts:148-158 | Starting shows as Connecting, Running as Live, and Stopping or Stopped as Disconnected, each in both directions |
| `StreamMgrService.RestoreStartsEveryActiveStream` | backend/service/StreamMgrService.ts:16-45 | with distinct ids the startup restore never fails, keeps Stopped streams, restarts every other stream as Waiting, then enables ingest |
| `StreamMgrService.StartStreamNotRepeatable` | backend/service/StreamMgrService.ts:51-62 | a second start right after a first one fails |
| `StreamMgrService.StartThenStop` | backend/service/StreamMgrService.ts:51-90 | a start and then a stop leave the stream Stopped, kick its client and stop its processes |
| `StreamMgrService.InjestStartThenStop` | backend/service/StreamMgrService.ts:93-125 | ingest start of a Waiting stream makes it Live and starts its processes; the ingest stop that follows gives back the store as it was and stops the processes |
| `StreamCrudService.GenerateUniqueApiKey` | backend/service/StreamCrudService.ts:16-29 | the key is the first draw whose 64-character hex rendering no stream holds; none exactly when every draw collides |
| `StreamCrudService.ValidateStreamState` | backend/service/StreamCrudService.ts:31-37 | succeeds exactly for a known Stopped stream, with its position; an unknown stream is not found and a stream that is not Stopped is refused |
| `StreamCrudService.CreateStream` | backend/service/StreamCrudService.ts:43-63 | fails exactly when every key draw collides; otherwise a Stopped stream with a fresh 64-hex key from the draws and its public endpoint is appended with the caller's name, start time, destinations and flags, and both lookups find it |
| `StreamCrudService.AppendedIsFound` | backend/service/StreamCrudService.ts:43-63 | a stream appended under an unused id and key is what `findById` and `findByApiKey` return |
| `StreamCrudService.MergeStream` | backend/service/StreamCrudService.ts:76-82 | the id, api key and creation time survive any patch |
| `StreamCrudService.UpdateStream` | backend/service/StreamCrudService.ts:65-89 | only a Stopped stream is updated; each present field (name, endpoint, state, start time, destinations, flags) is written and each absent one kept; protected fields never change; the result says whether anything changed |
| `StreamCrudService.ProtectedFieldsNeverWritten` | backend/service/StreamCrudService.ts:76-82 | a patch naming only protected fields changes nothing |
| `StreamCrudService.DeleteStream` | backend/service/StreamCrudService.ts:91-99 | only a Stopped stream is deleted, and exactly that record goes |
| `StreamCrudService.DeleteThenNotFound` | backend/service/StreamCrudService.ts:91-99 | with distinct ids a deleted stream is no longer found, and every further mutation of it fails as not found |
| `StreamCrudService.FreshDestinationId` | backend/service/StreamCrudService.ts:124-128 | the first UUID draw no destination of the stream uses |
| `StreamCrudService.AppendDestination` | backend/service/StreamCrudService.ts:130-148 | the new destination goes last with the given id, Disconnected, and every other field (platform, key, server URL, error, enabled, flags) taken from the draft; the stream's other fields and the rest of the store are unchanged |
| `StreamCrudService.AppendedAt` | backend/service/StreamCrudService.ts:130-148 | after the append the stream keeps its position and still validates, and the new id is in use |
| `StreamCrudService.AddDestination` | backend/service/StreamCrudService.ts:113-156 | refused like every mutation; for a Stopped stream it fails exactly when every UUID draw is taken; otherwise the draft is appended, Disconnected, under the first UUID draw the stream does not use, and nothing else in the stream or the store changes |
| `StreamCrudService.WithoutDestination` | backend/service/StreamCrudService.ts:179-181 | no destination with the id remains; an unused id changes nothing |
| `StreamCrudService.WithoutKeepsOthers` | backend/service/StreamCrudService.ts:179-181 | the filter keeps exactly the destinations with other ids |
| `StreamCrudService.RemoveDestination` | backend/service/StreamCrudService.ts:158-198 | succeeds exactly for a Stopped stream holding the destination id; an unknown destination is not found; otherwise every destination with the id goes |
| `StreamCrudService.AddThenRemoveRestores` | backend/service/StreamCrudService.ts:113-198 | adding under a fresh id and removing that id gives the original store back |
| `StreamCrudService.MergeDestination` | backend/service/StreamCrudService.ts:222-225 | a destination keeps its id under any patch |
| `StreamCrudService.UpdateDestination` | backend/service/StreamCrudService.ts:200-247 | succeeds exactly for a Stopped stream holding the destination when the merge changes it; an unknown destination is not found; a patch that changes nothing fails; otherwise only that destination is replaced by the merge |
| `StreamCrudService.UpdateDestinationThenLookup` | backend/service/StreamCrudService.ts:200-247 | after an update the stream and the destination sit where they were, and the destination is the merge of the old one with the patch |
| `StreamCrudService.MutationsNeedStopped` | backend/service/StreamCrudService.ts:31-37 | every mutation fails with the same fault for an unknown stream or one that is not Stopped |
| `FfmpegRunnerService.BuildFfmpegArgsShape` | backend/service/FfmpegRunnerService.ts:198-218 | the arguments read the internal feed, copy video, use AAC audio and FLV, pass the stream flags through unchanged and write to `serverUrl/streamKey` |
| `FfmpegRunnerService.StartFfmpegProcess` | backend/service/FfmpegRunnerService.ts:91-110 | a new Starting process record under the next number, spawned and announced |
| `FfmpegRunnerService.LaunchAll` | backend/service/FfmpegRunnerService.ts:68-78 | one Starting process per destination, in list order under consecutive numbers, leaving older records alone; the effects are, per destination, the spawn of its `BuildFfmpegArgs` command under its number followed by its Starting report |
| `FfmpegRunnerService.StartStream` | backend/service/FfmpegRunnerService.ts:62-79 | refused while the stream has processes; otherwise one Starting process per destination, disabled ones included, under consecutive numbers that become its list, each spawned with its `BuildFfmpegArgs` command and reported Starting, in list order |
| `FfmpegRunnerService.KillProcess` | backend/service/FfmpegRunnerService.ts:112-121 | only a Starting or Running process is signalled and becomes Stopping |
| `FfmpegRunnerService.KillIdempotent` | backend/service/FfmpegRunnerService.ts:112-121 | a second kill does nothing |
| `FfmpegRunnerService.KillAll` | backend/service/FfmpegRunnerService.ts:81-89 | exactly the listed killable processes become Stopping, and the effects are the signal and Stopping report of each, at its first mention, in list order |
| `FfmpegRunnerService.SignalsKillExactlyKillable` | backend/service/FfmpegRunnerService.ts:81-89 | a kill signal goes to a process exactly when it is listed and Starting or Running |
| `FfmpegRunnerService.StopStream` | backend/service/FfmpegRunnerService.ts:81-89 | every Starting or Running process of the stream becomes Stopping and is signalled and reported in list order; the lists are kept |
| `FfmpegRunnerService.OnProcessError` | backend/service/FfmpegRunnerService.ts:123-128 | the error is recorded only on a Stopping or Stopped process, and the status never changes |
| `FfmpegRunnerService.OnProcessUpdate` | backend/service/FfmpegRunnerService.ts:130-144 | Starting becomes Running exactly on "Stream mapping:" and is announced; a Running process refreshes its heartbeat on "frame=" and announces nothing; every other chunk, status or unknown process changes nothing |
| `FfmpegRunnerService.OnStderr` | backend/service/FfmpegRunnerService.ts:177-191 | error chunks go to the error path and everything else to the update path |
| `FfmpegRunnerService.StderrOnlyPromotes` | backend/service/FfmpegRunnerService.ts:177-191 | stderr output can only promote Starting to Running |
| `Text.FirstIndex` | backend/service/FfmpegRunnerService.ts:159 | the first position holding the value, or -1 exactly when it is absent |
| `FfmpegRunnerService.SpliceOut` | backend/service/FfmpegRunnerService.ts:157-160 | removes the first occurrence of the process from the list, or the last entry when the process is absent |
| `FfmpegRunnerService.OnProcessExit` | backend/service/FfmpegRunnerService.ts:146-167 | the process ends Stopped; a non-zero or missing code is recorded; it leaves its stream's list, and an emptied list is dropped |
| `FfmpegRunnerService.KillThenExit` | backend/service/FfmpegRunnerService.ts:112-167 | a killed process that exits ends Stopped, and cannot be killed again |
| `RtmpInjestService.ExtractStreamKey` | backend/service/RtmpInjestService.ts:123-129 | no key exactly when the path with the cleaned root cut out is all slashes; otherwise the key has no slash at either end and is that remainder between a run of slashes before and after |
| `RtmpInjestService.ExtractStreamKeyOfIngestPath` | backend/service/RtmpInjestService.ts:123-129 | `/<root>/<key>` gives the key back |
| `RtmpInjestService.SetAcceptEnabled` | backend/service/RtmpInjestService.ts:40-42 | only the switch changes |
| `RtmpInjestService.KickClient` | backend/service/RtmpInjestService.ts:45-51 | the session recorded for the stream is rejected exactly when it is non-empty and still live |
| `RtmpInjestService.PreConnect` | backend/service/RtmpInjestService.ts:53-81 | refused while switched off or without an app; admitted exactly when the key names a stream that is Waiting for a publisher or Live for a player |
| `RtmpInjestService.PostPublish` | backend/service/RtmpInjestService.ts:83-104 | accepted exactly when the key finds a Waiting stream; then the session is recorded and the ingest announced; anything else is rejected and changes nothing |
| `RtmpInjestService.DonePublish` | backend/service/RtmpInjestService.ts:106-120 | a known key announces the stop; an unknown key is an error; the session table stays |
| `RtmpInjestService.PublishThenDone` | backend/service/RtmpInjestService.ts:83-120 | an accepted publish is matched by its done event on the same path: the same stream is announced stopped and the table keeps the session |
| `RtmpInjestService.CleanRootFirstMatch` | backend/service/RtmpInjestService.ts:124-125 | a slash-free root is first found right after the leading slash of `/<root>/<key>` |
| `RtmpInjestService.RefusedUntilEnabled` | backend/service/RtmpInjestService.ts:19-23 | the gateway as constructed refuses every connection |
| `RtmpInjestService.SwitchDecidesAdmission` | backend/service/RtmpInjestService.ts:40-81 | switched off it refuses everything; switched on its answer never depends on the session table |
| `RtmpInjestService.PublishThenKick` | backend/service/RtmpInjestService.ts:45-104 | a publisher ingesting into a Waiting stream starts it, and a kick afterwards finds its session |
| `NestModel.GetStream` | backend/src/stream/stream-crud.service.ts:30-32 | the first stream with the id, or none exactly when there is none |
| `NestModel.UpdateStream` | backend/src/stream/stream-crud.service.ts:38-44 | the record replaces the first stream with its id, and no record is inserted for an unknown id |
| `NestModel.ValidateRelay` | backend/src/models/stream-relay-destination.model.ts:9-39 | accepted exactly when the platform is one of the four and the key and server URL are present; state defaults to Disconnected and enabled to true |
| `NestModel.WithoutRelayKeepsOthers` | backend/src/stream/stream-relay.service.ts:63-65 | the filter keeps exactly the relays with other ids |
| `NestStreamRelayService.GetRelays` | backend/src/stream/stream-relay.service.ts:17-24 | the stream's destinations, or none exactly when the stream is unknown |
| `NestStreamRelayService.AddNewRelay` | backend/src/stream/stream-relay.service.ts:26-42 | an unknown stream is ignored; an invalid draft fails; otherwise the validated relay is appended |
| `NestStreamRelayService.RemoveRelay` | backend/src/stream/stream-relay.service.ts:44-67 | unknown streams and relays are ignored; a relay that is not Disconnected is refused; otherwise its id goes |
| `NestStreamRelayService.RestartRelay` | backend/src/stream/stream-relay.service.ts:69-71 | changes nothing |
| `NestStreamRelayService.AddThenRemoveRestores` | backend/src/stream/stream-relay.service.ts:26-67 | adding a Disconnected relay under an unused id and removing it gives the original store back |
| `NestStreamMgrService.StartStream` | backend/src/stream/stream-mgr.service.ts:16-44 | an unknown stream is ignored; a stream that is not Stopped is refused; otherwise only its state becomes Waiting |
| `NestStreamMgrService.StopStream` | backend/src/stream/stream-mgr.service.ts:46-66 | an unknown stream is ignored; otherwise only its state becomes Stopped |
| `NestStreamMgrService.StopIdempotent` | backend/src/stream/stream-mgr.service.ts:46-66 | a second stop changes nothing |
| `NestStreamMgrService.StartThenStopRestores` | backend/src/stream/stream-mgr.service.ts:16-66 | a start and then a stop give the original store back |
| `NestStreamMgrService.StartNotRepeatable` | backend/src/stream/stream-mgr.service.ts:16-44 | a started stream cannot be started again |
| `NestRelayRunner.IsRelayRunning` | backend/src/relay/stream-relay-runner.service.ts:28-35 | true exactly when a handle is registered for the stream and destination |
| `NestRelayRunner.RelayCommandShape` | backend/src/relay/stream-relay-runner.service.ts:39-64 | the relay reads the local watch root, keeps the three fixed options first, passes the flags through and writes to `serverUrl/streamKey` |
| `NestRelayRunner.StartRelay` | backend/src/relay/stream-relay-runner.service.ts:37-72 | refused exactly when a handle exists; otherwise a fresh handle is registered and launched; no other key changes |
| `NestRelayRunner.StopRelay` | backend/src/relay/stream-relay-runner.service.ts:74-95 | a registered handle that is not exiting is removed, announced once and killed; otherwise nothing happens |
| `NestRelayRunner.StopRelayIdempotent` | backend/src/relay/stream-relay-runner.service.ts:74-95 | a second stop announces and kills nothing |
| `NestRelayRunner.StartThenStop` | backend/src/relay/stream-relay-runner.service.ts:37-95 | start then stop frees the key, kills the launched handle and leaves every other key as before |
| `NestRelayRunner.NoneExitingPreserved` | backend/src/relay/stream-relay-runner.service.ts:87-94 | no registered handle is ever left marked exiting |
| `NestRelayRunner.OnFfmpegStart` | backend/src/relay/stream-relay-runner.service.ts:97-100 | only announces the start |
| `NestRelayRunner.OnFfmpegStop` | backend/src/relay/stream-relay-runner.service.ts:102-105 | the handle registered under the key, if not already exiting, is removed, announced once and killed; otherwise nothing happens; no other key changes |
| `NestRelayRunner.OnFfmpegError` | backend/src/relay/stream-relay-runner.service.ts:107-112 | an error event first, then the same stop as a process end |
| `NestRelayRunner.StaleCallbackStopsNewerRelay` | backend/src/relay/stream-relay-runner.service.ts:64-112 | as written, the end or error callback of a stopped process kills a relay started again under the same key |
| `NestRelayRunner.OnFfmpegStopOf` | backend/src/relay/stream-relay-runner.service.ts:102-105 | the end callback of the registered process stops it; that of any other process changes nothing |
| `NestRelayRunner.OnFfmpegErrorOf` | backend/src/relay/stream-relay-runner.service.ts:107-112 | the error callback of the registered process is announced and stops it; that of any other process changes nothing |
| `NestRelayRunner.StaleCallbackIgnored` | backend/src/relay/stream-relay-runner.service.ts:64-112 | with the handle-checked callbacks, a report from a process no longer registered changes neither the registry nor the effects |
| `NestRelayRunner.RestartSurvivesStaleCallback` | backend/src/relay/stream-relay-runner.service.ts:37-112 | with the handle-checked callbacks, a relay started again after a stop survives the old process's report |
| `NestRelayService.StopAllRelay` | backend/src/relay/stream-relay.service.ts:119-134 | every enabled, id-bearing relay that is not Disconnected is stopped, and no other registry entry changes |
| `NestRelayService.StartAllRelay` | backend/src/relay/stream-relay.service.ts:79-117 | nothing for a stream without destinations; otherwise the stop runs first, every enabled, id-bearing destination ends with a running relay, and the started count is bounded by them |
| `NestRelayService.ScanRelay` | backend/src/relay/stream-relay.service.ts:154-162 | the first destination with the id; a destination without an id met earlier fails the scan |
| `NestRelayService.UpdateRelayState` | backend/src/relay/stream-relay.service.ts:148-165 | fails exactly when the stream exists and the scan meets an id-less destination before the id; otherwise only the first destination with the id takes the state, and the stream is written back either way |
| `NestRelayService.OnRunnerStarted` | backend/src/relay/stream-relay.service.ts:136-140 | the relay is shown Live |
| `NestRelayService.OnRunnerStopped` | backend/src/relay/stream-relay.service.ts:142-146 | the relay is shown Disconnected |
| `NestRelayService.UpdateRelayStateWithIds` | backend/src/relay/stream-relay.service.ts:148-165 | when every destination has an id the update cannot fail |
| `NestRtmpServer.ExtractStreamKey` | backend/src/rtmp-server/rtmp-server.service.ts:202-209 | the text after the last slash, empty when no slash follows the first character |
| `NestRtmpServer.ExtractStreamKeyOfPath` | backend/src/rtmp-server/rtmp-server.service.ts:202-209 | `<prefix>/<key>` gives the key back |
| `NestRtmpServer.SessionAndKey` | backend/src/rtmp-server/rtmp-server.service.ts:176-193 | an empty key when the session or path is missing; with both present, the session and the key extracted from the path |
| `NestRtmpServer.ValidationForms` | backend/src/rtmp-server/rtmp-server.service.ts:211-226 | the ingest check is a prefix test and the watch check a substring test |
| `NestRtmpServer.OnPrePublish` | backend/src/rtmp-server/rtmp-server.service.ts:53-78 | admitted exactly when the key is non-empty, the URL passes the ingest check and the key names a Waiting stream |
| `NestRtmpServer.OnPostPublish` | backend/src/rtmp-server/rtmp-server.service.ts:83-108 | an empty key is rejected; a forbidden URL is ignored without a rejection; a Waiting stream found by its key from an allowed URL records its session and key and is announced; anything else is rejected |
| `NestRtmpServer.OnDonePublish` | backend/src/rtmp-server/rtmp-server.service.ts:113-132 | accepted exactly when the key finds a Live stream; then its session entry goes, its key entry stays and the stop is announced |
| `NestRtmpServer.PlayPath` | backend/src/rtmp-server/rtmp-server.service.ts:170 | the play path starts with a slash, has no double slashes and keeps every other character; for a plain root and key it is exactly `/<root>/<key>` |
| `NestRtmpServer.OnPrePlay` | backend/src/rtmp-server/rtmp-server.service.ts:139-171 | a local or valid watcher of a stream with a recorded key is redirected to that key's ingest path; everything else is refused |
| `NestRtmpServer.PublishThenWatch` | backend/src/rtmp-server/rtmp-server.service.ts:53-171 | a Waiting stream published from an allowed URL is admitted, and a local watcher is then redirected to its key |
| `NestRtmpServer.PublishThenDone` | backend/src/rtmp-server/rtmp-server.service.ts:83-132 | once an admitted publish has taken the stream Live, its done hook ends the ingest: the session entry goes, the key entry stays and the stop is announced |
| `NestRtmpServer.SingleSlashes` | backend/src/rtmp-server/rtmp-server.service.ts:170 | `/<root>/<key>` has no doubled slash for a non-empty slash-free root and a slash-free key |
| `Hex.DecodeEncode` | backend/services/StreamManager.ts:249-251 | the hex rendering of a buffer decodes back to the buffer |
| `Hex.EncodeInjective` | backend/service/StreamCrudService.ts:21-23 | different buffers never render to the same key |
| `Text.SplitJoin` | backend/service/FfmpegRunnerService.ts:211-213 | splitting the flags on spaces and re-joining them gives the flags back |

## Left out

- Processes, sockets, the media server and timers are not executed. Spawns, kills, rejections, events and backoff waits are returned as data. Concurrent interleavings of async handlers are not modelled; each handler runs as one step.
- Randomness (API keys, UUIDs) and the clock are parameters. The endless retry loops of `generateUniqueApiKey` and the destination-id loop become loops over a finite list of draws that fail when every draw is taken.
- Persistence is not part of this model: the JSON file load and save of `DatabaseService`, MongoDB and the repositories. The stores are in-memory sequences. Document ids assigned on insert are parameters.
- `captureScreenshot` in ReStreamService, the thumbnail and HLS services, the HTTP routes, controllers and the frontend are not part of this model.
- `startStream`, `stopStream` and the ingest handlers of the service snapshot that call into the runner and the gateway return those calls as effects; how those effects interleave with the event bus is left out.
- The stderr heartbeat timer and `shutdown` of FfmpegRunnerService, and `initialize` of the gateway and runner (server start, listeners), are not modelled beyond the accept switch.
- `ReStreamService.StartReStream`: as written, `createFFmpegProcess` calls the static `getStreamAccessUrl` through `this` (backend/services/ReStreamService.ts:105 and :264), where it is undefined, so every spawn throws and the answer is false. The `spawned` parameter models the call once it names `ReStreamService.getStreamAccessUrl`; `ReStreamService.StartReStreamAsWritten` is the behaviour as written.
- `ReStreamService.Restart`: for the same reason the respawn at backend/services/ReStreamService.ts:171 throws as written and the catch removes the key; the `respawned` parameter models the repaired call, and `ReStreamService.RestartAsWritten` is the behaviour as written. The exit-handler rows (`ReStreamService.StopThenExitAsWrittenRestarts`, `ReStreamService.StopIsUndoneAsWritten`) hold only once that call is repaired, since as written no handler is ever attached.
- `Database.Matches` compares numbers as unbounded integers. JavaScript numbers are IEEE doubles; fractions, `NaN` (never equal to itself) and `-0 === 0` in query matching are not modelled.
- `ReStreamService.StopAllStreams` visits the entries in the order a set choice gives rather than the map's insertion order. The final registry is the same; only the order of the kill effects may differ. It requires every entry to sit under its own `<streamId>-<destinationId>` key, which every operation keeps (`ReStreamService.WellKeyedPreserved`, `ReStreamService.StartAllRestreams` and `ReStreamService.StopAllStreams` itself).
- `ReStreamService.StartAllRestreams` runs the per-destination starts one after another. The source runs them under `Promise.all`, but each start registers its key before its first await, so the registrations happen in list order.
- `StreamManager.CreateStream` and `StreamManager.GenerateStreamKey` require a 16-byte buffer and `StreamCrudService.GenerateUniqueApiKey` 32-byte draws, the sizes the source allocates.
- `StreamManager.StartStream` and `StreamManager.StopStream`: the catch branches that write the Error status (backend/services/StreamManager.ts:104-110 and the one in `stopStream`) are not modelled, because the status write into the in-memory store cannot throw.
- `StreamManager.PrePublish`, `PostPublish` and `DonePublish` are stated through the key-level hooks `Admit`, `GoLive` and `EndPublish`. The media server's `getSession(id)` is assumed to return a session, since the source calls `reject` on it unchecked.
- `NestModel.GetByApiKey`: the NestJS `getByApiKey` body is not part of this model (the CRUD service file has no such method). It is taken as the first stream holding the key, like the other lookups.
- `NestRtmpServer`: rejecting a session that does not exist is a no-op in the source; the model still reports the hook as refusing.
- `RtmpInjestService`: the session table is written with bracket property access on a `Map` and `donePublish` deletes by session id through `Map.delete`, so entries are never removed. This is modelled as written.
- `FfmpegRunnerService.SpliceOut` keeps the source's behaviour for a process missing from its list: `indexOf` gives -1 and the splice drops the last entry.
- `FfmpegRunnerService.StartFfmpegProcess`: the empty-argument error branch cannot be reached, because the argument list always has at least nine entries.
- `StreamMgrService.Restore` models the restore over the list read once at startup. `StreamMgrService.RestoreStartsEveryActiveStream` requires distinct stream ids, which the document store guarantees.
- `NestStreamMgrService.StartStream` leaves the destination states as they are: the reset loop at backend/src/stream/stream-mgr.service.ts:30-35 is commented out, and the model follows the code.
- `NestRtmpServer.OnPostPublish` returns without rejecting a session whose connect URL fails the ingest check (backend/src/rtmp-server/rtmp-server.service.ts:91-93), and the model follows the code.

## Findings

| source | as written | input that shows it | evidently intended | confidence | as-written member | corrected member |
|---|---|---|---|---|---|---|
| backend/services/ReStreamService.ts:105 | `createFFmpegProcess` reads its input through `this.getStreamAccessUrl(stream)`, but `getStreamAccessUrl` is declared `public static` at line 264. On an instance it is undefined, so the call throws before `spawn`. `startReStream` catches it and answers false with its placeholder entry left registered, and the restart path's catch at line 185 deletes the key. | `startAllRestreams` of a stream with one destination on an empty registry: the key is registered without a process, nothing is spawned and no exit handler exists | the call names the class, `ReStreamService.getStreamAccessUrl(stream)`, so ffmpeg is spawned | high; not executed | `ReStreamService.StartReStreamAsWritten` (shown by `ReStreamService.NoExitHandlerAsWritten`) | `ReStreamService.StartReStream` (its spawn outcome models the repaired call; proved by `ReStreamService.StatusAfterStartAndStop` and `ReStreamService.WellKeyedPreserved`) |
| backend/services/ReStreamService.ts:80-91, 156-191 | Once the call at line 105 is repaired (as written no handler is ever attached): `stopReStream` deletes the entry and kills the process, but the exit handler stays attached and still holds the entry it captured. The kill ends the process by a signal, so `code` is `null`. `null !== 0` and a restart count below three make the handler restart the process and re-register the key. | `startReStream` of stream `s` to destination `d`, then `stopReStream("s", "d")`, then process 0 exits with code null: key `s-d` is registered again with a new process | a stopped relay stays stopped: the handler should ignore a process that is no longer the one registered under its key | not executed | `ReStreamService.OnExitAsWritten` (shown by `ReStreamService.StopThenExitAsWrittenRestarts` and `ReStreamService.StopIsUndoneAsWritten`) | `ReStreamService.OnExit` (proved by `ReStreamService.ExitNeverResurrects` and `ReStreamService.StopIsFinal`) |
| backend/src/relay/stream-relay-runner.service.ts:64-68, 74-112 | The end and error callbacks of a relay process ignore the `runner` they are given and call `stopRelay(streamId, destinationId)`, which acts on whatever handle is now registered under that key. `stopRelay` removes the key and kills the process, and the killed process reports back later. | start relay `d` of stream `s` (handle 0), stop it, start it again (handle 1), then handle 0's end or error callback runs: handle 1 is removed and killed | a callback should act only while its own process is the one registered under the key | not executed | `NestRelayRunner.OnFfmpegStop` and `NestRelayRunner.OnFfmpegError` (shown by `NestRelayRunner.StaleCallbackStopsNewerRelay`) | `NestRelayRunner.OnFfmpegStopOf` and `NestRelayRunner.OnFfmpegErrorOf` (proved by `NestRelayRunner.StaleCallbackIgnored` and `NestRelayRunner.RestartSurvivesStaleCallback`) |

=== FILE: database.dfy ===
/** The in-memory part of the Deno snapshot's JSON document store
    (backend/services/DatabaseService.ts): named collections of documents
    queried by field equality. Documents are maps from field names to
    primitive values; an absent field reads as `undefined`. Loading and saving
    the file are not part of this model. A collection that does not exist
    makes every operation fail, as reading a property of `undefined` does. */
module Database {
  import opened Outcomes

  /** The primitive values the store compares with `===`. */
  datatype Value = Str(s: string) | Num(n: int) | Bool(b: bool) | Null | Undefined

  type Doc = map<string, Value>
  type Query = map<string, Value>
  type Collection = seq<Doc>
  type Db = map<string, Collection>

  /** `item[key]`. */
  function Field(d: Doc, key: string): Value {
    if key in d then d[key] else Undefined
  }

  /** Every entry of the query equals the item's field. */
  predicate Matches(d: Doc, q: Query) {
    forall k | k in q :: Field(d, k) == q[k]
  }

  /** The matching documents in collection order (`filter`). */
  function Filter(c: Collection, q: Query): (r: Collection)
    ensures |r| <= |c|
    ensures forall i | 0 <= i < |r| :: Matches(r[i], q)
    ensures forall i | 0 <= i < |c| && Matches(c[i], q) :: c[i] in r
  {
    if |c| == 0 then []
    else if Matches(c[0], q) then [c[0]] + Filter(c[1..], q)
    else Filter(c[1..], q)
  }

  /** The documents that do not match, in collection order. */
  function Reject(c: Collection, q: Query): (r: Collection)
    ensures |r| <= |c|
    ensures forall i | 0 <= i < |r| :: !Matches(r[i], q)
    ensures forall i | 0 <= i < |c| && !Matches(c[i], q) :: c[i] in r
  {
    if |c| == 0 then []
    else if Matches(c[0], q) then Reject(c[1..], q)
    else [c[0]] + Reject(c[1..], q)
  }

  /** Position of the first matching document, or -1 (`findIndex`). */
  function FirstMatch(c: Collection, q: Query): (r: int)
    ensures -1 <= r < |c|
    ensures r >= 0 ==> Matches(c[r], q) && forall j | 0 <= j < r :: !Matches(c[j], q)
    ensures r == -1 ==> forall j | 0 <= j < |c| :: !Matches(c[j], q)
  {
    if |c| == 0 then -1
    else if Matches(c[0], q) then 0
    else var k := FirstMatch(c[1..], q); if k < 0 then -1 else k + 1
  }

  /** `findOne`: the first matching document, if any. */
  function FindOne(db: Db, name: string, q: Query): (r: Result<Option<Doc>>)
    ensures r.Err? <==> name !in db
    ensures r.Err? ==> r.fault == NotFound
    ensures r.Ok? ==>
      var i := FirstMatch(db[name], q);
      && (r.value.None? <==> i == -1)
      && (r.value.Some? ==> r.value.value == db[name][i])
  {
    if name !in db then Err(NotFound)
    else
      var i := FirstMatch(db[name], q);
      Ok(if i < 0 then None else Some(db[name][i]))
  }

  /** `find`: every matching document, in collection order. */
  function Find(db: Db, name: string, q: Query): (r: Result<Collection>)
    ensures r.Err? <==> name !in db
    ensures r.Err? ==> r.fault == NotFound
    ensures r.Ok? ==> r.value == Filter(db[name], q)
  {
    if name !in db then Err(NotFound) else Ok(Filter(db[name], q))
  }

  /** `insertOne`: the document goes at the end and is returned. */
  function InsertOne(db: Db, name: string, d: Doc): (r: Result<(Db, Doc)>)
    ensures r.Err? <==> name !in db
    ensures r.Err? ==> r.fault == NotFound
    ensures r.Ok? ==> r.value == (db[name := db[name] + [d]], d)
  {
    if name !in db then Err(NotFound) else Ok((db[name := db[name] + [d]], d))
  }

  /** `{ ...stored, ...data }`: every field of `data` wins, the other fields
      of `stored` stay. */
  function Merge(stored: Doc, data: Doc): (r: Doc)
    ensures forall k | k in data :: k in r && r[k] == data[k]
    ensures forall k | k in stored && k !in data :: k in r && r[k] == stored[k]
    ensures forall k | k in r :: k in stored || k in data
  {
    stored + data
  }

  /** `updateOne`: the first match is replaced by the merge and returned; with
      no match nothing changes and the answer is null. */
  function UpdateOne(db: Db, name: string, q: Query, data: Doc): (r: Result<(Db, Option<Doc>)>)
    ensures r.Err? <==> name !in db
    ensures r.Err? ==> r.fault == NotFound
    ensures r.Ok? ==>
      var c := db[name];
      var i := FirstMatch(c, q);
      && (i == -1 ==> r.value == (db, None))
      && (i >= 0 ==>
            && r.value.1 == Some(Merge(c[i], data))
            && r.value.0.Keys == db.Keys
            && (forall n | n in db && n != name :: r.value.0[n] == db[n])
            && |r.value.0[name]| == |c|
            && r.value.0[name][i] == Merge(c[i], data)
            && forall j | 0 <= j < |c| && j != i :: r.value.0[name][j] == c[j])
  {
    if name !in db then Err(NotFound)
    else
      var c := db[name];
      var i := FirstMatch(c, q);
      if i < 0 then Ok((db, None))
      else
        var merged := Merge(c[i], data);
        Ok((db[name := c[i := merged]], Some(merged)))
  }

  /** `deleteOne`: every matching document goes, not only the first; the
      answer says whether the collection shrank. */
  function DeleteOne(db: Db, name: string, q: Query): (r: Result<(Db, bool)>)
    ensures r.Err? <==> name !in db
    ensures r.Err? ==> r.fault == NotFound
    ensures r.Ok? ==>
      && r.value.0 == db[name := Reject(db[name], q)]
      && (r.value.1 <==> FirstMatch(db[name], q) >= 0)
  {
    if name !in db then Err(NotFound)
    else
      var kept := Reject(db[name], q);
      RejectShrinks(db[name], q);
      Ok((db[name := kept], |kept| < |db[name]|))
  }

  /** Rejecting drops exactly the matching documents, so the collection
      shrinks exactly when one matches. */
  lemma {:induction false} RejectShrinks(c: Collection, q: Query)
    ensures |Reject(c, q)| + |Filter(c, q)| == |c|
    ensures |Reject(c, q)| < |c| <==> FirstMatch(c, q) >= 0
  {
    if |c| > 0 {
      RejectShrinks(c[1..], q);
    }
  }

  /** `find` keeps collection order: the matches of a concatenation are the
      matches of each part, in turn. */
  lemma {:induction false} FilterConcat(a: Collection, b: Collection, q: Query)
    ensures Filter(a + b, q) == Filter(a, q) + Filter(b, q)
  {
    if |a| == 0 {
      assert a + b == b;
    } else {
      assert (a + b)[1..] == a[1..] + b;
      FilterConcat(a[1..], b, q);
    }
  }

  /** The empty query matches every document. */
  lemma {:induction false} EmptyQueryFindsAll(c: Collection)
    ensures Filter(c, map[]) == c
  {
    if |c| > 0 {
      EmptyQueryFindsAll(c[1..]);
    }
  }

  /** `findOne` is the head of `find`. */
  lemma {:induction false} FindOneIsFirstOfFind(c: Collection, q: Query)
    ensures var i := FirstMatch(c, q);
      && (i == -1 <==> Filter(c, q) == [])
      && (i >= 0 ==> Filter(c, q)[0] == c[i])
  {
    if |c| > 0 && !Matches(c[0], q) {
      FindOneIsFirstOfFind(c[1..], q);
    }
  }

  /** After a delete no document of the collection matches the query. */
  lemma DeleteThenFindNone(db: Db, name: string, q: Query)
    requires name in db
    ensures var d := DeleteOne(db, name, q).value.0;
      FindOne(d, name, q) == Ok(None) && Find(d, name, q) == Ok([])
  {
    var kept := Reject(db[name], q);
    assert FirstMatch(kept, q) == -1;
    FindOneIsFirstOfFind(kept, q);
  }

  /** An inserted document that no earlier one precedes in matching is what
      `findOne` returns for the query. */
  lemma InsertThenFindOne(db: Db, name: string, d: Doc, q: Query)
    requires name in db && Matches(d, q)
    requires FirstMatch(db[name], q) == -1
    ensures var ins := InsertOne(db, name, d).value.0;
      FindOne(ins, name, q) == Ok(Some(d))
  {
    var c := db[name];
    var c1 := c + [d];
    assert c1[|c|] == d;
    assert forall j | 0 <= j < |c| :: c1[j] == c[j];
    assert FirstMatch(c1, q) == |c|;
  }
}

=== FILE: ffmpeg_runner_service.dfy ===
/** Transcoder process runner of the `backend/service` snapshot
    (backend/service/FfmpegRunnerService.ts). Process objects are shared by
    reference in the source; here each has a process number (`pid`) into a
    table, and the per-stream lists hold process numbers. Spawning, signals and
    emitted status events are returned as effects. */
module FfmpegRunnerService {
  import opened Outcomes
  import opened ServiceModel
  import opened Text
  import StreamUrl

  /** One transcoder process record (`FfmpegProcess`). */
  datatype Proc = Proc(
    stream: string, destination: string, status: ProcessStatus,
    error: Option<string>, lastHeartbeat: int)

  /** `activeStreams` plus the table of process records. */
  datatype Runner = Runner(procs: map<nat, Proc>, active: map<string, seq<nat>>, nextPid: nat)

  datatype Effect =
    | Spawn(pid: nat, args: seq<string>)   // spawn("ffmpeg", args)
    | Kill(pid: nat)                       // process.kill("SIGTERM")
    | StatusChanged(report: ProcessReport) // emit("process:status", process)

  datatype Step = Step(runner: Runner, effects: seq<Effect>)

  function Report(pid: nat, p: Proc): ProcessReport {
    ProcessReport(p.stream, p.destination, p.status)
  }

  /** Options placed between the input and the output address. */
  const FixedArgs: seq<string> := ["-c:v", "copy", "-c:a", "aac", "-f", "flv"]

  /** The stream-wide flags split on single spaces; nothing when absent or empty. */
  function ExtraFlags(s: Stream): seq<string> {
    if s.ffmpegFlags.Some? && s.ffmpegFlags.value != "" then Split(s.ffmpegFlags.value, ' ') else []
  }

  /** `BuildFfmpegArgs(stream, destination)`. */
  function BuildFfmpegArgs(cfg: StreamUrl.IngestConfig, s: Stream, d: Destination): seq<string> {
    ["-i", StreamUrl.InternalRtmpUrl(cfg, s.apiKey)] + FixedArgs + ExtraFlags(s)
      + [d.serverUrl + "/" + d.streamKey]
  }

  /** The argument list reads the internal feed of the stream, copies video,
      transcodes audio to AAC, forces FLV, passes the stream's flags through
      unchanged (re-joining them gives the configured string back) and writes
      to the destination's server URL and key. It is never empty. */
  lemma BuildFfmpegArgsShape(cfg: StreamUrl.IngestConfig, s: Stream, d: Destination)
    ensures var a := BuildFfmpegArgs(cfg, s, d);
            && |a| >= 9
            && a[0] == "-i" && a[1] == StreamUrl.InternalRtmpUrl(cfg, s.apiKey)
            && a[2..8] == ["-c:v", "copy", "-c:a", "aac", "-f", "flv"]
            && a[|a| - 1] == d.serverUrl + "/" + d.streamKey
            && (s.ffmpegFlags.Some? && s.ffmpegFlags.value != "" ==>
                  Join(a[8..|a| - 1], ' ') == s.ffmpegFlags.value)
            && (s.ffmpegFlags.None? || s.ffmpegFlags.value == "" ==> |a| == 9)
  {
    var a := BuildFfmpegArgs(cfg, s, d);
    assert a[8..|a| - 1] == ExtraFlags(s);
    if s.ffmpegFlags.Some? && s.ffmpegFlags.value != "" {
      SplitJoin(s.ffmpegFlags.value, ' ');
    }
  }

  /** `startFfmpegProcess(stream, destination)`: a new Starting process under
      the next process number. */
  function StartFfmpegProcess(r: Runner, cfg: StreamUrl.IngestConfig, s: Stream, d: Destination, now: int)
    : (out: Result<Step>)
    ensures out.Ok?
    ensures out.value.runner == r.(procs := r.procs[r.nextPid := Proc(s.id, d.id, Starting, None, now)],
                                   nextPid := r.nextPid + 1)
    ensures out.value.effects ==
      [Spawn(r.nextPid, BuildFfmpegArgs(cfg, s, d)), StatusChanged(ProcessReport(s.id, d.id, Starting))]
  {
    var args := BuildFfmpegArgs(cfg, s, d);
    if |args| == 0 then Err(InvalidArgs)
    else
      var p := Proc(s.id, d.id, Starting, None, now);
      Ok(Step(r.(procs := r.procs[r.nextPid := p], nextPid := r.nextPid + 1),
              [Spawn(r.nextPid, args), StatusChanged(Report(r.nextPid, p))]))
  }

  /** The table holds record `p` under number `q`. */
  predicate Records(procs: map<nat, Proc>, q: nat, p: Proc) {
    q in procs && procs[q] == p
  }

  /** `after` is `before` with one Starting process per destination, in list
      order under consecutive numbers from `before.nextPid`, and every older
      record left alone. */
  predicate Launched(before: Runner, after: Runner, s: Stream, ds: seq<Destination>, now: int) {
    && after.nextPid == before.nextPid + |ds| && after.active == before.active
    && (forall k: nat | k < |ds| ::
          Records(after.procs, before.nextPid + k, Proc(s.id, ds[k].id, Starting, None, now)))
    && (forall q | q in before.procs && !(before.nextPid <= q < before.nextPid + |ds|) ::
          q in after.procs && after.procs[q] == before.procs[q])
    && (forall q | q in after.procs :: q in before.procs || before.nextPid <= q < before.nextPid + |ds|)
  }

  /** Launching the first destination and then the rest launches them all. */
  lemma LaunchedStep(r: Runner, out: Runner, s: Stream, ds: seq<Destination>, now: int)
    requires |ds| > 0
    requires Launched(r.(procs := r.procs[r.nextPid := Proc(s.id, ds[0].id, Starting, None, now)],
                         nextPid := r.nextPid + 1), out, s, ds[1..], now)
    ensures Launched(r, out, s, ds, now)
  {
    var p := r.nextPid;
    var tail := ds[1..];
    var r1 := r.(procs := r.procs[p := Proc(s.id, ds[0].id, Starting, None, now)], nextPid := p + 1);
    forall k: nat | k < |ds|
      ensures Records(out.procs, p + k, Proc(s.id, ds[k].id, Starting, None, now))
    {
      if k == 0 {
        assert p in r1.procs && r1.procs[p] == Proc(s.id, ds[0].id, Starting, None, now);
      } else {
        assert ds[k] == tail[k - 1];
        assert p + k == (p + 1) + (k - 1);
      }
    }
    forall q | q in r.procs && !(p <= q < p + |ds|)
      ensures q in out.procs && out.procs[q] == r.procs[q]
    {
      assert q in r1.procs && r1.procs[q] == r.procs[q];
    }
    forall q | q in out.procs
      ensures q in r.procs || p <= q < p + |ds|
    {
      assert q in r1.procs || p + 1 <= q < p + |ds|;
    }
  }

  /** `effects` spawns each destination's command under the numbers `start`,
      `start + 1`, ... in list order, each spawn followed by its Starting report. */
  predicate LaunchEffects(start: nat, cfg: StreamUrl.IngestConfig, s: Stream, ds: seq<Destination>,
                          effects: seq<Effect>) {
    && |effects| == 2 * |ds|
    && forall k | 0 <= k < |ds| ::
         && effects[2 * k] == Spawn(start + k, BuildFfmpegArgs(cfg, s, ds[k]))
         && effects[2 * k + 1] == StatusChanged(ProcessReport(s.id, ds[k].id, Starting))
  }

  /** The first destination's pair followed by the rest's launches launches them all. */
  lemma LaunchEffectsStep(start: nat, cfg: StreamUrl.IngestConfig, s: Stream, ds: seq<Destination>,
                          rest: seq<Effect>)
    requires |ds| > 0
    requires LaunchEffects(start + 1, cfg, s, ds[1..], rest)
    ensures LaunchEffects(start, cfg, s, ds,
      [Spawn(start, BuildFfmpegArgs(cfg, s, ds[0])), StatusChanged(ProcessReport(s.id, ds[0].id, Starting))] + rest)
  {
    var head := [Spawn(start, BuildFfmpegArgs(cfg, s, ds[0])), StatusChanged(ProcessReport(s.id, ds[0].id, Starting))];
    var all := head + rest;
    forall k | 1 <= k < |ds|
      ensures all[2 * k] == Spawn(start + k, BuildFfmpegArgs(cfg, s, ds[k]))
      ensures all[2 * k + 1] == StatusChanged(ProcessReport(s.id, ds[k].id, Starting))
    {
      assert ds[k] == ds[1..][k - 1];
      assert all[2 * k] == rest[2 * (k - 1)] && all[2 * k + 1] == rest[2 * (k - 1) + 1];
    }
  }

  /** One process per destination, in list order, under consecutive numbers. */
  function LaunchAll(r: Runner, cfg: StreamUrl.IngestConfig, s: Stream, ds: seq<Destination>, now: int)
    : (out: Result<Step>)
    ensures out.Ok?
    ensures Launched(r, out.value.runner, s, ds, now)
    ensures LaunchEffects(r.nextPid, cfg, s, ds, out.value.effects)
    decreases |ds|
  {
    if |ds| == 0 then Ok(Step(r, []))
    else
      var first := StartFfmpegProcess(r, cfg, s, ds[0], now).value;
      var rest := LaunchAll(first.runner, cfg, s, ds[1..], now).value;
      LaunchedStep(r, rest.runner, s, ds, now);
      LaunchEffectsStep(r.nextPid, cfg, s, ds, rest.effects);
      Ok(Step(rest.runner, first.effects + rest.effects))
  }

  /** `after` lists, under the stream, one Starting process per destination
      in list order; older records and other streams' lists are kept. */
  predicate Started(before: Runner, after: Runner, s: Stream, now: int) {
    var ds := s.destinations;
    && s.id in after.active && |after.active[s.id]| == |ds|
    && (forall k | 0 <= k < |ds| ::
          after.active[s.id][k] in after.procs
          && after.procs[after.active[s.id][k]] == Proc(s.id, ds[k].id, Starting, None, now))
    && (forall q | q in before.procs && q < before.nextPid :: q in after.procs && after.procs[q] == before.procs[q])
    && (forall t | t in before.active && t != s.id :: t in after.active && after.active[t] == before.active[t])
  }

  /** The process numbers `start`, `start + 1`, ... of `n` launches. */
  function Pids(start: nat, n: nat): (ps: seq<nat>)
    ensures |ps| == n && forall k | 0 <= k < n :: ps[k] == start + k
  {
    seq(n, k requires 0 <= k < n => start + k)
  }

  /** Recording the launched numbers as the stream's list starts it. */
  lemma LaunchedStarts(r: Runner, l: Runner, s: Stream, now: int)
    requires Launched(r, l, s, s.destinations, now)
    ensures Started(r, l.(active := l.active[s.id := Pids(r.nextPid, |s.destinations|)]), s, now)
  {
    var ds := s.destinations;
    var pids := Pids(r.nextPid, |ds|);
    var rr := l.(active := l.active[s.id := pids]);
    forall k | 0 <= k < |ds|
      ensures rr.active[s.id][k] in rr.procs
      ensures rr.procs[rr.active[s.id][k]] == Proc(s.id, ds[k].id, Starting, None, now)
    {
      assert rr.active[s.id][k] == r.nextPid + k;
      assert Records(l.procs, r.nextPid + k, Proc(s.id, ds[k].id, Starting, None, now));
    }
    forall q | q in r.procs && q < r.nextPid
      ensures q in rr.procs && rr.procs[q] == r.procs[q]
    {
      assert !(r.nextPid <= q < r.nextPid + |ds|);
    }
  }

  /** `startStream(stream)`: refused while the stream has a non-empty process
      list; otherwise one Starting process per destination, disabled ones
      included, recorded as the stream's list. */
  function StartStream(r: Runner, cfg: StreamUrl.IngestConfig, s: Stream, now: int): (out: Result<Step>)
    ensures out.Err? <==> s.id in r.active && |r.active[s.id]| > 0
    ensures out.Err? ==> out.fault == AlreadyActive
    ensures out.Ok? ==> Started(r, out.value.runner, s, now)
    ensures out.Ok? ==> LaunchEffects(r.nextPid, cfg, s, s.destinations, out.value.effects)
    ensures out.Ok? ==> out.value.runner.active[s.id] == Pids(r.nextPid, |s.destinations|)
  {
    if s.id in r.active && |r.active[s.id]| > 0 then Err(AlreadyActive)
    else
      var l := LaunchAll(r, cfg, s, s.destinations, now).value;
      LaunchedStarts(r, l.runner, s, now);
      Ok(Step(l.runner.(active := l.runner.active[s.id := Pids(r.nextPid, |s.destinations|)]), l.effects))
  }

  predicate Killable(status: ProcessStatus) {
    status == Starting || status == Running
  }

  /** `killFfmpegProcess(process)`: only a Starting or Running process is
      signalled and marked Stopping. */
  function KillProcess(r: Runner, pid: nat): (out: Step)
    ensures pid in r.procs && Killable(r.procs[pid].status) ==>
      && out.runner == r.(procs := r.procs[pid := r.procs[pid].(status := Stopping)])
      && out.effects == [Kill(pid), StatusChanged(Report(pid, r.procs[pid].(status := Stopping)))]
    ensures !(pid in r.procs && Killable(r.procs[pid].status)) ==> out == Step(r, [])
  {
    if pid !in r.procs || !Killable(r.procs[pid].status) then Step(r, [])
    else
      var p := r.procs[pid].(status := Stopping);
      Step(r.(procs := r.procs[pid := p]), [Kill(pid), StatusChanged(Report(pid, p))])
  }

  /** Killing a process twice signals it once. */
  lemma KillIdempotent(r: Runner, pid: nat)
    ensures var once := KillProcess(r, pid);
            KillProcess(once.runner, pid) == Step(once.runner, [])
  {
  }

  /** The signals and reports a kill of each listed process sends, read off
      the records as they were before any kill: a Starting or Running process
      is signalled at its first mention only, and reported as Stopping. */
  function Signals(procs: map<nat, Proc>, pids: seq<nat>): seq<Effect>
    decreases |pids|
  {
    if |pids| == 0 then []
    else
      var q := pids[0];
      (if q in procs && Killable(procs[q].status)
       then [Kill(q), StatusChanged(Report(q, procs[q].(status := Stopping)))] else [])
      + Signals(procs - {q}, pids[1..])
  }

  /** Records that are not killable make no difference to the signals. */
  lemma {:induction false} SignalsOnlySeeKillable(a: map<nat, Proc>, b: map<nat, Proc>, pids: seq<nat>)
    requires forall q :: (q in a && Killable(a[q].status)) <==> (q in b && Killable(b[q].status))
    requires forall q | q in a && Killable(a[q].status) :: a[q] == b[q]
    ensures Signals(a, pids) == Signals(b, pids)
    decreases |pids|
  {
    if |pids| > 0 {
      var q := pids[0];
      SignalsOnlySeeKillable(a - {q}, b - {q}, pids[1..]);
    }
  }

  /** The signals go to exactly the listed processes that are Starting or Running. */
  lemma {:induction false} SignalsKillExactlyKillable(procs: map<nat, Proc>, pids: seq<nat>, q: nat)
    ensures Kill(q) in Signals(procs, pids) <==> q in pids && q in procs && Killable(procs[q].status)
    decreases |pids|
  {
    if |pids| > 0 {
      var p := pids[0];
      SignalsKillExactlyKillable(procs - {p}, pids[1..], q);
      assert q in pids <==> q == p || q in pids[1..];
      var head := if p in procs && Killable(procs[p].status)
                  then [Kill(p), StatusChanged(Report(p, procs[p].(status := Stopping)))] else [];
      assert Kill(q) in head <==> q == p && p in procs && Killable(procs[p].status);
    }
  }

  /** Kills every process of a list in order. */
  function KillAll(r: Runner, pids: seq<nat>): (out: Step)
    ensures out.runner.active == r.active && out.runner.nextPid == r.nextPid
    ensures out.runner.procs.Keys == r.procs.Keys
    ensures forall q | q in r.procs ::
      out.runner.procs[q] ==
        (if q in pids && Killable(r.procs[q].status) then r.procs[q].(status := Stopping) else r.procs[q])
    ensures out.effects == Signals(r.procs, pids)
    decreases |pids|
  {
    if |pids| == 0 then Step(r, [])
    else
      var first := KillProcess(r, pids[0]);
      var rest := KillAll(first.runner, pids[1..]);
      assert forall q :: q in pids <==> q == pids[0] || q in pids[1..];
      SignalsOnlySeeKillable(first.runner.procs, r.procs - {pids[0]}, pids[1..]);
      Step(rest.runner, first.effects + rest.effects)
  }

  /** `stopStream(streamId)`: every Starting or Running process of the stream
      becomes Stopping; nothing else changes. */
  function StopStream(r: Runner, streamId: string): (out: Step)
    ensures streamId !in r.active ==> out == Step(r, [])
    ensures out.runner.active == r.active && out.runner.procs.Keys == r.procs.Keys
    ensures streamId in r.active ==>
      forall q | q in r.procs ::
        out.runner.procs[q] ==
          (if q in r.active[streamId] && Killable(r.procs[q].status)
           then r.procs[q].(status := Stopping) else r.procs[q])
    ensures streamId in r.active ==> out.effects == Signals(r.procs, r.active[streamId])
  {
    if streamId !in r.active then Step(r, []) else KillAll(r, r.active[streamId])
  }

  /** The stderr classifier: chunks naming an error go to the error path. */
  predicate IsErrorChunk(msg: string) {
    Contains(msg, "Error") || Contains(msg, "error") || Contains(msg, "Invalid")
    || Contains(msg, "Unable to") || Contains(msg, "Failed")
  }

  /** `onProcessError(process, error)`: the error is recorded only while the
      process is Stopping or Stopped; the status never changes. */
  function OnProcessError(r: Runner, pid: nat, msg: string): (out: Runner)
    ensures out.active == r.active && out.procs.Keys == r.procs.Keys
    ensures forall q | q in r.procs && q != pid :: out.procs[q] == r.procs[q]
    ensures pid in r.procs ==>
      out.procs[pid].status == r.procs[pid].status
      && (out.procs[pid].error != r.procs[pid].error ==> out.procs[pid].error == Some(msg))
      && (r.procs[pid].status == Stopping || r.procs[pid].status == ProcessStatus.Stopped
          ==> out.procs[pid] == r.procs[pid].(error := Some(msg)))
      && (r.procs[pid].status == Starting || r.procs[pid].status == Running
          ==> out.procs[pid] == r.procs[pid])
  {
    if pid !in r.procs then r
    else
      var p := r.procs[pid];
      if p.status != Stopping && p.status != ProcessStatus.Stopped then r
      else r.(procs := r.procs[pid := p.(error := Some(msg))])
  }

  /** `onProcessUpdate(process, message)`: Starting becomes Running on the
      "Stream mapping:" line; a Running process refreshes its heartbeat on a
      "frame=" line. */
  function OnProcessUpdate(r: Runner, pid: nat, msg: string, now: int): (out: Step)
    ensures out.runner.active == r.active && out.runner.procs.Keys == r.procs.Keys
    ensures forall q | q in r.procs && q != pid :: out.runner.procs[q] == r.procs[q]
    ensures pid in r.procs ==>
      var p := r.procs[pid];
      && (out.runner.procs[pid].status != p.status <==> p.status == Starting && Contains(msg, "Stream mapping:"))
      && (out.runner.procs[pid].status != p.status ==>
            out.runner.procs[pid] == p.(status := Running)
            && out.effects == [StatusChanged(ProcessReport(p.stream, p.destination, Running))])
      && (p.status == Running && Contains(msg, "frame=") ==> out.runner.procs[pid] == p.(lastHeartbeat := now))
      && (p.status != Starting && p.status != Running ==> out == Step(r, []))
      && (p.status == Starting && !Contains(msg, "Stream mapping:") ==> out == Step(r, []))
      && (p.status == Running && !Contains(msg, "frame=") ==> out == Step(r, []))
      && (p.status == Running ==> out.effects == [])
    ensures pid !in r.procs ==> out == Step(r, [])
  {
    if pid !in r.procs then Step(r, [])
    else
      var p := r.procs[pid];
      if p.status == Starting then
        if Contains(msg, "Stream mapping:") then
          var p' := p.(status := Running);
          Step(r.(procs := r.procs[pid := p']), [StatusChanged(Report(pid, p'))])
        else Step(r, [])
      else if p.status != Running then Step(r, [])
      else if Contains(msg, "frame=") then Step(r.(procs := r.procs[pid := p.(lastHeartbeat := now)]), [])
      else Step(r, [])
  }

  /** The stderr listener: error chunks to `onProcessError`, the rest to `onProcessUpdate`. */
  function OnStderr(r: Runner, pid: nat, msg: string, now: int): (out: Step)
    ensures IsErrorChunk(msg) ==> out == Step(OnProcessError(r, pid, msg), [])
    ensures !IsErrorChunk(msg) ==> out == OnProcessUpdate(r, pid, msg, now)
  {
    if IsErrorChunk(msg) then Step(OnProcessError(r, pid, msg), []) else OnProcessUpdate(r, pid, msg, now)
  }

  /** Output on stderr can only ever promote Starting to Running; it never
      stops a process or revives one. */
  lemma StderrOnlyPromotes(r: Runner, pid: nat, msg: string, now: int)
    requires pid in r.procs
    ensures var out := OnStderr(r, pid, msg, now);
            var before := r.procs[pid].status;
            var after := out.runner.procs[pid].status;
            after == before || (before == Starting && after == Running && !IsErrorChunk(msg))
  {
  }

  function ExitMessage(code: Option<nat>): string {
    "FFmpeg process exited with code " + (if code.None? then "null" else NatToDecimal(code.value))
  }

  /** `processes.splice(processes.indexOf(pid), 1)`: the first occurrence of
      the process goes; an absent process makes `indexOf` return -1, and the
      splice then drops the last entry. */
  function SpliceOut(pids: seq<nat>, pid: nat): (r: seq<nat>)
    requires |pids| > 0
    ensures |r| == |pids| - 1
    ensures pid in pids ==>
      exists i | 0 <= i < |pids| ::
        pids[i] == pid && (forall j | 0 <= j < i :: pids[j] != pid) && r == pids[..i] + pids[i + 1..]
    ensures pid !in pids ==> r == pids[..|pids| - 1]
  {
    var i := FirstIndex(pids, pid);
    if i < 0 then pids[..|pids| - 1] else pids[..i] + pids[i + 1..]
  }

  /** `onProcessExit(process, code)`, after its short deferral: a non-zero or
      missing exit code is recorded as the error, the process leaves its
      stream's list, an emptied list is dropped, and the process ends Stopped. */
  function OnProcessExit(r: Runner, pid: nat, code: Option<nat>): (out: Step)
    ensures pid !in r.procs ==> out == Step(r, [])
    ensures out.runner.procs.Keys == r.procs.Keys
    ensures forall q | q in r.procs && q != pid :: out.runner.procs[q] == r.procs[q]
    ensures pid in r.procs ==>
      var p := r.procs[pid];
      var sid := p.stream;
      && out.runner.procs[pid].status == ProcessStatus.Stopped
      && out.runner.procs[pid].error == (if code == Some(0) then p.error else Some(ExitMessage(code)))
      && out.effects == [StatusChanged(ProcessReport(p.stream, p.destination, ProcessStatus.Stopped))]
      && (forall t | t != sid :: (t in out.runner.active <==> t in r.active))
      && (forall t | t != sid && t in r.active :: out.runner.active[t] == r.active[t])
      && (sid in out.runner.active ==> sid in r.active && |out.runner.active[sid]| > 0)
      && (sid in r.active && pid in r.active[sid] ==>
            (sid in out.runner.active <==> |r.active[sid]| > 1)
            && (sid in out.runner.active ==>
                  exists i | 0 <= i < |r.active[sid]| ::
                    r.active[sid][i] == pid
                    && out.runner.active[sid] == r.active[sid][..i] + r.active[sid][i + 1..]))
  {
    if pid !in r.procs then Step(r, [])
    else
      var p := r.procs[pid];
      var p1 := if code != Some(0) then p.(error := Some(ExitMessage(code))) else p;
      var active :=
        if p.stream in r.active && |r.active[p.stream]| > 0 then
          var left := SpliceOut(r.active[p.stream], pid);
          if |left| == 0 then r.active - {p.stream} else r.active[p.stream := left]
        else r.active - {p.stream};
      var p2 := p1.(status := ProcessStatus.Stopped);
      Step(Runner(r.procs[pid := p2], active, r.nextPid), [StatusChanged(Report(pid, p2))])
  }

  /** A killed process that then exits ends Stopped with no process left
      running for it, whatever its exit code. */
  lemma KillThenExit(r: Runner, pid: nat, code: Option<nat>)
    requires pid in r.procs && Killable(r.procs[pid].status)
    ensures var k := KillProcess(r, pid);
            var e := OnProcessExit(k.runner, pid, code);
            && e.runner.procs[pid].status == ProcessStatus.Stopped
            && KillProcess(e.runner, pid) == Step(e.runner, [])
            && OnProcessError(e.runner, pid, "Error").procs[pid].error == Some("Error")
  {
  }
}

=== FILE: hex.dfy ===
/** Lower-case hexadecimal rendering of byte buffers, as produced by
    `Array.from(buffer).map(b => b.toString(16).padStart(2, "0")).join("")`. */
module Hex {

  type Byte = x: int | 0 <= x < 256

  predicate IsLowerHex(ch: char) {
    ('0' <= ch <= '9') || ('a' <= ch <= 'f')
  }

  function HexDigit(v: int): (ch: char)
    requires 0 <= v < 16
    ensures IsLowerHex(ch)
    ensures DigitValue(ch) == v
  {
    if v < 10 then ('0' as int + v) as char else ('a' as int + v - 10) as char
  }

  function DigitValue(ch: char): int
    requires IsLowerHex(ch)
  {
    if ch <= '9' then ch as int - '0' as int else ch as int - 'a' as int + 10
  }

  /** `b.toString(16).padStart(2, "0")`. */
  function HexByte(b: Byte): (r: string)
    ensures |r| == 2 && IsLowerHex(r[0]) && IsLowerHex(r[1])
    ensures DigitValue(r[0]) * 16 + DigitValue(r[1]) == b
  {
    var hi, lo := b / 16, b % 16;
    assert hi * 16 + lo == b;
    [HexDigit(hi), HexDigit(lo)]
  }

  function Encode(bytes: seq<Byte>): (r: string)
    ensures |r| == 2 * |bytes|
    ensures forall i | 0 <= i < |r| :: IsLowerHex(r[i])
  {
    if |bytes| == 0 then "" else HexByte(bytes[0]) + Encode(bytes[1..])
  }

  /** Reads back pairs of hex digits; the partner of `Encode`. */
  function Decode(s: string): seq<Byte>
    requires |s| % 2 == 0
    requires forall i | 0 <= i < |s| :: IsLowerHex(s[i])
  {
    if |s| == 0 then []
    else [DigitValue(s[0]) * 16 + DigitValue(s[1])] + Decode(s[2..])
  }

  /** Hex encoding loses nothing: decoding gives the bytes back. */
  lemma {:induction false} DecodeEncode(bytes: seq<Byte>)
    ensures Decode(Encode(bytes)) == bytes
  {
    if |bytes| > 0 {
      var e := Encode(bytes);
      assert e[2..] == Encode(bytes[1..]);
      DecodeEncode(bytes[1..]);
      assert bytes == [bytes[0]] + bytes[1..];
    }
  }

  /** Different buffers never render to the same key. */
  lemma EncodeInjective(a: seq<Byte>, b: seq<Byte>)
    requires Encode(a) == Encode(b)
    ensures a == b
  {
    DecodeEncode(a);
    DecodeEncode(b);
  }
}

=== FILE: legacy_model.dfy ===
/** Records of the Deno snapshot (backend/models/interfaces.ts) shared by its
    stream manager and its restream supervisor. Dates are integer
    milliseconds. */
module LegacyModel {
  import opened Outcomes

  datatype StreamStatus = Live | Waiting | Error | Stopped

  /** A destination's `"connected" | "disconnected" | "error"`. */
  datatype LinkStatus = Connected | Disconnected | Failed

  datatype Platform = YouTube | Twitch | CustomRtmp

  datatype Destination = Destination(
    id: string,
    platform: Platform,
    streamKey: string,
    serverUrl: string,
    status: LinkStatus,
    enabled: bool)

  datatype StreamInstance = StreamInstance(
    id: string,
    name: string,
    apiKey: string,
    rtmpEndpoint: string,
    status: StreamStatus,
    statusMessage: Option<string>,
    createdAt: int,
    destinations: seq<Destination>)
}

=== FILE: nest_model.dfy ===
/** Records of the NestJS snapshot (backend/src/models/stream-instance.model.ts
    and stream-relay-destination.model.ts) and the three store operations its
    services go through (backend/src/stream/stream-crud.service.ts): `getStream`
    finds the first stream with an id, `updateStream` writes a whole stream
    record over it, and a relay draft is validated against the destination schema. */
module NestModel {
  import opened Outcomes
  import opened Text

  datatype StreamStatus = Live | Waiting | Stopped
  datatype RelayState = Disconnected | Connecting | Live

  /** A relay destination; `id` is the document id, absent on a bare draft. */
  datatype Relay = Relay(
    id: Option<string>,
    platform: string,
    streamKey: string,
    serverUrl: string,
    state: RelayState,
    error: Option<string>,
    enabled: bool,
    ffmpegFlags: Option<string>)

  datatype NestStream = NestStream(
    id: string,
    name: string,
    apiKey: string,
    state: StreamStatus,
    destinations: seq<Relay>,
    ffmpegFlags: Option<string>)

  type NestStore = seq<NestStream>

  /** The platforms the destination schema admits. */
  const Platforms: seq<string> := ["youtube", "twitch", "facebook", "custom_rtmp"]

  /** Position of the first stream with this id, or -1. */
  function IndexOfStream(store: NestStore, id: string): (r: int)
    ensures -1 <= r < |store|
    ensures r >= 0 ==> store[r].id == id && forall j | 0 <= j < r :: store[j].id != id
    ensures r == -1 ==> forall j | 0 <= j < |store| :: store[j].id != id
  {
    FirstIndex(MapSeq(store, (x: NestStream) => x.id), id)
  }

  /** `getStream(id)`. */
  function GetStream(store: NestStore, id: string): (r: Option<NestStream>)
    ensures r.None? <==> IndexOfStream(store, id) == -1
    ensures r.Some? ==> r.value == store[IndexOfStream(store, id)] && r.value.id == id
  {
    var i := IndexOfStream(store, id);
    if i < 0 then None else Some(store[i])
  }

  /** `getByApiKey(apiKey)`, which the rest of the snapshot calls but whose
      body is not part of this model: taken as the first stream holding the key. */
  function GetByApiKey(store: NestStore, key: string): (r: Option<NestStream>)
    ensures r.Some? ==> r.value.apiKey == key
    ensures r.Some? ==>
      exists j | 0 <= j < |store| :: store[j] == r.value && forall i | 0 <= i < j :: store[i].apiKey != key
    ensures r.None? <==> forall j | 0 <= j < |store| :: store[j].apiKey != key
  {
    if |store| == 0 then None
    else if store[0].apiKey == key then Some(store[0])
    else
      var rest := GetByApiKey(store[1..], key);
      assert rest.Some? ==>
        exists j | 1 <= j < |store| :: store[j] == rest.value && forall i | 0 <= i < j :: store[i].apiKey != key by {
        if rest.Some? {
          var j :| 0 <= j < |store[1..]| && store[1..][j] == rest.value
                   && forall i | 0 <= i < j :: store[1..][i].apiKey != key;
          assert store[j + 1] == rest.value;
          assert forall i | 1 <= i < j + 1 :: store[i] == store[1..][i - 1];
        }
      }
      assert rest.None? ==> forall j | 1 <= j < |store| :: store[j] == store[1..][j - 1];
      rest
  }

  /** `updateStream(stream)`: the record replaces the first stream with its id;
      without one nothing is written (no upsert). */
  function UpdateStream(store: NestStore, s: NestStream): (r: NestStore)
    ensures |r| == |store|
    ensures IndexOfStream(store, s.id) == -1 ==> r == store
    ensures IndexOfStream(store, s.id) >= 0 ==> r[IndexOfStream(store, s.id)] == s
    ensures forall j | 0 <= j < |store| && j != IndexOfStream(store, s.id) :: r[j] == store[j]
  {
    var i := IndexOfStream(store, s.id);
    if i < 0 then store else store[i := s]
  }

  /** Writing a stream back over itself changes nothing. */
  lemma UpdateWithSelf(store: NestStore, i: int)
    requires 0 <= i < |store| && IndexOfStream(store, store[i].id) == i
    ensures UpdateStream(store, store[i]) == store
  {
  }

  /** `Partial<StreamRelayDestination>` as handed to the relay model. */
  datatype RelayDraft = RelayDraft(
    platform: Option<string>,
    streamKey: Option<string>,
    serverUrl: Option<string>,
    state: Option<RelayState>,
    error: Option<string>,
    enabled: Option<bool>,
    ffmpegFlags: Option<string>)

  /** A required string field passes the schema when present and non-empty. */
  predicate RequiredString(v: Option<string>) {
    v.Some? && v.value != ""
  }

  /** Building the document, filling defaults, and `validateSync`: the
      platform must be one of the four, key and server URL must be present
      and non-empty; state defaults to Disconnected and enabled to true. */
  function ValidateRelay(d: RelayDraft, newId: string): (r: Result<Relay>)
    ensures r.Ok? <==> d.platform.Some? && d.platform.value in Platforms
                       && RequiredString(d.streamKey) && RequiredString(d.serverUrl)
    ensures r.Err? ==> r.fault == ValidationFailed
    ensures r.Ok? ==>
      && r.value.id == Some(newId)
      && r.value.platform == d.platform.value
      && r.value.streamKey == d.streamKey.value
      && r.value.serverUrl == d.serverUrl.value
      && r.value.state == (if d.state.Some? then d.state.value else Disconnected)
      && r.value.enabled == (d.enabled.None? || d.enabled.value)
      && r.value.error == d.error && r.value.ffmpegFlags == d.ffmpegFlags
  {
    if d.platform.None? || d.platform.value !in Platforms then Err(ValidationFailed)
    else if !RequiredString(d.streamKey) || !RequiredString(d.serverUrl) then Err(ValidationFailed)
    else
      Ok(Relay(Some(newId), d.platform.value, d.streamKey.value, d.serverUrl.value,
               if d.state.Some? then d.state.value else Disconnected, d.error,
               if d.enabled.Some? then d.enabled.value else true, d.ffmpegFlags))
  }

  /** Position of the first destination carrying this id, or -1 (`find`). */
  function IndexOfRelay(ds: seq<Relay>, id: string): (r: int)
    ensures -1 <= r < |ds|
    ensures r >= 0 ==> ds[r].id == Some(id) && forall j | 0 <= j < r :: ds[j].id != Some(id)
    ensures r == -1 ==> forall j | 0 <= j < |ds| :: ds[j].id != Some(id)
  {
    FirstIndex(MapSeq(ds, (x: Relay) => x.id), Some(id))
  }

  /** The destinations not carrying this id, in order (`filter`). */
  function WithoutRelay(ds: seq<Relay>, id: string): (r: seq<Relay>)
    ensures |r| <= |ds|
    ensures forall k | 0 <= k < |r| :: r[k].id != Some(id)
    ensures IndexOfRelay(ds, id) >= 0 ==> |r| < |ds|
    ensures IndexOfRelay(ds, id) == -1 ==> r == ds
  {
    if |ds| == 0 then []
    else if ds[0].id == Some(id) then WithoutRelay(ds[1..], id)
    else [ds[0]] + WithoutRelay(ds[1..], id)
  }

  /** The filter keeps exactly the destinations with other ids. */
  lemma {:induction false} WithoutRelayKeepsOthers(ds: seq<Relay>, id: string, x: Relay)
    ensures x in WithoutRelay(ds, id) <==> x in ds && x.id != Some(id)
  {
    if |ds| > 0 {
      WithoutRelayKeepsOthers(ds[1..], id, x);
      assert ds == [ds[0]] + ds[1..];
    }
  }
}

=== FILE: nest_relay_runner.dfy ===
/** Relay process registry of the NestJS snapshot
    (backend/src/relay/stream-relay-runner.service.ts): one relay handle per
    (stream id, destination id), refusing duplicates, with a stop guarded by
    the handle's `isExiting` flag. Launched commands and kills are returned as
    effects, emitted bus events as a list; each launched command gets a fresh
    handle number. */
module NestRelayRunner {
  import opened Outcomes
  import opened Text
  import opened NestModel

  /** `RelayInstanceRunInfo`. */
  datatype RunInfo = RunInfo(streamId: string, destinationId: string, handle: nat, isExiting: bool)

  /** `activeStreams`: stream id to destination id to run info. */
  datatype Runner = Runner(active: map<string, map<string, RunInfo>>, nextHandle: nat)

  datatype RelayEvent =
    | RunnerStart(streamId: string, relayId: string)   // "stream.relay.runner.start"
    | RunnerStop(streamId: string, relayId: string)    // "stream.relay.runner.stop"
    | RunnerError(streamId: string, relayId: string)   // "stream.relay.runner.error"

  datatype Effect =
    | Launch(handle: nat, input: string, options: seq<string>, output: string)
    | KillRelay(handle: nat)   // kill("SIGKILL")

  datatype Step = Step(runner: Runner, events: seq<RelayEvent>, effects: seq<Effect>)

  /** The media-server settings the relay input is built from. */
  datatype WatchConfig = WatchConfig(port: nat, watchRoot: string)

  const Empty: Runner := Runner(map[], 0)

  /** The run info registered for a key, if any. */
  function Lookup(r: Runner, streamId: string, destId: string): Option<RunInfo> {
    if streamId in r.active && destId in r.active[streamId] then Some(r.active[streamId][destId]) else None
  }

  /** `isRelayRunning(streamId, destinationId)`. */
  function IsRelayRunning(r: Runner, streamId: string, destId: string): (b: bool)
    ensures b <==> Lookup(r, streamId, destId).Some?
  {
    streamId in r.active && destId in r.active[streamId]
  }

  /** The relay input: the watch application of the local media server. */
  function RelayInput(cfg: WatchConfig, streamId: string): string {
    "rtmp://localhost:" + NatToDecimal(cfg.port) + cfg.watchRoot + "/" + streamId
  }

  /** The output options: copy video, AAC audio, FLV, then the destination's
      own flags split on single spaces. */
  function RelayOptions(d: Relay): seq<string> {
    ["-c:v copy", "-c:a aac", "-f flv"]
      + (if d.ffmpegFlags.Some? && |d.ffmpegFlags.value| > 0 then Split(d.ffmpegFlags.value, ' ') else [])
  }

  function RelayOutput(d: Relay): string {
    d.serverUrl + "/" + d.streamKey
  }

  /** The relay command reads the stream from the local watch root, keeps the
      three fixed options first, passes the destination's flags through
      unchanged, and writes to the destination's server and key. */
  lemma RelayCommandShape(cfg: WatchConfig, streamId: string, d: Relay)
    ensures StartsWith(RelayInput(cfg, streamId), "rtmp://localhost:")
    ensures EndsWith(RelayInput(cfg, streamId), cfg.watchRoot + "/" + streamId)
    ensures var o := RelayOptions(d);
            && |o| >= 3 && o[..3] == ["-c:v copy", "-c:a aac", "-f flv"]
            && (d.ffmpegFlags.Some? && |d.ffmpegFlags.value| > 0 ==> Join(o[3..], ' ') == d.ffmpegFlags.value)
            && (d.ffmpegFlags.None? || |d.ffmpegFlags.value| == 0 ==> |o| == 3)
    ensures EndsWith(RelayOutput(d), "/" + d.streamKey) && StartsWith(RelayOutput(d), d.serverUrl)
  {
    var input := RelayInput(cfg, streamId);
    var tail := cfg.watchRoot + "/" + streamId;
    assert input == "rtmp://localhost:" + NatToDecimal(cfg.port) + tail;
    assert input[|input| - |tail|..] == tail;
    assert input[..17] == "rtmp://localhost:";
    var o := RelayOptions(d);
    assert o[3..] == (if d.ffmpegFlags.Some? && |d.ffmpegFlags.value| > 0 then Split(d.ffmpegFlags.value, ' ') else []);
    if d.ffmpegFlags.Some? && |d.ffmpegFlags.value| > 0 {
      SplitJoin(d.ffmpegFlags.value, ' ');
    }
    var out := RelayOutput(d);
    assert out[|out| - |"/" + d.streamKey|..] == "/" + d.streamKey;
    assert out[..|d.serverUrl|] == d.serverUrl;
  }

  /** `startRelay(streamId, destination)`: refused (false) when a handle is
      registered for the key; otherwise a fresh handle, not exiting, is
      registered and its command launched. A destination without a document
      id fails before anything happens. */
  function StartRelay(r: Runner, cfg: WatchConfig, streamId: string, d: Relay): (out: Result<(Step, bool)>)
    ensures out.Err? <==> d.id.None?
    ensures out.Err? ==> out.fault == MissingId
    ensures out.Ok? ==>
      var (step, started) := out.value;
      var key := d.id.value;
      && step.events == []
      && (started <==> !IsRelayRunning(r, streamId, key))
      && IsRelayRunning(step.runner, streamId, key)
      && (!started ==> step.runner.nextHandle == r.nextHandle && step.effects == []
                       && Lookup(step.runner, streamId, key) == Lookup(r, streamId, key))
      && (started ==>
            && Lookup(step.runner, streamId, key) == Some(RunInfo(streamId, key, r.nextHandle, false))
            && step.runner.nextHandle == r.nextHandle + 1
            && step.effects == [Launch(r.nextHandle, RelayInput(cfg, streamId), RelayOptions(d), RelayOutput(d))])
      && (forall t, x | t != streamId || x != key :: Lookup(step.runner, t, x) == Lookup(r, t, x))
  {
    if d.id.None? then Err(MissingId)
    else
      var key := d.id.value;
      var inner := if streamId in r.active then r.active[streamId] else map[];
      if key in inner then Ok((Step(r.(active := r.active[streamId := inner]), [], []), false))
      else
        var info := RunInfo(streamId, key, r.nextHandle, false);
        var launched := Launch(r.nextHandle, RelayInput(cfg, streamId), RelayOptions(d), RelayOutput(d));
        Ok((Step(Runner(r.active[streamId := inner[key := info]], r.nextHandle + 1), [], [launched]), true))
  }

  /** `stopRelay(streamId, destinationId)`: a registered handle that is not
      already exiting is removed, announced once and killed; otherwise nothing
      happens. */
  function StopRelay(r: Runner, streamId: string, destId: string): (out: Step)
    ensures Lookup(r, streamId, destId).None? ==> out == Step(r, [], [])
    ensures Lookup(r, streamId, destId).Some? && Lookup(r, streamId, destId).value.isExiting ==>
      out == Step(r, [], [])
    ensures Lookup(r, streamId, destId).Some? && !Lookup(r, streamId, destId).value.isExiting ==>
      && out.events == [RunnerStop(streamId, destId)]
      && out.effects == [KillRelay(Lookup(r, streamId, destId).value.handle)]
      && !IsRelayRunning(out.runner, streamId, destId)
    ensures out.runner.nextHandle == r.nextHandle
    ensures forall t, x | t != streamId || x != destId :: Lookup(out.runner, t, x) == Lookup(r, t, x)
  {
    if streamId !in r.active || destId !in r.active[streamId] then Step(r, [], [])
    else
      var info := r.active[streamId][destId];
      if info.isExiting then Step(r, [], [])
      else
        Step(r.(active := r.active[streamId := r.active[streamId] - {destId}]),
             [RunnerStop(streamId, destId)], [KillRelay(info.handle)])
  }

  /** Stopping twice announces and kills once. */
  lemma StopRelayIdempotent(r: Runner, streamId: string, destId: string)
    ensures var once := StopRelay(r, streamId, destId);
            StopRelay(once.runner, streamId, destId) == Step(once.runner, [], [])
  {
  }

  /** Start then stop: the key is free again, one stop event is emitted and the
      launched handle is the one killed; every other key is as before. */
  lemma StartThenStop(r: Runner, cfg: WatchConfig, streamId: string, d: Relay)
    requires d.id.Some? && !IsRelayRunning(r, streamId, d.id.value)
    ensures var (step, started) := StartRelay(r, cfg, streamId, d).value;
            var stop := StopRelay(step.runner, streamId, d.id.value);
            && started
            && !IsRelayRunning(stop.runner, streamId, d.id.value)
            && stop.events == [RunnerStop(streamId, d.id.value)]
            && stop.effects == [KillRelay(r.nextHandle)]
            && forall t, x :: Lookup(stop.runner, t, x) == Lookup(r, t, x)
  {
    var (step, started) := StartRelay(r, cfg, streamId, d).value;
    var stop := StopRelay(step.runner, streamId, d.id.value);
    forall t, x ensures Lookup(stop.runner, t, x) == Lookup(r, t, x) {
      if t == streamId && x == d.id.value {
        assert !IsRelayRunning(stop.runner, t, x);
      }
    }
  }

  /** No registered handle is ever marked exiting: a stop removes the handle
      in the same step that marks it. */
  predicate NoneExiting(r: Runner) {
    forall t, x | t in r.active && x in r.active[t] :: !r.active[t][x].isExiting
  }

  lemma NoneExitingPreserved(r: Runner, cfg: WatchConfig, streamId: string, destId: string, d: Relay)
    requires NoneExiting(r)
    ensures NoneExiting(StopRelay(r, streamId, destId).runner)
    ensures StartRelay(r, cfg, streamId, d).Ok? ==> NoneExiting(StartRelay(r, cfg, streamId, d).value.0.runner)
  {
  }

  /** `onFfmpegStart`: announces the start, changes nothing. */
  function OnFfmpegStart(r: Runner, streamId: string, destId: string): (out: Step)
    ensures out.runner == r && out.effects == []
    ensures out.events == [RunnerStart(streamId, destId)]
  {
    Step(r, [RunnerStart(streamId, destId)], [])
  }

  /** `onFfmpegStop`: the process ended; whatever handle is registered under
      the key is stopped, announced and killed. */
  function OnFfmpegStop(r: Runner, streamId: string, destId: string): (out: Step)
    ensures IsRelayRunning(out.runner, streamId, destId) ==>
      Lookup(r, streamId, destId).Some? && Lookup(r, streamId, destId).value.isExiting
    ensures |out.events| <= 1
    ensures Lookup(r, streamId, destId).Some? && !Lookup(r, streamId, destId).value.isExiting ==>
      && out.events == [RunnerStop(streamId, destId)]
      && out.effects == [KillRelay(Lookup(r, streamId, destId).value.handle)]
      && !IsRelayRunning(out.runner, streamId, destId)
    ensures Lookup(r, streamId, destId).None? || Lookup(r, streamId, destId).value.isExiting ==>
      out == Step(r, [], [])
    ensures out.runner.nextHandle == r.nextHandle
    ensures forall t, x | t != streamId || x != destId :: Lookup(out.runner, t, x) == Lookup(r, t, x)
  {
    StopRelay(r, streamId, destId)
  }

  /** `onFfmpegError`: an error event, then the same stop as a process end. */
  function OnFfmpegError(r: Runner, streamId: string, destId: string): (out: Step)
    ensures |out.events| >= 1 && out.events[0] == RunnerError(streamId, destId)
    ensures var stop := StopRelay(r, streamId, destId);
            out.runner == stop.runner && out.effects == stop.effects && out.events[1..] == stop.events
  {
    var stop := StopRelay(r, streamId, destId);
    Step(stop.runner, [RunnerError(streamId, destId)] + stop.events, stop.effects)
  }

  // ---------------------------------------------------------------------
  // Callbacks of a replaced process
  // ---------------------------------------------------------------------

  /** As written, the end and error callbacks of a process act on its key,
      not on its handle. A stop kills the process, and the killed process
      reports back later. If the relay was started again in between, that
      report stops the new relay. */
  lemma StaleCallbackStopsNewerRelay(r: Runner, cfg: WatchConfig, streamId: string, d: Relay)
    requires d.id.Some? && !IsRelayRunning(r, streamId, d.id.value)
    ensures var key := d.id.value;
            var first := StartRelay(r, cfg, streamId, d).value.0.runner;
            var stopped := StopRelay(first, streamId, key).runner;
            var second := StartRelay(stopped, cfg, streamId, d).value.0.runner;
            && Lookup(second, streamId, key) == Some(RunInfo(streamId, key, r.nextHandle + 1, false))
            && OnFfmpegStop(second, streamId, key).effects == [KillRelay(r.nextHandle + 1)]
            && !IsRelayRunning(OnFfmpegStop(second, streamId, key).runner, streamId, key)
            && OnFfmpegError(second, streamId, key).effects == [KillRelay(r.nextHandle + 1)]
  {
    var key := d.id.value;
    var first := StartRelay(r, cfg, streamId, d).value.0.runner;
    var stopped := StopRelay(first, streamId, key).runner;
    assert !IsRelayRunning(stopped, streamId, key);
    assert stopped.nextHandle == r.nextHandle + 1;
  }

  /** `onFfmpegStop` as intended: the callback of the process `handle` stops
      its key only while that process is the one registered there. */
  function OnFfmpegStopOf(r: Runner, handle: nat, streamId: string, destId: string): (out: Step)
    ensures Lookup(r, streamId, destId).Some? && Lookup(r, streamId, destId).value.handle == handle ==>
      out == OnFfmpegStop(r, streamId, destId)
    ensures Lookup(r, streamId, destId).None? || Lookup(r, streamId, destId).value.handle != handle ==>
      out == Step(r, [], [])
  {
    var cur := Lookup(r, streamId, destId);
    if cur.Some? && cur.value.handle == handle then StopRelay(r, streamId, destId)
    else Step(r, [], [])
  }

  /** `onFfmpegError` as intended: an error of the registered process is
      announced and stops it; an error of a replaced process changes nothing. */
  function OnFfmpegErrorOf(r: Runner, handle: nat, streamId: string, destId: string): (out: Step)
    ensures Lookup(r, streamId, destId).Some? && Lookup(r, streamId, destId).value.handle == handle ==>
      out == OnFfmpegError(r, streamId, destId)
    ensures Lookup(r, streamId, destId).None? || Lookup(r, streamId, destId).value.handle != handle ==>
      out == Step(r, [], [])
  {
    var cur := Lookup(r, streamId, destId);
    if cur.Some? && cur.value.handle == handle then OnFfmpegError(r, streamId, destId)
    else Step(r, [], [])
  }

  /** With the intended callbacks, a report from a process that is no longer
      registered under its key never touches the registry: a relay started
      after a stop keeps running whatever the old process reports. */
  lemma StaleCallbackIgnored(r: Runner, handle: nat, streamId: string, destId: string)
    requires Lookup(r, streamId, destId).None? || Lookup(r, streamId, destId).value.handle != handle
    ensures OnFfmpegStopOf(r, handle, streamId, destId).runner == r
    ensures OnFfmpegErrorOf(r, handle, streamId, destId).runner == r
    ensures OnFfmpegStopOf(r, handle, streamId, destId).effects == []
    ensures OnFfmpegErrorOf(r, handle, streamId, destId).effects == []
  {
  }

  /** The restarted relay of the scenario above survives the old process's
      report under the intended callbacks. */
  lemma RestartSurvivesStaleCallback(r: Runner, cfg: WatchConfig, streamId: string, d: Relay)
    requires d.id.Some? && !IsRelayRunning(r, streamId, d.id.value)
    ensures var key := d.id.value;
            var first := StartRelay(r, cfg, streamId, d).value.0.runner;
            var stopped := StopRelay(first, streamId, key).runner;
            var second := StartRelay(stopped, cfg, streamId, d).value.0.runner;
            && IsRelayRunning(OnFfmpegStopOf(second, r.nextHandle, streamId, key).runner, streamId, key)
            && IsRelayRunning(OnFfmpegErrorOf(second, r.nextHandle, streamId, key).runner, streamId, key)
  {
    var key := d.id.value;
    var first := StartRelay(r, cfg, streamId, d).value.0.runner;
    var stopped := StopRelay(first, streamId, key).runner;
    assert !IsRelayRunning(stopped, streamId, key);
    var second := StartRelay(stopped, cfg, streamId, d).value.0.runner;
    StaleCallbackIgnored(second, r.nextHandle, streamId, key);
  }
}

=== FILE: nest_relay_service.dfy ===
/** Relay orchestration of the NestJS snapshot
    (backend/src/relay/stream-relay.service.ts). Its `getRelays`, `addNewRelay`,
    `removeRelay` and `restartRelay` repeat those of
    backend/src/stream/stream-relay.service.ts line for line and are the ones
    in `NestStreamRelayService`. What this file adds is starting and stopping
    every relay of a stream through the relay registry, and writing the
    registry's start and stop events back into the destinations.

    The registry's events reach the handlers here asynchronously; the model
    returns them from the start and stop operations and applies them through
    `OnRunnerStarted` / `OnRunnerStopped` as separate steps. */
module NestRelayService {
  import opened Outcomes
  import opened NestModel
  import opened NestRelayRunner
  import NestStreamRelayService

  /** A destination the start loop considers: enabled and carrying an id. */
  predicate Eligible(d: Relay) {
    d.enabled && d.id.Some?
  }

  /** A destination the stop loop considers: eligible and not Disconnected. */
  predicate ShouldStop(d: Relay) {
    Eligible(d) && d.state != Disconnected
  }

  predicate EligibleId(ds: seq<Relay>, x: string) {
    exists k | 0 <= k < |ds| :: Eligible(ds[k]) && ds[k].id == Some(x)
  }

  predicate StopId(ds: seq<Relay>, x: string) {
    exists k | 0 <= k < |ds| :: ShouldStop(ds[k]) && ds[k].id == Some(x)
  }

  function CountEligible(ds: seq<Relay>): (n: nat)
    ensures n <= |ds|
  {
    if |ds| == 0 then 0 else (if Eligible(ds[0]) then 1 else 0) + CountEligible(ds[1..])
  }

  lemma EligibleIdTail(ds: seq<Relay>, x: string)
    requires |ds| > 0
    ensures EligibleId(ds, x) <==> (Eligible(ds[0]) && ds[0].id == Some(x)) || EligibleId(ds[1..], x)
  {
    if EligibleId(ds[1..], x) {
      var k :| 0 <= k < |ds[1..]| && Eligible(ds[1..][k]) && ds[1..][k].id == Some(x);
      assert ds[k + 1] == ds[1..][k];
    }
    if EligibleId(ds, x) && !(Eligible(ds[0]) && ds[0].id == Some(x)) {
      var k :| 0 <= k < |ds| && Eligible(ds[k]) && ds[k].id == Some(x);
      assert k > 0 && ds[1..][k - 1] == ds[k];
    }
  }

  lemma StopIdTail(ds: seq<Relay>, x: string)
    requires |ds| > 0
    ensures StopId(ds, x) <==> (ShouldStop(ds[0]) && ds[0].id == Some(x)) || StopId(ds[1..], x)
  {
    if StopId(ds[1..], x) {
      var k :| 0 <= k < |ds[1..]| && ShouldStop(ds[1..][k]) && ds[1..][k].id == Some(x);
      assert ds[k + 1] == ds[1..][k];
    }
    if StopId(ds, x) && !(ShouldStop(ds[0]) && ds[0].id == Some(x)) {
      var k :| 0 <= k < |ds| && ShouldStop(ds[k]) && ds[k].id == Some(x);
      assert k > 0 && ds[1..][k - 1] == ds[k];
    }
  }

  /** The stop loop of `stopAllRelay` over a destination list. */
  function StopEach(r: Runner, streamId: string, ds: seq<Relay>): (out: Step)
    ensures out.runner.nextHandle == r.nextHandle
    ensures forall e | e in out.effects :: e.KillRelay?
    ensures forall t, x | t != streamId || !StopId(ds, x) :: Lookup(out.runner, t, x) == Lookup(r, t, x)
    ensures NoneExiting(r) ==> NoneExiting(out.runner)
    ensures NoneExiting(r) ==>
      forall x | StopId(ds, x) :: !IsRelayRunning(out.runner, streamId, x)
    ensures forall e | e in out.events :: e.RunnerStop? && e.streamId == streamId
    ensures |out.events| <= |ds|
    decreases |ds|
  {
    if |ds| == 0 then Step(r, [], [])
    else
      var d := ds[0];
      var first := if ShouldStop(d) then StopRelay(r, streamId, d.id.value) else Step(r, [], []);
      var rest := StopEach(first.runner, streamId, ds[1..]);
      assert forall x :: StopId(ds, x) <==> (ShouldStop(d) && d.id == Some(x)) || StopId(ds[1..], x) by {
        forall x ensures StopId(ds, x) <==> (ShouldStop(d) && d.id == Some(x)) || StopId(ds[1..], x) {
          StopIdTail(ds, x);
        }
      }
      assert NoneExiting(r) ==> NoneExiting(first.runner);
      Step(rest.runner, first.events + rest.events, first.effects + rest.effects)
  }

  /** `stopAllRelay(streamId)`: every enabled, id-bearing relay of the stream
      that is not Disconnected is stopped; no other registry entry changes. */
  function StopAllRelay(store: NestStore, r: Runner, streamId: string): (out: Step)
    ensures IndexOfStream(store, streamId) == -1 ==> out == Step(r, [], [])
    ensures IndexOfStream(store, streamId) >= 0 ==>
      var ds := store[IndexOfStream(store, streamId)].destinations;
      && (forall t, x | t != streamId || !StopId(ds, x) :: Lookup(out.runner, t, x) == Lookup(r, t, x))
      && (NoneExiting(r) ==> forall x | StopId(ds, x) :: !IsRelayRunning(out.runner, streamId, x))
    ensures NoneExiting(r) ==> NoneExiting(out.runner)
    ensures forall e | e in out.events :: e.RunnerStop? && e.streamId == streamId
  {
    match GetStream(store, streamId)
    case None => Step(r, [], [])
    case Some(s) => StopEach(r, streamId, s.destinations)
  }

  /** One turn of the start loop: a Live destination with a running relay is
      stopped first, then a start is attempted. */
  function StartOne(r: Runner, cfg: WatchConfig, streamId: string, d: Relay): (out: (Step, bool))
    requires Eligible(d)
    ensures IsRelayRunning(out.0.runner, streamId, d.id.value)
    ensures forall t, x | t != streamId || x != d.id.value :: Lookup(out.0.runner, t, x) == Lookup(r, t, x)
    ensures NoneExiting(r) ==> NoneExiting(out.0.runner)
  {
    var key := d.id.value;
    var first := if d.state == RelayState.Live && IsRelayRunning(r, streamId, key)
                 then StopRelay(r, streamId, key) else Step(r, [], []);
    var (second, started) := StartRelay(first.runner, cfg, streamId, d).value;
    (Step(second.runner, first.events + second.events, first.effects + second.effects), started)
  }

  /** The start loop of `startAllRelay`, counting successful starts. */
  function StartEach(r: Runner, cfg: WatchConfig, streamId: string, ds: seq<Relay>): (out: (Step, nat))
    ensures out.1 <= CountEligible(ds)
    ensures forall k | 0 <= k < |ds| && Eligible(ds[k]) :: IsRelayRunning(out.0.runner, streamId, ds[k].id.value)
    ensures forall t, x | t != streamId || !EligibleId(ds, x) :: Lookup(out.0.runner, t, x) == Lookup(r, t, x)
    ensures NoneExiting(r) ==> NoneExiting(out.0.runner)
    decreases |ds|
  {
    if |ds| == 0 then (Step(r, [], []), 0)
    else
      var d := ds[0];
      var (first, started) := if Eligible(d) then StartOne(r, cfg, streamId, d) else (Step(r, [], []), false);
      var (rest, count) := StartEach(first.runner, cfg, streamId, ds[1..]);
      assert forall x :: EligibleId(ds, x) <==> (Eligible(d) && d.id == Some(x)) || EligibleId(ds[1..], x) by {
        forall x ensures EligibleId(ds, x) <==> (Eligible(d) && d.id == Some(x)) || EligibleId(ds[1..], x) {
          EligibleIdTail(ds, x);
        }
      }
      assert forall k | 1 <= k < |ds| :: ds[k] == ds[1..][k - 1];
      assert Eligible(d) ==> IsRelayRunning(rest.runner, streamId, d.id.value) by {
        if Eligible(d) && !EligibleId(ds[1..], d.id.value) {
          assert Lookup(rest.runner, streamId, d.id.value) == Lookup(first.runner, streamId, d.id.value);
        }
      }
      (Step(rest.runner, first.events + rest.events, first.effects + rest.effects),
       (if started then 1 else 0) + count)
  }

  /** `startAllRelay(streamId)`: nothing for a stream without destinations;
      otherwise all its relays are stopped and then every enabled, id-bearing
      destination gets a running relay. The count of new starts never exceeds
      the number of such destinations, nor the number of destinations. */
  function StartAllRelay(store: NestStore, r: Runner, cfg: WatchConfig, streamId: string): (out: (Step, nat))
    ensures (NestStreamRelayService.GetRelays(store, streamId).None?
             || |NestStreamRelayService.GetRelays(store, streamId).value| == 0) ==> out == (Step(r, [], []), 0)
    ensures NestStreamRelayService.GetRelays(store, streamId).Some? ==>
      var ds := NestStreamRelayService.GetRelays(store, streamId).value;
      var stop := StopAllRelay(store, r, streamId);
      && out.1 <= CountEligible(ds) <= |ds|
      && (forall k | 0 <= k < |ds| && Eligible(ds[k]) :: IsRelayRunning(out.0.runner, streamId, ds[k].id.value))
      && (|ds| > 0 ==> |stop.events| <= |out.0.events| && out.0.events[..|stop.events|] == stop.events)
    ensures forall t, x | t != streamId :: Lookup(out.0.runner, t, x) == Lookup(r, t, x)
    ensures NoneExiting(r) ==> NoneExiting(out.0.runner)
  {
    match GetStream(store, streamId)
    case None => (Step(r, [], []), 0)
    case Some(s) =>
      var ds := s.destinations;
      if |ds| == 0 then (Step(r, [], []), 0)
      else
        var stop := StopAllRelay(store, r, streamId);
        var (start, count) := StartEach(stop.runner, cfg, streamId, ds);
        (Step(start.runner, stop.events + start.events, stop.effects + start.effects), count)
  }

  /** The scan of `updateRelayState`: the position of the first destination
      with the id, -1 when none has it, or a failure when a destination without
      an id is met first (its id cannot be read). */
  function ScanRelay(ds: seq<Relay>, relayId: string): (r: Result<int>)
    ensures r.Err? ==> r.fault == MissingId
    ensures r.Ok? ==> -1 <= r.value < |ds|
    ensures r.Ok? && r.value >= 0 ==>
      ds[r.value].id == Some(relayId)
      && forall j | 0 <= j < r.value :: ds[j].id.Some? && ds[j].id != Some(relayId)
    ensures r.Ok? && r.value == -1 ==> forall j | 0 <= j < |ds| :: ds[j].id.Some? && ds[j].id != Some(relayId)
    ensures r.Err? ==>
      exists j | 0 <= j < |ds| :: ds[j].id.None? && forall i | 0 <= i < j :: ds[i].id != Some(relayId)
  {
    if |ds| == 0 then Ok(-1)
    else if ds[0].id.None? then Err(MissingId)
    else if ds[0].id == Some(relayId) then Ok(0)
    else
      match ScanRelay(ds[1..], relayId)
      case Err(f) =>
        assert exists j | 1 <= j < |ds| :: ds[j].id.None? && forall i | 0 <= i < j :: ds[i].id != Some(relayId) by {
          var j :| 0 <= j < |ds[1..]| && ds[1..][j].id.None? && forall i | 0 <= i < j :: ds[1..][i].id != Some(relayId);
          assert ds[j + 1] == ds[1..][j];
          assert forall i | 1 <= i < j + 1 :: ds[i] == ds[1..][i - 1];
        }
        Err(f)
      case Ok(k) => if k < 0 then Ok(-1) else Ok(k + 1)
  }

  /** `updateRelayState(streamId, relayId, state)`: only the first destination
      with the id takes the state; the stream is written back either way. */
  function UpdateRelayState(store: NestStore, streamId: string, relayId: string, state: RelayState)
    : (r: Result<NestStore>)
    ensures IndexOfStream(store, streamId) == -1 ==> r == Ok(store)
    ensures r.Err? <==>
      IndexOfStream(store, streamId) >= 0 && ScanRelay(store[IndexOfStream(store, streamId)].destinations, relayId).Err?
    ensures r.Err? ==> r.fault == MissingId
    ensures r.Ok? ==> |r.value| == |store|
    ensures r.Ok? ==> forall j | 0 <= j < |store| && j != IndexOfStream(store, streamId) :: r.value[j] == store[j]
    ensures r.Ok? && IndexOfStream(store, streamId) >= 0 ==>
      var i := IndexOfStream(store, streamId);
      var ds := store[i].destinations;
      var k := IndexOfRelay(ds, relayId);
      && r.value[i].(destinations := ds) == store[i]
      && |r.value[i].destinations| == |ds|
      && (k >= 0 ==> r.value[i].destinations[k] == ds[k].(state := state))
      && forall m | 0 <= m < |ds| && m != k :: r.value[i].destinations[m] == ds[m]
  {
    match GetStream(store, streamId)
    case None => Ok(store)
    case Some(s) =>
      var ds := s.destinations;
      match ScanRelay(ds, relayId)
      case Err(f) => Err(f)
      case Ok(k) =>
        if k < 0 then Ok(UpdateStream(store, s))
        else Ok(UpdateStream(store, s.(destinations := ds[k := ds[k].(state := state)])))
  }

  /** `onRunnerStarted`: the relay is shown Live. */
  function OnRunnerStarted(store: NestStore, streamId: string, relayId: string): (r: Result<NestStore>)
    ensures r.Ok? ==> |r.value| == |store|
    ensures r.Ok? && IndexOfStream(store, streamId) >= 0 ==>
      var i := IndexOfStream(store, streamId);
      var k := IndexOfRelay(store[i].destinations, relayId);
      && |r.value[i].destinations| == |store[i].destinations|
      && (k >= 0 ==> r.value[i].destinations[k].state == RelayState.Live)
  {
    UpdateRelayState(store, streamId, relayId, RelayState.Live)
  }

  /** `onRunnerStopped`: the relay is shown Disconnected. */
  function OnRunnerStopped(store: NestStore, streamId: string, relayId: string): (r: Result<NestStore>)
    ensures r.Ok? ==> |r.value| == |store|
    ensures r.Ok? && IndexOfStream(store, streamId) >= 0 ==>
      var i := IndexOfStream(store, streamId);
      var k := IndexOfRelay(store[i].destinations, relayId);
      && |r.value[i].destinations| == |store[i].destinations|
      && (k >= 0 ==> r.value[i].destinations[k].state == Disconnected)
  {
    UpdateRelayState(store, streamId, relayId, Disconnected)
  }

  /** When every destination carries an id, a state update always succeeds. */
  lemma UpdateRelayStateWithIds(store: NestStore, streamId: string, relayId: string, state: RelayState)
    requires forall j, k | 0 <= j < |store| && 0 <= k < |store[j].destinations| :: store[j].destinations[k].id.Some?
    ensures UpdateRelayState(store, streamId, relayId, state).Ok?
  {
  }
}

=== FILE: nest_rtmp_server.dfy ===
/** RTMP admission hooks of the NestJS snapshot
    (backend/src/rtmp-server/rtmp-server.service.ts). The media server's
    sessions are a map from session id to the session's connect URL (`tcUrl`);
    a hook returns the new tables, whether it rejected the session, and the
    bus events it emitted. Rejecting a session that does not exist does nothing
    in the source; the model still reports the hook as refusing. */
module NestRtmpServer {
  import opened Outcomes
  import opened Text
  import opened NestModel

  /** The media-server settings the hooks read. */
  datatype ServerConfig = ServerConfig(injectHost: string, port: nat, injectRoot: string, watchRoot: string)

  /** `activeSessions` (stream id to session id) and `activeKeyMap` (stream id to api key). */
  datatype Server = Server(activeSessions: map<string, string>, activeKeyMap: map<string, string>)

  datatype BusEvent =
    | InjectStart(streamId: string)   // "rtmp.inject.start"
    | InjectStop(streamId: string)    // "rtmp.inject.stop"

  datatype Hook = Hook(server: Server, rejected: bool, events: seq<BusEvent>)

  /** What `prePlay` decides: refusal, or the play path the session is sent to. */
  datatype Play = Refused | Redirect(playPath: string)

  /** `ExtractStreamKey(streamPath)`: what follows the last slash, or nothing
      when there is no slash or the only one leads the path. */
  function ExtractStreamKey(path: string): (r: string)
    ensures '/' !in r
    ensures LastIndexOf(path, '/') <= 0 ==> r == ""
    ensures LastIndexOf(path, '/') > 0 ==> path == path[..LastIndexOf(path, '/') + 1] + r
  {
    var last := LastIndexOf(path, '/');
    if last <= 0 || last >= |path| then ""
    else
      var r := path[last + 1..];
      assert forall k | 0 <= k < |r| :: r[k] == path[last + 1 + k];
      r
  }

  /** A path `<prefix>/<key>` with a non-empty prefix and a slash-free key gives the key back. */
  lemma ExtractStreamKeyOfPath(prefix: string, key: string)
    requires |prefix| > 0 && '/' !in key
    ensures ExtractStreamKey(prefix + "/" + key) == key
  {
    var path := prefix + "/" + key;
    var last := LastIndexOf(path, '/');
    assert path[|prefix|] == '/';
    assert forall j | |prefix| < j < |path| :: path[j] == key[j - |prefix| - 1];
    assert last == |prefix|;
    assert path[last + 1..] == key;
  }

  /** The session and key `extractSessionAndKey` reports; the key is empty
      when the session or the path is missing, or no key can be extracted. */
  function SessionAndKey(sessions: map<string, string>, id: string, path: string): (r: (Option<string>, string))
    ensures r.1 != "" ==> id in sessions && r.0 == Some(sessions[id]) && path != "" && r.1 == ExtractStreamKey(path)
    ensures id !in sessions || path == "" ==> r.1 == ""
    ensures id in sessions && path != "" ==> r == (Some(sessions[id]), ExtractStreamKey(path))
    ensures id !in sessions ==> r.0 == None
  {
    var session := if id in sessions then Some(sessions[id]) else None;
    if session.None? || path == "" then (session, "")
    else (session, ExtractStreamKey(path))
  }

  /** The prefix an ingest URL must start with: host, port, then the inject
      root with runs of slashes collapsed. */
  function InjectPrefix(cfg: ServerConfig): string {
    cfg.injectHost + ":" + NatToDecimal(cfg.port) + CollapseRuns("/" + cfg.injectRoot, '/')
  }

  /** `ValidateInjectUrlAndApp`: a prefix test on the connect URL. */
  predicate ValidateInjectUrl(cfg: ServerConfig, tcUrl: string) {
    StartsWith(tcUrl, InjectPrefix(cfg))
  }

  /** The text a watch URL must contain: the port, then the watch root. */
  function WatchMarker(cfg: ServerConfig): string {
    NatToDecimal(cfg.port) + CollapseRuns("/" + cfg.watchRoot, '/')
  }

  /** `ValidateWatchUrlAndApp`: a substring test on the connect URL. */
  predicate ValidateWatchUrl(cfg: ServerConfig, tcUrl: string) {
    Contains(tcUrl, WatchMarker(cfg))
  }

  /** The ingest check is the stricter of the two forms: a URL passing it
      contains the prefix, and anything may follow the prefix. */
  lemma ValidationForms(cfg: ServerConfig, tcUrl: string, rest: string)
    ensures ValidateInjectUrl(cfg, tcUrl) ==> Contains(tcUrl, InjectPrefix(cfg))
    ensures ValidateInjectUrl(cfg, InjectPrefix(cfg) + rest)
    ensures ValidateWatchUrl(cfg, rest + WatchMarker(cfg) + rest)
  {
    if ValidateInjectUrl(cfg, tcUrl) {
      assert OccursAt(tcUrl, InjectPrefix(cfg), 0);
    }
    var p := InjectPrefix(cfg);
    assert (p + rest)[..|p|] == p;
    var u := rest + WatchMarker(cfg) + rest;
    assert u[|rest|..|rest| + |WatchMarker(cfg)|] == WatchMarker(cfg);
    assert OccursAt(u, WatchMarker(cfg), |rest|);
  }

  /** `onPrePublish`: refuses an empty key, a connect URL outside the ingest
      prefix, an unknown key, and a stream that is not Waiting. */
  function OnPrePublish(cfg: ServerConfig, store: NestStore, sessions: map<string, string>, id: string, path: string)
    : (rejected: bool)
    ensures !rejected <==>
      var (session, key) := SessionAndKey(sessions, id, path);
      && key != ""
      && ValidateInjectUrl(cfg, session.value)
      && GetByApiKey(store, key).Some?
      && GetByApiKey(store, key).value.state == Waiting
  {
    var (session, key) := SessionAndKey(sessions, id, path);
    if key == "" then true
    else if !ValidateInjectUrl(cfg, session.value) then true
    else
      match GetByApiKey(store, key)
      case None => true
      case Some(s) => s.state != Waiting
  }

  /** `onPostPublish`: a Waiting stream found by its key records the session
      and the key under the stream id and announces the ingest. A connect URL
      outside the ingest prefix is ignored without a rejection. */
  function OnPostPublish(cfg: ServerConfig, store: NestStore, srv: Server, sessions: map<string, string>,
                         id: string, path: string): (r: Hook)
    ensures r.rejected ==> r.server == srv && r.events == []
    ensures SessionAndKey(sessions, id, path).1 == "" ==> r.rejected
    ensures |r.events| <= 1
    ensures r.events != [] ==>
      var key := SessionAndKey(sessions, id, path).1;
      var s := GetByApiKey(store, key);
      && key != "" && ValidateInjectUrl(cfg, sessions[id])
      && s.Some? && s.value.state == Waiting
      && r.events == [InjectStart(s.value.id)]
      && r.server == Server(srv.activeSessions[s.value.id := id], srv.activeKeyMap[s.value.id := key])
    ensures r.events == [] ==> r.server == srv
    ensures !r.rejected && r.events == [] ==> !ValidateInjectUrl(cfg, sessions[id])
    ensures var key := SessionAndKey(sessions, id, path).1;
            key != "" && !ValidateInjectUrl(cfg, sessions[id]) ==> r == Hook(srv, false, [])
    ensures var key := SessionAndKey(sessions, id, path).1;
            var s := GetByApiKey(store, key);
            key != "" && ValidateInjectUrl(cfg, sessions[id]) && s.Some? && s.value.state == Waiting ==>
              && !r.rejected
              && r.events == [InjectStart(s.value.id)]
              && r.server == Server(srv.activeSessions[s.value.id := id], srv.activeKeyMap[s.value.id := key])
  {
    var (session, key) := SessionAndKey(sessions, id, path);
    if key == "" then Hook(srv, true, [])
    else if !ValidateInjectUrl(cfg, session.value) then Hook(srv, false, [])
    else
      match GetByApiKey(store, key)
      case None => Hook(srv, true, [])
      case Some(s) =>
        if s.state != Waiting then Hook(srv, true, [])
        else Hook(Server(srv.activeSessions[s.id := id], srv.activeKeyMap[s.id := key]), false, [InjectStart(s.id)])
  }

  /** `onDonePublish`: only a Live stream ends its ingest; its session entry
      goes and the stop is announced. The key entry stays. */
  function OnDonePublish(store: NestStore, srv: Server, sessions: map<string, string>, id: string, path: string)
    : (r: Hook)
    ensures r.rejected <==> r.events == []
    ensures r.rejected ==> r.server == srv
    ensures !r.rejected ==>
      var key := SessionAndKey(sessions, id, path).1;
      var s := GetByApiKey(store, key);
      && key != "" && s.Some? && s.value.state == StreamStatus.Live
      && r.events == [InjectStop(s.value.id)]
      && r.server == srv.(activeSessions := srv.activeSessions - {s.value.id})
    ensures var key := SessionAndKey(sessions, id, path).1;
            var s := GetByApiKey(store, key);
            key != "" && s.Some? && s.value.state == StreamStatus.Live ==> !r.rejected
  {
    var (session, key) := SessionAndKey(sessions, id, path);
    if key == "" then Hook(srv, true, [])
    else
      match GetByApiKey(store, key)
      case None => Hook(srv, true, [])
      case Some(s) =>
        if s.state != StreamStatus.Live then Hook(srv, true, [])
        else Hook(srv.(activeSessions := srv.activeSessions - {s.id}), false, [InjectStop(s.id)])
  }

  /** Connections from the local host skip the watch-URL check. */
  predicate IsLocal(tcUrl: string) {
    StartsWith(tcUrl, "rtmp://127.0.0.1") || StartsWith(tcUrl, "rtmp://localhost")
  }

  /** The play path a watcher is redirected to: `/<injectRoot>/<apiKey>`
      with runs of slashes collapsed. */
  function PlayPath(cfg: ServerConfig, apiKey: string): (r: string)
    ensures |r| > 0 && r[0] == '/'
    ensures forall i | 0 <= i < |r| - 1 :: !(r[i] == '/' && r[i + 1] == '/')
    ensures RemoveAll(r, '/') == RemoveAll("/" + cfg.injectRoot + "/" + apiKey, '/')
    ensures |cfg.injectRoot| > 0 && '/' !in cfg.injectRoot && '/' !in apiKey ==>
      r == "/" + cfg.injectRoot + "/" + apiKey
  {
    SingleSlashes(cfg.injectRoot, apiKey);
    CollapseRuns("/" + cfg.injectRoot + "/" + apiKey, '/')
  }

  /** `/<root>/<key>` has no doubled slash when the root is a non-empty
      slash-free name and the key is slash-free. */
  lemma SingleSlashes(root: string, key: string)
    ensures var p := "/" + root + "/" + key;
            |root| > 0 && '/' !in root && '/' !in key ==>
              forall i | 0 <= i < |p| - 1 :: !(p[i] == '/' && p[i + 1] == '/')
  {
    var p := "/" + root + "/" + key;
    if |root| > 0 && '/' !in root && '/' !in key {
      forall i | 0 <= i < |p| - 1 ensures !(p[i] == '/' && p[i + 1] == '/') {
        if i == 0 {
          assert p[1] == root[0];
        } else if i <= |root| {
          assert p[i] == root[i - 1];
        } else {
          assert p[i + 1] == key[i - |root| - 1];
        }
      }
    }
  }

  /** `onPrePlay`: the path names a stream id; a stream with a recorded key is
      played from the ingest path of that key. */
  function OnPrePlay(cfg: ServerConfig, srv: Server, sessions: map<string, string>, id: string, path: string)
    : (r: Play)
    ensures id !in sessions || path == "" ==> r == Refused
    ensures ExtractStreamKey(path) == "" ==> r == Refused
    ensures r.Redirect? ==>
      var streamId := ExtractStreamKey(path);
      && id in sessions
      && (IsLocal(sessions[id]) || ValidateWatchUrl(cfg, sessions[id]))
      && streamId in srv.activeKeyMap && srv.activeKeyMap[streamId] != ""
      && r.playPath == PlayPath(cfg, srv.activeKeyMap[streamId])
    ensures (&& id in sessions && path != "" && (IsLocal(sessions[id]) || ValidateWatchUrl(cfg, sessions[id]))
             && ExtractStreamKey(path) != ""
             && ExtractStreamKey(path) in srv.activeKeyMap && srv.activeKeyMap[ExtractStreamKey(path)] != "")
            ==> r.Redirect?
  {
    if id !in sessions || path == "" then Refused
    else
      var tcUrl := sessions[id];
      if !IsLocal(tcUrl) && !ValidateWatchUrl(cfg, tcUrl) then Refused
      else
        var streamId := ExtractStreamKey(path);
        if streamId == "" then Refused
        else if streamId !in srv.activeKeyMap || srv.activeKeyMap[streamId] == "" then Refused
        else Redirect(PlayPath(cfg, srv.activeKeyMap[streamId]))
  }

  /** A Waiting stream published through `<app>/<apiKey>` from an allowed
      ingest URL is admitted; once its post-publish hook ran, a local watcher
      of `<watch app>/<stream id>` is redirected to the ingest path of its key. */
  lemma PublishThenWatch(cfg: ServerConfig, store: NestStore, srv: Server, sessions: map<string, string>,
                         pub: string, watcher: string, app: string, watchApp: string, j: int)
    requires 0 <= j < |store| && store[j].state == Waiting
    requires forall i | 0 <= i < j :: store[i].apiKey != store[j].apiKey
    requires store[j].apiKey != "" && '/' !in store[j].apiKey
    requires store[j].id != "" && '/' !in store[j].id
    requires |app| > 0 && |watchApp| > 0
    requires pub in sessions && ValidateInjectUrl(cfg, sessions[pub])
    requires watcher in sessions && IsLocal(sessions[watcher])
    ensures !OnPrePublish(cfg, store, sessions, pub, app + "/" + store[j].apiKey)
    ensures var post := OnPostPublish(cfg, store, srv, sessions, pub, app + "/" + store[j].apiKey);
            && post.events == [InjectStart(store[j].id)]
            && OnPrePlay(cfg, post.server, sessions, watcher, watchApp + "/" + store[j].id)
                 == Redirect(PlayPath(cfg, store[j].apiKey))
  {
    ExtractStreamKeyOfPath(app, store[j].apiKey);
    ExtractStreamKeyOfPath(watchApp, store[j].id);
    var key := store[j].apiKey;
    assert GetByApiKey(store, key).Some?;
    var s := GetByApiKey(store, key).value;
    var k :| 0 <= k < |store| && store[k] == s && forall i | 0 <= i < k :: store[i].apiKey != key;
    assert k == j;
  }

  /** After an admitted publish has taken the stream Live, the done hook for
      the same session and path ends the ingest: the session entry goes, the
      key entry a watcher is redirected through stays, and the stop is announced. */
  lemma PublishThenDone(cfg: ServerConfig, store: NestStore, srv: Server, sessions: map<string, string>,
                        pub: string, app: string, j: int)
    requires 0 <= j < |store| && store[j].state == Waiting
    requires forall i | 0 <= i < j :: store[i].apiKey != store[j].apiKey
    requires store[j].apiKey != "" && '/' !in store[j].apiKey
    requires |app| > 0
    requires pub in sessions && ValidateInjectUrl(cfg, sessions[pub])
    ensures var path := app + "/" + store[j].apiKey;
            var post := OnPostPublish(cfg, store, srv, sessions, pub, path);
            var live := store[j := store[j].(state := StreamStatus.Live)];
            var done := OnDonePublish(live, post.server, sessions, pub, path);
            && !done.rejected
            && done.events == [InjectStop(store[j].id)]
            && store[j].id !in done.server.activeSessions
            && store[j].id in done.server.activeKeyMap
            && done.server.activeKeyMap[store[j].id] == store[j].apiKey
  {
    var key := store[j].apiKey;
    ExtractStreamKeyOfPath(app, key);
    assert GetByApiKey(store, key).value == store[j] by {
      var s := GetByApiKey(store, key).value;
      var k :| 0 <= k < |store| && store[k] == s && forall i | 0 <= i < k :: store[i].apiKey != key;
      assert k == j;
    }
    var live := store[j := store[j].(state := StreamStatus.Live)];
    assert GetByApiKey(live, key).value == live[j] by {
      assert live[j].apiKey == key;
      var s := GetByApiKey(live, key).value;
      var k :| 0 <= k < |live| && live[k] == s && forall i | 0 <= i < k :: live[i].apiKey != key;
      assert k == j;
    }
  }
}

=== FILE: nest_stream_mgr_service.dfy ===
/** Stream lifecycle of the NestJS snapshot (backend/src/stream/stream-mgr.service.ts).
    Unlike the `backend/service` manager, an unknown stream is ignored, a
    repeated stop is a silent no-op, and a start does not reset the
    destinations: only the state field is written. */
module NestStreamMgrService {
  import opened Outcomes
  import opened NestModel

  /** `startStream(id)`. */
  function StartStream(store: NestStore, id: string): (r: Result<NestStore>)
    ensures IndexOfStream(store, id) == -1 ==> r == Ok(store)
    ensures IndexOfStream(store, id) >= 0 ==>
      var i := IndexOfStream(store, id);
      && (r.Err? <==> store[i].state != Stopped)
      && (r.Err? ==> r.fault == InvalidState)
      && (r.Ok? ==>
            && |r.value| == |store|
            && r.value[i] == store[i].(state := Waiting)
            && forall j | 0 <= j < |store| && j != i :: r.value[j] == store[j])
  {
    match GetStream(store, id)
    case None => Ok(store)
    case Some(s) =>
      if s.state != Stopped then Err(InvalidState)
      else Ok(UpdateStream(store, s.(state := Waiting)))
  }

  /** `stopStream(id)`. */
  function StopStream(store: NestStore, id: string): (r: NestStore)
    ensures |r| == |store|
    ensures IndexOfStream(store, id) == -1 ==> r == store
    ensures IndexOfStream(store, id) >= 0 ==>
      var i := IndexOfStream(store, id);
      && r[i] == store[i].(state := Stopped)
      && forall j | 0 <= j < |store| && j != i :: r[j] == store[j]
  {
    match GetStream(store, id)
    case None => store
    case Some(s) =>
      if s.state == Stopped then store
      else UpdateStream(store, s.(state := Stopped))
  }

  lemma IndexAfterWrite(store: NestStore, id: string, s: NestStream)
    requires IndexOfStream(store, id) >= 0 && s.id == id
    ensures IndexOfStream(UpdateStream(store, s), id) == IndexOfStream(store, id)
  {
    var i := IndexOfStream(store, id);
    var w := UpdateStream(store, s);
    assert forall j | 0 <= j < i :: w[j] == store[j];
  }

  /** Stopping is idempotent. */
  lemma StopIdempotent(store: NestStore, id: string)
    ensures StopStream(StopStream(store, id), id) == StopStream(store, id)
  {
    var i := IndexOfStream(store, id);
    if i >= 0 && store[i].state != Stopped {
      IndexAfterWrite(store, id, store[i].(state := Stopped));
    }
  }

  /** A start followed by a stop gives the original store back: start only
      accepts a Stopped stream and writes nothing but its state. */
  lemma StartThenStopRestores(store: NestStore, id: string)
    requires StartStream(store, id).Ok?
    ensures StopStream(StartStream(store, id).value, id) == store
  {
    var i := IndexOfStream(store, id);
    if i >= 0 {
      IndexAfterWrite(store, id, store[i].(state := Waiting));
      var started := StartStream(store, id).value;
      var stopped := StopStream(started, id);
      assert stopped[i] == store[i];
      assert stopped == store;
    }
  }

  /** A started stream cannot be started again until it is stopped. */
  lemma StartNotRepeatable(store: NestStore, id: string)
    requires IndexOfStream(store, id) >= 0 && StartStream(store, id).Ok?
    ensures StartStream(StartStream(store, id).value, id) == Err(InvalidState)
  {
    IndexAfterWrite(store, id, store[IndexOfStream(store, id)].(state := Waiting));
  }
}

=== FILE: nest_stream_relay_service.dfy ===
/** Relay destination CRUD of the NestJS snapshot
    (backend/src/stream/stream-relay.service.ts). Unknown streams and unknown
    relays are silently ignored; only a Disconnected relay may be removed.
    The document id a new relay receives is supplied by the caller. */
module NestStreamRelayService {
  import opened Outcomes
  import opened NestModel

  /** `getRelays(streamId)`: the stream's destinations, or nothing. */
  function GetRelays(store: NestStore, streamId: string): (r: Option<seq<Relay>>)
    ensures r.None? <==> forall j | 0 <= j < |store| :: store[j].id != streamId
    ensures r.Some? ==> exists j | 0 <= j < |store| :: store[j].id == streamId && r.value == store[j].destinations
  {
    match GetStream(store, streamId)
    case None => None
    case Some(s) => Some(s.destinations)
  }

  /** `addNewRelay(streamId, relay)`: the validated relay is appended. */
  function AddNewRelay(store: NestStore, streamId: string, d: RelayDraft, newId: string): (r: Result<NestStore>)
    ensures IndexOfStream(store, streamId) == -1 ==> r == Ok(store)
    ensures IndexOfStream(store, streamId) >= 0 ==> (r.Err? <==> ValidateRelay(d, newId).Err?)
    ensures r.Err? ==> r.fault == ValidationFailed
    ensures IndexOfStream(store, streamId) >= 0 && r.Ok? ==>
      var i := IndexOfStream(store, streamId);
      && |r.value| == |store|
      && r.value[i] == store[i].(destinations := store[i].destinations + [ValidateRelay(d, newId).value])
      && forall j | 0 <= j < |store| && j != i :: r.value[j] == store[j]
  {
    match GetStream(store, streamId)
    case None => Ok(store)
    case Some(s) =>
      match ValidateRelay(d, newId)
      case Err(f) => Err(f)
      case Ok(relay) => Ok(UpdateStream(store, s.(destinations := s.destinations + [relay])))
  }

  /** `removeRelay(streamId, relayId)`: every destination with the id goes,
      provided the first of them is Disconnected. */
  function RemoveRelay(store: NestStore, streamId: string, relayId: string): (r: Result<NestStore>)
    ensures IndexOfStream(store, streamId) == -1 ==> r == Ok(store)
    ensures IndexOfStream(store, streamId) >= 0 ==>
      var i := IndexOfStream(store, streamId);
      var ds := store[i].destinations;
      var k := IndexOfRelay(ds, relayId);
      && (k == -1 ==> r == Ok(store))
      && (k >= 0 ==> (r.Err? <==> ds[k].state != Disconnected))
      && (r.Err? ==> r.fault == InvalidState)
      && (k >= 0 && r.Ok? ==>
            && |r.value| == |store|
            && r.value[i] == store[i].(destinations := WithoutRelay(ds, relayId))
            && |r.value[i].destinations| < |ds|
            && forall j | 0 <= j < |store| && j != i :: r.value[j] == store[j])
  {
    match GetStream(store, streamId)
    case None => Ok(store)
    case Some(s) =>
      var k := IndexOfRelay(s.destinations, relayId);
      if k < 0 then Ok(store)
      else if s.destinations[k].state != Disconnected then Err(InvalidState)
      else Ok(UpdateStream(store, s.(destinations := WithoutRelay(s.destinations, relayId))))
  }

  /** `restartRelay`: not implemented in the source; it changes nothing. */
  function RestartRelay(store: NestStore, streamId: string, relayId: string): (r: NestStore)
    ensures r == store
  {
    store
  }

  lemma {:induction false} WithoutAppended(ds: seq<Relay>, nd: Relay, id: string)
    requires nd.id == Some(id)
    requires IndexOfRelay(ds, id) == -1
    ensures WithoutRelay(ds + [nd], id) == ds
  {
    if |ds| == 0 {
      assert ds + [nd] == [nd];
      assert [nd][1..] == [];
    } else {
      assert (ds + [nd])[1..] == ds[1..] + [nd];
      assert IndexOfRelay(ds[1..], id) == -1;
      WithoutAppended(ds[1..], nd, id);
      assert ds == [ds[0]] + ds[1..];
    }
  }

  /** Adding a relay under an id no destination of the stream carries, and
      then removing that id, gives the original store back. */
  lemma AddThenRemoveRestores(store: NestStore, streamId: string, d: RelayDraft, newId: string)
    requires AddNewRelay(store, streamId, d, newId).Ok?
    requires d.state.None? || d.state == Some(Disconnected)
    requires IndexOfStream(store, streamId) >= 0 ==>
      IndexOfRelay(store[IndexOfStream(store, streamId)].destinations, newId) == -1
    ensures RemoveRelay(AddNewRelay(store, streamId, d, newId).value, streamId, newId) == Ok(store)
  {
    var i := IndexOfStream(store, streamId);
    if i >= 0 {
      var added := AddNewRelay(store, streamId, d, newId).value;
      var relay := ValidateRelay(d, newId).value;
      var ds := store[i].destinations;
      assert IndexOfStream(added, streamId) == i by {
        assert forall j | 0 <= j < i :: added[j] == store[j];
      }
      var k := IndexOfRelay(ds + [relay], newId);
      assert k == |ds| by {
        assert (ds + [relay])[|ds|] == relay;
        assert forall j | 0 <= j < |ds| :: (ds + [relay])[j] == ds[j];
      }
      assert added[i].destinations == ds + [relay];
      assert relay.state == Disconnected;
      WithoutAppended(ds, relay, newId);
      var removed := RemoveRelay(added, streamId, newId).value;
      assert removed[i] == store[i];
      assert removed == store;
    }
  }
}

=== FILE: outcomes.dfy ===
/** Failure-carrying values shared by every model module.
    A thrown `Error` of the source becomes `Err(fault)`; a returned `null` or
    `undefined` becomes `None`. */
module Outcomes {

  datatype Option<+T> = None | Some(value: T)

  /** The reasons a command of the hub can fail with. */
  datatype Fault =
    | NotFound          // unknown stream, destination or key
    | InvalidState      // operation attempted from a lifecycle state that forbids it
    | AlreadyActive     // a process list or handle already exists for the key
    | InvalidArgs       // an empty transcoder argument list
    | ValidationFailed  // a destination document fails schema validation
    | WriteFailed       // the store reported that nothing was modified
    | MissingId         // a destination without an id was dereferenced
    | DrawsExhausted    // the supplied random draws ran out before a fresh value was found

  datatype Result<+T> = Ok(value: T) | Err(fault: Fault)
}

=== FILE: restream.dfy ===
/** Restream supervisor of the Deno snapshot
    (backend/services/ReStreamService.ts): one ffmpeg process per key
    `streamId-destinationId`, restarted after a failed exit at most three
    times with an exponential backoff. Spawns, kills and backoff waits are
    returned as effects and the process numbers come from a counter.

    As written, no spawn ever succeeds: `createFFmpegProcess` calls the
    static `getStreamAccessUrl` through `this`, where it is undefined, so the
    call throws (`StartReStreamAsWritten`, `RestartAsWritten`). `StartReStream`
    and `Restart` model the repaired call `ReStreamService.getStreamAccessUrl`;
    whether that spawn succeeds is supplied by the caller.

    An exit handler stays attached to the process it was set up for and
    remembers the registry entry of that moment. The handler as written acts
    on the key even after the entry was stopped or replaced
    (`OnExitAsWritten`); `OnExit` is the corrected handler, which ignores a
    process that is no longer the one registered under its key. */
module ReStreamService {
  import opened Outcomes
  import opened Text
  import opened LegacyModel

  const MaxRestartAttempts: nat := 3
  const RestartCooldownMs: nat := 5000

  /** A registry entry; `process` is absent until the spawn returned. */
  datatype ProcInfo = ProcInfo(
    process: Option<nat>,
    streamId: string,
    destinationId: string,
    startTime: int,
    restartCount: nat)

  /** An attached exit handler: the key, the entry it captured and the
      arguments a restart spawns again. */
  datatype Monitor = Monitor(key: string, info: ProcInfo, args: seq<string>)

  datatype Supervisor = Supervisor(
    procs: map<string, ProcInfo>,
    monitors: map<nat, Monitor>,
    nextProc: nat)

  datatype Effect =
    | Spawn(proc: nat, args: seq<string>)
    | Kill(proc: nat)
    | Sleep(ms: nat)

  datatype Step = Step(sup: Supervisor, effects: seq<Effect>)

  /** What `getStreamStatus` reports. */
  datatype RunStatus = RunStatus(isRunning: bool, uptime: Option<int>, restartCount: nat)

  const Empty: Supervisor := Supervisor(map[], map[], 0)

  function ProcessKey(streamId: string, destinationId: string): string {
    streamId + "-" + destinationId
  }

  /** Every entry, and every entry an exit handler captured, sits under the
      key of its own stream and destination ids. */
  predicate WellKeyed(sup: Supervisor) {
    && (forall k | k in sup.procs :: k == ProcessKey(sup.procs[k].streamId, sup.procs[k].destinationId))
    && (forall p | p in sup.monitors ::
          sup.monitors[p].key == ProcessKey(sup.monitors[p].info.streamId, sup.monitors[p].info.destinationId))
  }

  /** No entry and no captured entry has been restarted more than three times. */
  predicate CountsBounded(sup: Supervisor) {
    && (forall k | k in sup.procs :: sup.procs[k].restartCount <= MaxRestartAttempts)
    && (forall p | p in sup.monitors :: sup.monitors[p].info.restartCount <= MaxRestartAttempts)
  }

  // ---------------------------------------------------------------------
  // The access URL and the ffmpeg command
  // ---------------------------------------------------------------------

  /** The characters a JavaScript regular-expression `.` does not match. */
  predicate IsLineTerminator(ch: char) {
    ch == '\n' || ch == '\r' || ch == '\U{2028}' || ch == '\U{2029}'
  }

  predicate NoLineTerminator(s: string) {
    forall i | 0 <= i < |s| :: !IsLineTerminator(s[i])
  }

  /** `getStreamAccessUrl`: an endpoint `rtmp://<host>/<rest>` (host non-empty
      and without '/', rest on one line) keeps its host and loses every '/'
      of the rest; any other endpoint is returned unchanged. */
  function AccessUrl(endpoint: string): (r: string)
    ensures !StartsWith(endpoint, "rtmp://") ==> r == endpoint
    ensures StartsWith(endpoint, "rtmp://") && FirstIndex(endpoint[7..], '/') <= 0 ==> r == endpoint
    ensures r != endpoint ==>
      var host := endpoint[7..][..FirstIndex(endpoint[7..], '/')];
      && StartsWith(r, "rtmp://" + host + "/")
      && '/' !in r[|host| + 8..]
    ensures StartsWith(endpoint, "rtmp://") && FirstIndex(endpoint[7..], '/') > 0 ==>
      var k := FirstIndex(endpoint[7..], '/');
      var rest := endpoint[7..][k + 1..];
      && (!NoLineTerminator(rest) ==> r == endpoint)
      && (NoLineTerminator(rest) ==> r == "rtmp://" + endpoint[7..][..k] + "/" + RemoveAll(rest, '/'))
    ensures RemoveAll(r, '/') == RemoveAll(endpoint, '/')
    ensures |r| <= |endpoint|
  {
    if !StartsWith(endpoint, "rtmp://") then endpoint
    else
      var after := endpoint[7..];
      var k := FirstIndex(after, '/');
      if k <= 0 then endpoint
      else
        var host := after[..k];
        var rest := after[k + 1..];
        if !NoLineTerminator(rest) then endpoint
        else
          EndpointParts(endpoint, k);
          RewriteDropsOnlySlashes(host, rest);
          "rtmp://" + host + "/" + RemoveAll(rest, '/')
  }

  lemma EndpointParts(endpoint: string, k: int)
    requires StartsWith(endpoint, "rtmp://") && 0 < k < |endpoint| - 7 && endpoint[7 + k] == '/'
    ensures endpoint == "rtmp://" + endpoint[7..][..k] + "/" + endpoint[7..][k + 1..]
  {
    var after := endpoint[7..];
    assert endpoint == endpoint[..7] + after;
    assert after == after[..k] + "/" + after[k + 1..];
  }

  lemma RewriteDropsOnlySlashes(host: string, rest: string)
    ensures var r := "rtmp://" + host + "/" + RemoveAll(rest, '/');
      && r[|host| + 8..] == RemoveAll(rest, '/')
      && RemoveAll(r, '/') == RemoveAll("rtmp://" + host + "/" + rest, '/')
  {
    RemoveAllConcat("rtmp://" + host + "/", RemoveAll(rest, '/'), '/');
    RemoveAllConcat("rtmp://" + host + "/", rest, '/');
    RemoveAllKeeps(RemoveAll(rest, '/'), '/');
  }

  /** The access URL of an `rtmp://<host>/<rest>` endpoint, stated on its parts. */
  lemma AccessUrlOfEndpoint(host: string, rest: string)
    requires |host| > 0 && '/' !in host && NoLineTerminator(rest)
    ensures AccessUrl("rtmp://" + host + "/" + rest) == "rtmp://" + host + "/" + RemoveAll(rest, '/')
  {
    var e := "rtmp://" + host + "/" + rest;
    assert e[..7] == "rtmp://";
    var after := e[7..];
    assert after == host + "/" + rest;
    assert after[|host|] == '/';
    assert forall j | 0 <= j < |host| :: after[j] == host[j];
    assert FirstIndex(after, '/') == |host|;
    assert after[..|host|] == host && after[|host| + 1..] == rest;
  }

  /** Rewriting an access URL again changes nothing. */
  lemma AccessUrlIdempotent(endpoint: string)
    ensures AccessUrl(AccessUrl(endpoint)) == AccessUrl(endpoint)
  {
    var r := AccessUrl(endpoint);
    if r != endpoint {
      var after := endpoint[7..];
      var k := FirstIndex(after, '/');
      var host := after[..k];
      var rest := after[k + 1..];
      var stripped := RemoveAll(rest, '/');
      assert r == "rtmp://" + host + "/" + stripped;
      assert '/' !in host;
      StrippedStaysOneLine(rest);
      AccessUrlOfEndpoint(host, stripped);
      RemoveAllKeeps(stripped, '/');
    }
  }

  /** Dropping slashes cannot introduce a line terminator. */
  lemma StrippedStaysOneLine(rest: string)
    requires NoLineTerminator(rest)
    ensures NoLineTerminator(RemoveAll(rest, '/'))
  {
    RemoveAllKeeps(rest, '/');
    var stripped := RemoveAll(rest, '/');
    forall i | 0 <= i < |stripped| ensures !IsLineTerminator(stripped[i]) {
      assert stripped[i] in rest;
    }
  }

  /** `createFFmpegProcess`'s arguments: copy both tracks from the access URL
      into FLV with global headers, written to `serverUrl/streamKey`. */
  function FfmpegArgs(stream: StreamInstance, d: Destination): (a: seq<string>)
    ensures |a| == 9
    ensures a[0] == "-i" && a[1] == AccessUrl(stream.rtmpEndpoint)
    ensures a[2..8] == ["-c", "copy", "-f", "flv", "-flags", "+global_header"]
    ensures a[8] == d.serverUrl + "/" + d.streamKey
  {
    ["-i", AccessUrl(stream.rtmpEndpoint), "-c", "copy", "-f", "flv",
     "-flags", "+global_header", d.serverUrl + "/" + d.streamKey]
  }

  /** A stream published at `rtmp://<host>/<rest>` is read back from
      `rtmp://<host>/` followed by `rest` without its slashes. */
  lemma FfmpegArgsOfEndpoint(stream: StreamInstance, d: Destination, host: string, rest: string)
    requires stream.rtmpEndpoint == "rtmp://" + host + "/" + rest
    requires |host| > 0 && '/' !in host && NoLineTerminator(rest)
    ensures FfmpegArgs(stream, d)[1] == "rtmp://" + host + "/" + RemoveAll(rest, '/')
  {
    AccessUrlOfEndpoint(host, rest);
  }

  // ---------------------------------------------------------------------
  // Start, stop, status
  // ---------------------------------------------------------------------

  /** `startReStream`: an existing key answers true without spawning. A new key
      is registered first with restart count 0; if the spawn then fails the
      entry stays registered without a process and the answer is false. */
  function StartReStream(sup: Supervisor, stream: StreamInstance, d: Destination, now: int, spawned: bool)
    : (out: (Step, bool))
    ensures var key := ProcessKey(stream.id, d.id);
      && (key in sup.procs ==> out == (Step(sup, []), true))
      && (key !in sup.procs ==>
            var (step, ok) := out;
            && ok == spawned
            && key in step.sup.procs
            && step.sup.procs[key].restartCount == 0
            && step.sup.procs[key].streamId == stream.id
            && step.sup.procs[key].destinationId == d.id
            && step.sup.procs[key].startTime == now
            && (!spawned ==> step.sup.procs[key].process.None? && step.effects == []
                             && step.sup.monitors == sup.monitors && step.sup.nextProc == sup.nextProc)
            && (spawned ==>
                  && step.sup.procs[key].process == Some(sup.nextProc)
                  && step.effects == [Spawn(sup.nextProc, FfmpegArgs(stream, d))]
                  && step.sup.nextProc == sup.nextProc + 1
                  && step.sup.monitors == sup.monitors[sup.nextProc := Monitor(key, step.sup.procs[key], FfmpegArgs(stream, d))]))
    ensures forall k | k != ProcessKey(stream.id, d.id) ::
      (k in out.0.sup.procs <==> k in sup.procs) && (k in sup.procs ==> out.0.sup.procs[k] == sup.procs[k])
  {
    var key := ProcessKey(stream.id, d.id);
    if key in sup.procs then (Step(sup, []), true)
    else
      var placeholder := ProcInfo(None, stream.id, d.id, now, 0);
      if !spawned then (Step(sup.(procs := sup.procs[key := placeholder]), []), false)
      else
        var pid := sup.nextProc;
        var info := placeholder.(process := Some(pid));
        var args := FfmpegArgs(stream, d);
        (Step(Supervisor(sup.procs[key := info], sup.monitors[pid := Monitor(key, info, args)], pid + 1),
              [Spawn(pid, args)]), true)
  }

  /** `startAllRestreams`: `startReStream` for each destination in list
      order (each call registers its key before the next one runs); the
      spawns of the destinations named in `failing` throw. Every destination
      ends up registered and no earlier entry changes. */
  function StartAllRestreams(sup: Supervisor, stream: StreamInstance, ds: seq<Destination>,
                             failing: set<string>, now: int): (out: Step)
    ensures forall k | k in sup.procs :: k in out.sup.procs && out.sup.procs[k] == sup.procs[k]
    ensures forall j | 0 <= j < |ds| :: ProcessKey(stream.id, ds[j].id) in out.sup.procs
    ensures forall k | k in out.sup.procs && k !in sup.procs ::
      exists j | 0 <= j < |ds| :: k == ProcessKey(stream.id, ds[j].id)
    ensures forall e | e in out.effects :: e.Spawn?
    ensures |out.effects| <= |ds|
    ensures WellKeyed(sup) ==> WellKeyed(out.sup)
    decreases |ds|
  {
    if |ds| == 0 then Step(sup, [])
    else
      var (first, _) := StartReStream(sup, stream, ds[0], now, ds[0].id !in failing);
      StartKeepsWellKeyed(sup, stream, ds[0], now, ds[0].id !in failing);
      var rest := StartAllRestreams(first.sup, stream, ds[1..], failing, now);
      assert forall j | 1 <= j < |ds| :: ds[j] == ds[1..][j - 1];
      Step(rest.sup, first.effects + rest.effects)
  }

  // ---------------------------------------------------------------------
  // The spawn as written
  // ---------------------------------------------------------------------

  /** `startReStream` as written: `createFFmpegProcess` throws at its first
      line, because `this.getStreamAccessUrl` names a static method through an
      instance. A new key keeps its placeholder entry without a process, no
      ffmpeg is spawned, no exit handler is attached, and the answer is false. */
  function StartReStreamAsWritten(sup: Supervisor, stream: StreamInstance, d: Destination, now: int)
    : (out: (Step, bool))
    ensures var key := ProcessKey(stream.id, d.id);
      && (key in sup.procs ==> out == (Step(sup, []), true))
      && (key !in sup.procs ==>
            && out == (Step(sup.(procs := sup.procs[key := ProcInfo(None, stream.id, d.id, now, 0)]), []), false))
  {
    StartReStream(sup, stream, d, now, false)
  }

  /** `startAllRestreams` as written: every destination's start fails. */
  function StartAllRestreamsAsWritten(sup: Supervisor, stream: StreamInstance, ds: seq<Destination>, now: int)
    : (out: Step)
    ensures out.effects == [] && out.sup.monitors == sup.monitors && out.sup.nextProc == sup.nextProc
    ensures forall j | 0 <= j < |ds| :: ProcessKey(stream.id, ds[j].id) in out.sup.procs
    ensures forall k | k in out.sup.procs && k !in sup.procs :: out.sup.procs[k].process.None?
  {
    var failing := set j | 0 <= j < |ds| :: ds[j].id;
    StartAllFailingSpawnsNothing(sup, stream, ds, failing, now);
    StartAllRestreams(sup, stream, ds, failing, now)
  }

  /** When every destination's spawn throws, the starts spawn nothing, attach
      no handler, and every newly registered entry holds no process. */
  lemma {:induction false} StartAllFailingSpawnsNothing(sup: Supervisor, stream: StreamInstance,
                                                        ds: seq<Destination>, failing: set<string>, now: int)
    requires forall j | 0 <= j < |ds| :: ds[j].id in failing
    ensures var out := StartAllRestreams(sup, stream, ds, failing, now);
      && out.effects == [] && out.sup.monitors == sup.monitors && out.sup.nextProc == sup.nextProc
      && (forall k | k in out.sup.procs && k !in sup.procs :: out.sup.procs[k].process.None?)
    decreases |ds|
  {
    if |ds| > 0 {
      var (first, _) := StartReStream(sup, stream, ds[0], now, false);
      assert forall j | 0 <= j < |ds[1..]| :: ds[1..][j].id in failing by {
        forall j | 0 <= j < |ds[1..]| ensures ds[1..][j].id in failing {
          assert ds[1..][j] == ds[j + 1];
        }
      }
      StartAllFailingSpawnsNothing(first.sup, stream, ds[1..], failing, now);
    }
  }

  /** The restart as written: the respawn throws like the first spawn, and
      the catch removes the key after the wait. */
  function RestartAsWritten(sup: Supervisor, m: Monitor, code: Option<int>, now: int): (out: Step)
    ensures out.sup.procs == sup.procs - {m.key}
    ensures out.sup.monitors == sup.monitors && out.sup.nextProc == sup.nextProc
    ensures forall e | e in out.effects :: e.Sleep?
  {
    Restart(sup, m, code, now, false)
  }

  /** As written, no exit handler is ever attached: after any starts from a
      supervisor without handlers, every process exit is a no-op, so neither
      the restart nor the removal in the handler can run. */
  lemma NoExitHandlerAsWritten(sup: Supervisor, stream: StreamInstance, ds: seq<Destination>, now: int,
                               proc: nat, code: Option<int>, later: int, b: bool)
    requires sup.monitors == map[]
    ensures var out := StartAllRestreamsAsWritten(sup, stream, ds, now);
      && out.sup.monitors == map[]
      && OnExitAsWritten(out.sup, proc, code, later, b) == Step(out.sup, [])
      && OnExit(out.sup, proc, code, later, b) == Step(out.sup, [])
  {
  }

  /** `stopReStream`: the entry's process (if it has one) is killed and the
      entry removed; an absent key is a no-op. The exit handler stays attached. */
  function StopReStream(sup: Supervisor, streamId: string, destinationId: string): (out: Step)
    ensures ProcessKey(streamId, destinationId) !in out.sup.procs
    ensures ProcessKey(streamId, destinationId) !in sup.procs ==> out == Step(sup, [])
    ensures out.sup.procs == sup.procs - {ProcessKey(streamId, destinationId)}
    ensures out.sup.monitors == sup.monitors && out.sup.nextProc == sup.nextProc
    ensures var key := ProcessKey(streamId, destinationId);
      out.effects == (if key in sup.procs && sup.procs[key].process.Some? then [Kill(sup.procs[key].process.value)] else [])
  {
    var key := ProcessKey(streamId, destinationId);
    if key !in sup.procs then Step(sup, [])
    else
      var info := sup.procs[key];
      Step(sup.(procs := sup.procs - {key}), if info.process.Some? then [Kill(info.process.value)] else [])
  }

  /** `stopAllStreams(streamId)`: every entry of the stream is stopped and no
      other entry is touched. The kills are emitted in the order the entries
      are visited. */
  method StopAllStreams(sup: Supervisor, streamId: string) returns (out: Step)
    requires WellKeyed(sup)
    ensures out.sup.procs == map k | k in sup.procs && sup.procs[k].streamId != streamId :: sup.procs[k]
    ensures out.sup.monitors == sup.monitors && out.sup.nextProc == sup.nextProc
    ensures WellKeyed(out.sup)
    ensures forall e | e in out.effects :: e.Kill?
    ensures forall e | e in out.effects ::
      exists k | k in sup.procs :: sup.procs[k].streamId == streamId && sup.procs[k].process == Some(e.proc)
    ensures forall k | k in sup.procs && sup.procs[k].streamId == streamId && sup.procs[k].process.Some? ::
      Kill(sup.procs[k].process.value) in out.effects
  {
    var todo := set k | k in sup.procs && sup.procs[k].streamId == streamId;
    var cur := sup;
    var effects: seq<Effect> := [];
    while todo != {}
      invariant todo <= sup.procs.Keys
      invariant forall k | k in todo :: sup.procs[k].streamId == streamId
      invariant cur.procs == map k | k in sup.procs && (k in todo || sup.procs[k].streamId != streamId) :: sup.procs[k]
      invariant cur.monitors == sup.monitors && cur.nextProc == sup.nextProc
      invariant KillsOfStream(sup, streamId, effects)
      invariant KilledOutside(sup, streamId, todo, effects)
      decreases |todo|
    {
      var k :| k in todo;
      var step := StopReStream(cur, streamId, sup.procs[k].destinationId);
      StopOneEntry(sup, streamId, todo, cur, k);
      KillsStep(sup, streamId, todo, k, effects);
      cur := step.sup;
      effects := effects + step.effects;
      todo := todo - {k};
    }
    out := Step(cur, effects);
  }

  /** Every effect kills a process of an entry of the stream. */
  predicate KillsOfStream(sup: Supervisor, streamId: string, effects: seq<Effect>) {
    forall e | e in effects ::
      e.Kill? && exists k | k in sup.procs :: sup.procs[k].streamId == streamId && sup.procs[k].process == Some(e.proc)
  }

  /** Every entry of the stream that is no longer pending has had its process killed. */
  predicate KilledOutside(sup: Supervisor, streamId: string, todo: set<string>, effects: seq<Effect>) {
    forall k | k in sup.procs && sup.procs[k].streamId == streamId && k !in todo && sup.procs[k].process.Some? ::
      Kill(sup.procs[k].process.value) in effects
  }

  /** The kill of one pending entry keeps both facts about the effects. */
  lemma KillsStep(sup: Supervisor, streamId: string, todo: set<string>, k: string, effects: seq<Effect>)
    requires k in todo && k in sup.procs && sup.procs[k].streamId == streamId
    requires KillsOfStream(sup, streamId, effects) && KilledOutside(sup, streamId, todo, effects)
    ensures var more := effects + (if sup.procs[k].process.Some? then [Kill(sup.procs[k].process.value)] else []);
      KillsOfStream(sup, streamId, more) && KilledOutside(sup, streamId, todo - {k}, more)
  {
    var more := effects + (if sup.procs[k].process.Some? then [Kill(sup.procs[k].process.value)] else []);
    forall e | e in more
      ensures e.Kill? && exists j | j in sup.procs :: sup.procs[j].streamId == streamId && sup.procs[j].process == Some(e.proc)
    {
      if e !in effects {
        assert sup.procs[k].process == Some(e.proc);
      }
    }
  }

  /** One round of `stopAllStreams`: stopping a pending entry of the stream
      takes it out of the registry and kills its process, if it has one. */
  lemma StopOneEntry(sup: Supervisor, streamId: string, todo: set<string>, cur: Supervisor, k: string)
    requires WellKeyed(sup) && k in todo && todo <= sup.procs.Keys && sup.procs[k].streamId == streamId
    requires cur.procs == map j | j in sup.procs && (j in todo || sup.procs[j].streamId != streamId) :: sup.procs[j]
    ensures var step := StopReStream(cur, streamId, sup.procs[k].destinationId);
      && step.sup.procs == (map j | j in sup.procs && (j in todo - {k} || sup.procs[j].streamId != streamId) :: sup.procs[j])
      && step.sup.monitors == cur.monitors && step.sup.nextProc == cur.nextProc
      && step.effects == (if sup.procs[k].process.Some? then [Kill(sup.procs[k].process.value)] else [])
  {
    assert k == ProcessKey(streamId, sup.procs[k].destinationId);
    assert k in cur.procs && cur.procs[k] == sup.procs[k];
  }

  /** `getStreamStatus`: an absent key is not running and has restarted zero
      times; a present one reports its uptime and restart count. */
  function GetStreamStatus(sup: Supervisor, streamId: string, destinationId: string, now: int): (r: RunStatus)
    ensures r.isRunning <==> ProcessKey(streamId, destinationId) in sup.procs
    ensures !r.isRunning ==> r == RunStatus(false, None, 0)
    ensures r.isRunning ==>
      var info := sup.procs[ProcessKey(streamId, destinationId)];
      r.uptime == Some(now - info.startTime) && r.restartCount == info.restartCount
  {
    var key := ProcessKey(streamId, destinationId);
    if key !in sup.procs then RunStatus(false, None, 0)
    else RunStatus(true, Some(now - sup.procs[key].startTime), sup.procs[key].restartCount)
  }

  // ---------------------------------------------------------------------
  // The restart policy
  // ---------------------------------------------------------------------

  /** Exit code `None` is a process ended by a signal (Node reports `null`). */
  predicate ShouldRestart(code: Option<int>, restartCount: nat) {
    code != Some(0) && restartCount < MaxRestartAttempts
  }

  function Pow2(n: nat): (r: nat)
    ensures r >= 1
  {
    if n == 0 then 1 else 2 * Pow2(n - 1)
  }

  /** The wait before restart number `restartCount + 1`. */
  function Backoff(restartCount: nat): nat {
    RestartCooldownMs * Pow2(restartCount)
  }

  /** The waits are 5, 10 and 20 seconds, each twice the one before, and no
      restart waits longer than 20 seconds. */
  lemma BackoffSchedule(code: Option<int>, restartCount: nat)
    ensures Backoff(0) == 5000 && Backoff(1) == 10000 && Backoff(2) == 20000
    ensures Backoff(restartCount + 1) == 2 * Backoff(restartCount)
    ensures ShouldRestart(code, restartCount) ==> Backoff(restartCount) <= 20000
  {
  }

  /** The body of the exit handler once it has decided on its key and entry:
      a restart waits, respawns with the captured arguments and stores the
      next restart count; otherwise (or when the respawn fails) the key goes. */
  function Restart(sup: Supervisor, m: Monitor, code: Option<int>, now: int, respawned: bool): (out: Step)
    ensures ShouldRestart(code, m.info.restartCount) && respawned ==>
      && out.sup.procs == sup.procs[m.key := ProcInfo(Some(sup.nextProc), m.info.streamId, m.info.destinationId, now, m.info.restartCount + 1)]
      && out.effects == [Sleep(Backoff(m.info.restartCount)), Spawn(sup.nextProc, m.args)]
      && out.sup.monitors == sup.monitors[sup.nextProc := Monitor(m.key, out.sup.procs[m.key], m.args)]
      && out.sup.nextProc == sup.nextProc + 1
    ensures !(ShouldRestart(code, m.info.restartCount) && respawned) ==>
      && out.sup.procs == sup.procs - {m.key}
      && out.sup.monitors == sup.monitors && out.sup.nextProc == sup.nextProc
      && out.effects == (if ShouldRestart(code, m.info.restartCount) then [Sleep(Backoff(m.info.restartCount))] else [])
  {
    if ShouldRestart(code, m.info.restartCount) then
      var wait := Sleep(Backoff(m.info.restartCount));
      if respawned then
        var pid := sup.nextProc;
        var info := ProcInfo(Some(pid), m.info.streamId, m.info.destinationId, now, m.info.restartCount + 1);
        Step(Supervisor(sup.procs[m.key := info], sup.monitors[pid := Monitor(m.key, info, m.args)], pid + 1),
             [wait, Spawn(pid, m.args)])
      else Step(sup.(procs := sup.procs - {m.key}), [wait])
    else Step(sup.(procs := sup.procs - {m.key}), [])
  }

  /** The exit handler of `setupProcessMonitoring` as written: it fires once
      per process and restarts or removes its key whatever the registry now
      holds there. */
  function OnExitAsWritten(sup: Supervisor, proc: nat, code: Option<int>, now: int, respawned: bool): (out: Step)
    ensures proc !in sup.monitors ==> out == Step(sup, [])
    ensures proc in sup.monitors ==>
      out == Restart(sup.(monitors := sup.monitors - {proc}), sup.monitors[proc], code, now, respawned)
  {
    if proc !in sup.monitors then Step(sup, [])
    else Restart(sup.(monitors := sup.monitors - {proc}), sup.monitors[proc], code, now, respawned)
  }

  /** The exit handler as intended: a process that is no longer the one
      registered under its key (stopped, or replaced by a later start) only
      loses its handler. */
  function OnExit(sup: Supervisor, proc: nat, code: Option<int>, now: int, respawned: bool): (out: Step)
    ensures proc !in sup.monitors ==> out == Step(sup, [])
    ensures proc in sup.monitors ==>
      var m := sup.monitors[proc];
      if m.key in sup.procs && sup.procs[m.key].process == Some(proc)
      then out == Restart(sup.(monitors := sup.monitors - {proc}), m, code, now, respawned)
      else out == Step(sup.(monitors := sup.monitors - {proc}), [])
  {
    if proc !in sup.monitors then Step(sup, [])
    else
      var m := sup.monitors[proc];
      var rest := sup.(monitors := sup.monitors - {proc});
      if m.key in sup.procs && sup.procs[m.key].process == Some(proc) then Restart(rest, m, code, now, respawned)
      else Step(rest, [])
  }

  /** As written, stopping an entry does not stop its restarts: the kill ends
      the process by a signal, so it exits with code null, which counts as a
      failure, and the handler puts the key back with a fresh process. */
  lemma StopThenExitAsWrittenRestarts(sup: Supervisor, streamId: string, destinationId: string, now: int)
    requires var key := ProcessKey(streamId, destinationId);
      && key in sup.procs && sup.procs[key].process.Some?
      && sup.procs[key].process.value in sup.monitors
      && sup.monitors[sup.procs[key].process.value].key == key
      && sup.monitors[sup.procs[key].process.value].info.restartCount < MaxRestartAttempts
    ensures var key := ProcessKey(streamId, destinationId);
      var stopped := StopReStream(sup, streamId, destinationId);
      var exited := OnExitAsWritten(stopped.sup, sup.procs[key].process.value, None, now, true);
      && key !in stopped.sup.procs
      && key in exited.sup.procs
      && exited.effects == [Sleep(Backoff(sup.monitors[sup.procs[key].process.value].info.restartCount)),
                            Spawn(sup.nextProc, sup.monitors[sup.procs[key].process.value].args)]
  {
  }

  /** The smallest instance: start one relay, stop it, and let the killed
      process report its exit. */
  lemma StopIsUndoneAsWritten()
    ensures var stream := StreamInstance("s", "", "", "rtmp://localhost:1935/live/k", Live, None, 0, []);
      var d := Destination("d", YouTube, "k", "rtmp://a.example", Disconnected, true);
      var (started, _) := StartReStream(Empty, stream, d, 0, true);
      var stopped := StopReStream(started.sup, "s", "d");
      var exited := OnExitAsWritten(stopped.sup, 0, None, 5000, true);
      && "s-d" in started.sup.procs && "s-d" !in stopped.sup.procs && "s-d" in exited.sup.procs
  {
    var stream := StreamInstance("s", "", "", "rtmp://localhost:1935/live/k", Live, None, 0, []);
    var d := Destination("d", YouTube, "k", "rtmp://a.example", Disconnected, true);
    assert ProcessKey("s", "d") == "s-d";
    var (started, _) := StartReStream(Empty, stream, d, 0, true);
    StopThenExitAsWrittenRestarts(started.sup, "s", "d", 5000);
  }

  /** With the corrected handler, a stopped key stays stopped: no exit, of any
      process with any code, brings back a key the registry does not hold. */
  lemma ExitNeverResurrects(sup: Supervisor, key: string, proc: nat, code: Option<int>, now: int, respawned: bool)
    requires key !in sup.procs
    ensures key !in OnExit(sup, proc, code, now, respawned).sup.procs
  {
  }

  lemma StopIsFinal(sup: Supervisor, streamId: string, destinationId: string, proc: nat, code: Option<int>,
                    now: int, respawned: bool)
    ensures var stopped := StopReStream(sup, streamId, destinationId);
      ProcessKey(streamId, destinationId) !in OnExit(stopped.sup, proc, code, now, respawned).sup.procs
  {
    ExitNeverResurrects(StopReStream(sup, streamId, destinationId).sup, ProcessKey(streamId, destinationId),
                        proc, code, now, respawned);
  }

  /** The registered process's exit restarts it exactly when the code is not
      0, fewer than three restarts happened and the respawn succeeds; the
      restart count grows by one. */
  lemma ExitOfCurrentProcess(sup: Supervisor, proc: nat, code: Option<int>, now: int, respawned: bool)
    requires proc in sup.monitors
    requires var m := sup.monitors[proc]; m.key in sup.procs && sup.procs[m.key].process == Some(proc)
    ensures var m := sup.monitors[proc];
      var out := OnExit(sup, proc, code, now, respawned);
      && (m.key in out.sup.procs <==> ShouldRestart(code, m.info.restartCount) && respawned)
      && (m.key in out.sup.procs ==> out.sup.procs[m.key].restartCount == m.info.restartCount + 1)
  {
  }

  /** Restart counts never exceed three, whatever happens. */
  lemma CountsStayBounded(sup: Supervisor, stream: StreamInstance, d: Destination, streamId: string,
                          destinationId: string, proc: nat, code: Option<int>, now: int, b: bool)
    requires CountsBounded(sup)
    ensures CountsBounded(StartReStream(sup, stream, d, now, b).0.sup)
    ensures CountsBounded(StopReStream(sup, streamId, destinationId).sup)
    ensures CountsBounded(OnExit(sup, proc, code, now, b).sup)
    ensures CountsBounded(OnExitAsWritten(sup, proc, code, now, b).sup)
  {
  }

  /** Every transition keeps entries under their own keys (`StartAllRestreams`
      and `StopAllStreams` state it in their own contracts). */
  lemma WellKeyedPreserved(sup: Supervisor, stream: StreamInstance, d: Destination, streamId: string,
                           destinationId: string, proc: nat, code: Option<int>, now: int, b: bool)
    requires WellKeyed(sup)
    ensures WellKeyed(StartReStream(sup, stream, d, now, b).0.sup)
    ensures WellKeyed(StopReStream(sup, streamId, destinationId).sup)
    ensures WellKeyed(OnExit(sup, proc, code, now, b).sup)
    ensures WellKeyed(OnExitAsWritten(sup, proc, code, now, b).sup)
  {
    StartKeepsWellKeyed(sup, stream, d, now, b);
    ExitKeepsWellKeyed(sup, proc, code, now, b);
  }

  lemma StartKeepsWellKeyed(sup: Supervisor, stream: StreamInstance, d: Destination, now: int, b: bool)
    ensures WellKeyed(sup) ==> WellKeyed(StartReStream(sup, stream, d, now, b).0.sup)
  {
  }

  lemma ExitKeepsWellKeyed(sup: Supervisor, proc: nat, code: Option<int>, now: int, b: bool)
    requires WellKeyed(sup)
    ensures WellKeyed(OnExit(sup, proc, code, now, b).sup)
    ensures WellKeyed(OnExitAsWritten(sup, proc, code, now, b).sup)
  {
    if proc in sup.monitors {
      var m := sup.monitors[proc];
      assert m.key == ProcessKey(m.info.streamId, m.info.destinationId);
    }
  }

  /** A started key reports running from its start time with no restarts, even
      when its spawn failed and the entry holds no process; once stopped it
      reports not running. */
  lemma StatusAfterStartAndStop(sup: Supervisor, stream: StreamInstance, d: Destination, now: int, later: int,
                                spawned: bool)
    requires ProcessKey(stream.id, d.id) !in sup.procs
    ensures var started := StartReStream(sup, stream, d, now, spawned).0.sup;
            && GetStreamStatus(started, stream.id, d.id, later) == RunStatus(true, Some(later - now), 0)
            && GetStreamStatus(StopReStream(started, stream.id, d.id).sup, stream.id, d.id, later)
               == RunStatus(false, None, 0)
  {
  }
}

=== FILE: rtmp_injest_service.dfy ===
/** RTMP ingest gateway of the `backend/service` snapshot
    (backend/service/RtmpInjestService.ts). The media server is outside the
    model: its live sessions are a set of session ids, a rejected session is a
    flag on the outcome, and the events the gateway emits are returned as a list.

    The stream-to-session table is a `Map` written and read with bracket
    property access, while `donePublish` calls the map's own `delete` with the
    session id; the two never meet, so an entry once written stays. The model
    keeps that behaviour as a plain map that only `postPublish` writes. */
module RtmpInjestService {
  import opened Outcomes
  import opened ServiceModel
  import opened Text

  datatype Gateway = Gateway(acceptEnabled: bool, sessionOf: map<string, string>)

  datatype Event =
    | InjestStart(stream: Stream)      // "injest:start"
    | InjestStopped(streamId: string)  // "injest:stopped"

  datatype Outcome = Outcome(gateway: Gateway, rejected: bool, events: seq<Event>)

  /** The gateway as constructed: refusing everything until enabled. */
  const Initial: Gateway := Gateway(false, map[])

  /** The application root with its first slash removed. */
  function CleanRoot(linkRoot: string): string {
    ReplaceFirst(linkRoot, "/", "")
  }

  /** `extractStreamKey(path)`: the first occurrence of the cleaned root is
      cut out, then leading and trailing slashes; an empty remainder is no key. */
  function ExtractStreamKey(linkRoot: string, path: string): (r: Option<string>)
    ensures r.None? <==> AllChar(ReplaceFirst(path, CleanRoot(linkRoot), ""), '/')
    ensures r.Some? ==> |r.value| > 0 && r.value[0] != '/' && r.value[|r.value| - 1] != '/'
    ensures r.Some? ==> Strips(ReplaceFirst(path, CleanRoot(linkRoot), ""), r.value, '/')
  {
    var rest := ReplaceFirst(path, CleanRoot(linkRoot), "");
    var key := Trim(rest, '/');
    if key == "" then None else Some(key)
  }

  /** A slash-free root is first found right after the leading slash of
      `/<root>/<key>` (an empty root at the very front, where it removes nothing). */
  lemma CleanRootFirstMatch(root: string, key: string)
    requires '/' !in root
    ensures ReplaceFirst("/" + root + "/" + key, root, "") == "/" + "/" + key
  {
    var s := "/" + root + "/" + key;
    if |root| == 0 {
      assert s[0..0] == root;
      assert OccursAt(s, root, 0);
      assert IndexOf(s, root) == 0;
      assert s[..0] + "" + s[0..] == s;
      assert s == "/" + "/" + key;
    } else {
      assert s[1..1 + |root|] == root;
      assert OccursAt(s, root, 1);
      assert !OccursAt(s, root, 0) by {
        assert s[0] == '/' && root[0] != '/';
        assert s[0..|root|][0] == s[0];
      }
      var i := IndexOf(s, root);
      assert i != -1;
      assert 0 <= i <= 1 by {
        assert i >= 0;
        assert i > 1 ==> !OccursAt(s, root, 1);
      }
      assert i == 1;
      assert s[..1] == "/";
      assert s[1 + |root|..] == "/" + key;
      assert s[..1] + "" + s[1 + |root|..] == "/" + "/" + key;
    }
  }

  /** The path a publisher uses, `/<root>/<key>`, yields its key back whenever
      the key has no slash at either end and the cleaned root has none at all. */
  lemma ExtractStreamKeyOfIngestPath(linkRoot: string, key: string)
    requires '/' !in CleanRoot(linkRoot)
    requires |key| > 0 && key[0] != '/' && key[|key| - 1] != '/'
    ensures ExtractStreamKey(linkRoot, "/" + CleanRoot(linkRoot) + "/" + key) == Some(key)
  {
    var root := CleanRoot(linkRoot);
    var rest := ReplaceFirst("/" + root + "/" + key, root, "");
    assert rest == "//" + key + "" by {
      CleanRootFirstMatch(root, key);
      assert "//" + key + "" == "/" + "/" + key;
    }
    TrimPadded("//", key, "", '/');
    assert Trim(rest, '/') == key;
  }

  /** An ingest client announces itself as a publisher through its Flash version. */
  predicate IsPublisher(flashVer: Option<string>) {
    flashVer.Some? && Contains(flashVer.value, "FMLE")
  }

  /** `setAcceptEnabled(enabled)`: only the switch changes; the session
      table is kept. */
  function SetAcceptEnabled(g: Gateway, enabled: bool): (r: Gateway)
    ensures r.acceptEnabled == enabled && r.sessionOf == g.sessionOf
  {
    g.(acceptEnabled := enabled)
  }

  /** `kickClient(streamId)`: the session recorded for the stream is rejected
      when it is non-empty and still known to the media server. */
  function KickClient(g: Gateway, live: set<string>, streamId: string): (r: Option<string>)
    ensures r.Some? ==> streamId in g.sessionOf && r.value == g.sessionOf[streamId] && r.value in live
    ensures r.None? ==> streamId !in g.sessionOf || g.sessionOf[streamId] == "" || g.sessionOf[streamId] !in live
  {
    if streamId !in g.sessionOf || g.sessionOf[streamId] == "" then None
    else if g.sessionOf[streamId] !in live then None
    else Some(g.sessionOf[streamId])
  }

  /** `preConnect`: whether the connecting session is rejected. */
  function PreConnect(g: Gateway, store: Store, linkRoot: string, app: Option<string>, flashVer: Option<string>)
    : (rejected: bool)
    ensures !g.acceptEnabled || app.None? || app == Some("") ==> rejected
    ensures !rejected ==>
      && app.Some?
      && ExtractStreamKey(linkRoot, app.value).Some?
      && var s := FindByApiKey(store, ExtractStreamKey(linkRoot, app.value).value);
      && s.Some?
      && s.value.apiKey == ExtractStreamKey(linkRoot, app.value).value
      && (IsPublisher(flashVer) ==> s.value.state == Waiting)
      && (!IsPublisher(flashVer) ==> s.value.state == StreamState.Live)
    ensures g.acceptEnabled && app.Some? && app.value != "" && ExtractStreamKey(linkRoot, app.value).Some? ==>
      var s := FindByApiKey(store, ExtractStreamKey(linkRoot, app.value).value);
      s.Some? && s.value.state == (if IsPublisher(flashVer) then Waiting else StreamState.Live) ==> !rejected
  {
    if !g.acceptEnabled || app.None? || app.value == "" then true
    else
      match ExtractStreamKey(linkRoot, app.value)
      case None => true
      case Some(key) =>
        match FindByApiKey(store, key)
        case None => true
        case Some(s) =>
          if IsPublisher(flashVer) && s.state != Waiting then true
          else if !IsPublisher(flashVer) && s.state != StreamState.Live then true
          else false
  }

  /** `postPublish`: a Waiting stream found by the key in the path records the
      session and announces that ingest started; anything else is rejected. */
  function PostPublish(g: Gateway, store: Store, linkRoot: string, sessionId: string, streamPath: string)
    : (r: Outcome)
    ensures r.rejected <==> r.events == []
    ensures r.rejected ==> r.gateway == g
    ensures !r.rejected <==>
      && ExtractStreamKey(linkRoot, streamPath).Some?
      && var s := FindByApiKey(store, ExtractStreamKey(linkRoot, streamPath).value);
      && s.Some? && s.value.state == Waiting
    ensures !r.rejected ==>
      && ExtractStreamKey(linkRoot, streamPath).Some?
      && var s := FindByApiKey(store, ExtractStreamKey(linkRoot, streamPath).value);
      && s.Some? && s.value.state == Waiting
      && r.events == [InjestStart(s.value)]
      && r.gateway == g.(sessionOf := g.sessionOf[s.value.id := sessionId])
  {
    match ExtractStreamKey(linkRoot, streamPath)
    case None => Outcome(g, true, [])
    case Some(key) =>
      match FindByApiKey(store, key)
      case None => Outcome(g, true, [])
      case Some(s) =>
        if s.state != Waiting then Outcome(g, true, [])
        else Outcome(g.(sessionOf := g.sessionOf[s.id := sessionId]), false, [InjestStart(s)])
  }

  /** `donePublish`: announces that ingest stopped for the stream the key
      names; a key naming no stream is an error. The table is left as it is. */
  function DonePublish(g: Gateway, store: Store, linkRoot: string, sessionId: string, streamPath: string)
    : (r: Result<Outcome>)
    ensures r.Ok? ==> r.value.gateway == g && !r.value.rejected
    ensures ExtractStreamKey(linkRoot, streamPath).None? ==> r == Ok(Outcome(g, false, []))
    ensures ExtractStreamKey(linkRoot, streamPath).Some? ==>
      var s := FindByApiKey(store, ExtractStreamKey(linkRoot, streamPath).value);
      && (s.None? <==> r == Err(NotFound))
      && (s.Some? ==> r.Ok? && r.value.events == [InjestStopped(s.value.id)])
  {
    match ExtractStreamKey(linkRoot, streamPath)
    case None => Ok(Outcome(g, false, []))
    case Some(key) =>
      match FindByApiKey(store, key)
      case None => Err(NotFound)
      case Some(s) => Ok(Outcome(g, false, [InjestStopped(s.id)]))
  }

  /** Until accepting is switched on every connection is refused. */
  lemma RefusedUntilEnabled(store: Store, linkRoot: string, app: Option<string>, flashVer: Option<string>)
    ensures PreConnect(Initial, store, linkRoot, app, flashVer)
  {
  }

  /** Switched off, the gateway refuses everything; switched on, its answer
      depends only on the session and the store, never on the session table. */
  lemma SwitchDecidesAdmission(g: Gateway, h: Gateway, store: Store, linkRoot: string, app: Option<string>,
                               flashVer: Option<string>)
    ensures PreConnect(SetAcceptEnabled(g, false), store, linkRoot, app, flashVer)
    ensures PreConnect(SetAcceptEnabled(g, true), store, linkRoot, app, flashVer)
         == PreConnect(SetAcceptEnabled(h, true), store, linkRoot, app, flashVer)
  {
  }

  /** A publisher that ingests into a Waiting stream through `/<root>/<apiKey>`
      starts its stream, and `kickClient` afterwards finds its session. */
  lemma PublishThenKick(g: Gateway, store: Store, linkRoot: string, i: int, sessionId: string, live: set<string>)
    requires '/' !in CleanRoot(linkRoot)
    requires 0 <= i < |store| && IndexOfApiKey(store, store[i].apiKey) == i
    requires |store[i].apiKey| > 0 && store[i].apiKey[0] != '/' && store[i].apiKey[|store[i].apiKey| - 1] != '/'
    requires store[i].state == Waiting
    requires sessionId != "" && sessionId in live
    ensures var path := "/" + CleanRoot(linkRoot) + "/" + store[i].apiKey;
            var r := PostPublish(g, store, linkRoot, sessionId, path);
            && !r.rejected
            && r.events == [InjestStart(store[i])]
            && KickClient(r.gateway, live, store[i].id) == Some(sessionId)
  {
    ExtractStreamKeyOfIngestPath(linkRoot, store[i].apiKey);
  }

  /** A publish that was accepted is matched by its done event: the same path
      names the same stream, which is announced as stopped, and the session
      table keeps the entry the publish wrote. */
  lemma PublishThenDone(g: Gateway, store: Store, linkRoot: string, sessionId: string, streamPath: string)
    requires !PostPublish(g, store, linkRoot, sessionId, streamPath).rejected
    ensures var up := PostPublish(g, store, linkRoot, sessionId, streamPath);
            var s := up.events[0].stream;
            && DonePublish(up.gateway, store, linkRoot, sessionId, streamPath)
               == Ok(Outcome(up.gateway, false, [InjestStopped(s.id)]))
            && up.gateway.sessionOf[s.id] == sessionId
  {
  }
}

=== FILE: service_model.dfy ===
/** Records of the `backend/service` snapshot (the shapes of common/stream.ts
    and backend/models/ffmpegRunner.ts) and the lookups its repository offers.
    The stream collection is a sequence in store order; `findById` and
    `findByApiKey` return the first match, as the document store's `findOne` does. */
module ServiceModel {
  import opened Outcomes
  import opened Text

  datatype StreamState = Stopped | Waiting | Live
  datatype DestinationState = Disconnected | Connecting | Live
  datatype Platform = YouTube | Twitch | CustomRtmp

  datatype Destination = Destination(
    id: string,               // unique within its stream only
    platform: Platform,
    streamKey: string,
    serverUrl: string,
    state: DestinationState,
    error: Option<string>,
    enabled: bool,
    ffmpegFlags: Option<string>)

  datatype Stream = Stream(
    id: string,
    name: string,
    apiKey: string,
    rtmpEndpoint: string,
    state: StreamState,
    createdAt: int,
    startedAt: Option<int>,
    destinations: seq<Destination>,
    ffmpegFlags: Option<string>)

  type Store = seq<Stream>

  /** Status of one transcoder process (backend/models/ffmpegRunner.ts). */
  datatype ProcessStatus = Starting | Running | Stopping | Stopped

  /** The part of a process record the status event carries. */
  datatype ProcessReport = ProcessReport(stream: string, destination: string, status: ProcessStatus)

  predicate UniqueIds(store: Store) {
    forall i, j | 0 <= i < j < |store| :: store[i].id != store[j].id
  }

  predicate HasId(store: Store, id: string) {
    exists j | 0 <= j < |store| :: store[j].id == id
  }

  /** Position of the first stream with this id, or -1. */
  function IndexOfId(store: Store, id: string): (r: int)
    ensures -1 <= r < |store|
    ensures r >= 0 ==> store[r].id == id && forall j | 0 <= j < r :: store[j].id != id
    ensures r == -1 <==> !HasId(store, id)
  {
    FirstIndex(MapSeq(store, (x: Stream) => x.id), id)
  }

  /** Position of the first stream holding this api key, or -1. */
  function IndexOfApiKey(store: Store, key: string): (r: int)
    ensures -1 <= r < |store|
    ensures r >= 0 ==> store[r].apiKey == key && forall j | 0 <= j < r :: store[j].apiKey != key
    ensures r == -1 ==> forall j | 0 <= j < |store| :: store[j].apiKey != key
  {
    FirstIndex(MapSeq(store, (x: Stream) => x.apiKey), key)
  }

  /** `streamsRepository.findById`. */
  function FindById(store: Store, id: string): Option<Stream> {
    var i := IndexOfId(store, id);
    if i < 0 then None else Some(store[i])
  }

  /** `streamsRepository.findByApiKey`. */
  function FindByApiKey(store: Store, key: string): Option<Stream> {
    var i := IndexOfApiKey(store, key);
    if i < 0 then None else Some(store[i])
  }

  /** `streamsRepository.update(id, rec)`: the fields of `rec` are set on the
      first stream with that id (never its id); an unknown id writes nothing. */
  function Write(store: Store, id: string, rec: Stream): (r: Store)
    ensures |r| == |store|
    ensures forall j | 0 <= j < |store| && j != IndexOfId(store, id) :: r[j] == store[j]
    ensures IndexOfId(store, id) >= 0 ==> r[IndexOfId(store, id)] == rec.(id := id)
  {
    var i := IndexOfId(store, id);
    if i < 0 then store else store[i := rec.(id := id)]
  }

  /** Position of the first destination with this id, or -1 (`findIndex`). */
  function IndexOfDestination(ds: seq<Destination>, id: string): (r: int)
    ensures -1 <= r < |ds|
    ensures r >= 0 ==> ds[r].id == id && forall j | 0 <= j < r :: ds[j].id != id
    ensures r == -1 ==> forall j | 0 <= j < |ds| :: ds[j].id != id
  {
    FirstIndex(MapSeq(ds, (x: Destination) => x.id), id)
  }

  /** A destination's configuration, ignoring its runtime state and error. */
  predicate SameConfig(a: Destination, b: Destination) {
    a.id == b.id && a.platform == b.platform && a.streamKey == b.streamKey
    && a.serverUrl == b.serverUrl && a.enabled == b.enabled && a.ffmpegFlags == b.ffmpegFlags
  }
}

=== FILE: stream_crud_service.dfy ===
/** Stream and destination CRUD of the `backend/service` snapshot
    (backend/service/StreamCrudService.ts). Every mutation is refused for an
    unknown stream and for a stream that is not Stopped. Random draws (key
    bytes, destination UUIDs) are supplied as sequences; the source retries
    until a draw is free, the model tries the draws in order. */
module StreamCrudService {
  import opened Outcomes
  import opened ServiceModel
  import Hex

  /** Server settings the public ingest address is built from. */
  datatype CrudConfig = CrudConfig(publicUrl: string, linkRoot: string)

  /** The caller-supplied part of a new stream (everything but id, apiKey, state, createdAt). */
  datatype StreamDraft = StreamDraft(
    name: string, startedAt: Option<int>, destinations: seq<Destination>, ffmpegFlags: Option<string>)

  /** `Partial<StreamInstance>`: each present field is to be written. */
  datatype StreamPatch = StreamPatch(
    id: Option<string>, name: Option<string>, apiKey: Option<string>,
    rtmpEndpoint: Option<string>, state: Option<StreamState>, createdAt: Option<int>,
    startedAt: Option<int>, destinations: Option<seq<Destination>>, ffmpegFlags: Option<string>)

  /** `Omit<StreamDestination, "id">`. */
  datatype DestinationDraft = DestinationDraft(
    platform: Platform, streamKey: string, serverUrl: string, state: DestinationState,
    error: Option<string>, enabled: bool, ffmpegFlags: Option<string>)

  /** `Partial<Omit<StreamDestination, "id">>`. */
  datatype DestinationPatch = DestinationPatch(
    platform: Option<Platform>, streamKey: Option<string>, serverUrl: Option<string>,
    state: Option<DestinationState>, error: Option<string>, enabled: Option<bool>,
    ffmpegFlags: Option<string>)

  /** No stream holds this key (`findByApiKey` finds nothing). */
  predicate ApiKeyFree(store: Store, key: string) {
    forall j | 0 <= j < |store| :: store[j].apiKey != key
  }

  predicate IsApiKeyShape(key: string) {
    |key| == 64 && forall i | 0 <= i < |key| :: Hex.IsLowerHex(key[i])
  }

  /** `generateUniqueApiKey`: the first 32-byte draw whose hex rendering no
      stream holds yet. */
  method GenerateUniqueApiKey(store: Store, draws: seq<seq<Hex.Byte>>) returns (key: Option<string>)
    requires forall i | 0 <= i < |draws| :: |draws[i]| == 32
    ensures key.Some? ==> IsApiKeyShape(key.value) && ApiKeyFree(store, key.value)
    ensures key.Some? ==>
      exists i | 0 <= i < |draws| ::
        key.value == Hex.Encode(draws[i])
        && forall j | 0 <= j < i :: !ApiKeyFree(store, Hex.Encode(draws[j]))
    ensures key.None? ==> forall i | 0 <= i < |draws| :: !ApiKeyFree(store, Hex.Encode(draws[i]))
  {
    var n := 0;
    while n < |draws|
      invariant 0 <= n <= |draws|
      invariant forall j | 0 <= j < n :: !ApiKeyFree(store, Hex.Encode(draws[j]))
    {
      var candidate := Hex.Encode(draws[n]);
      if ApiKeyFree(store, candidate) {
        return Some(candidate);
      }
      n := n + 1;
    }
    return None;
  }

  /** `validateStreamState` behind the lookup every mutation starts with:
      the position of the stream when it exists and is Stopped. */
  function ValidateStreamState(store: Store, id: string): (r: Result<nat>)
    ensures r.Ok? <==> HasId(store, id) && store[IndexOfId(store, id)].state.Stopped?
    ensures r == Err(NotFound) <==> !HasId(store, id)
    ensures r == Err(InvalidState) <==> HasId(store, id) && !store[IndexOfId(store, id)].state.Stopped?
    ensures r.Ok? ==> r.value == IndexOfId(store, id) && store[r.value].state.Stopped?
  {
    var i := IndexOfId(store, id);
    if i < 0 then Err(NotFound)
    else if !store[i].state.Stopped? then Err(InvalidState)
    else Ok(i)
  }

  /** `createStream(data)`: a Stopped stream with a fresh key is appended.
      `newId` is the identifier the document store assigns on insert and
      `now` the creation time. */
  method CreateStream(store: Store, data: StreamDraft, draws: seq<seq<Hex.Byte>>,
                      cfg: CrudConfig, newId: string, now: int)
    returns (r: Result<Store>)
    requires forall i | 0 <= i < |draws| :: |draws[i]| == 32
    requires !HasId(store, newId)
    ensures r.Err? <==> forall i | 0 <= i < |draws| :: !ApiKeyFree(store, Hex.Encode(draws[i]))
    ensures r.Err? ==> r.fault == DrawsExhausted
    ensures r.Ok? ==>
      |r.value| == |store| + 1 && r.value[..|store|] == store &&
      var s := r.value[|store|];
      && s.id == newId && s.name == data.name && s.state.Stopped? && s.createdAt == now
      && s.startedAt == data.startedAt && s.destinations == data.destinations
      && s.ffmpegFlags == data.ffmpegFlags
      && IsApiKeyShape(s.apiKey) && ApiKeyFree(store, s.apiKey)
      && (exists i | 0 <= i < |draws| :: s.apiKey == Hex.Encode(draws[i]))
      && s.rtmpEndpoint == cfg.publicUrl + "/" + cfg.linkRoot + "/" + s.apiKey
    ensures r.Ok? ==>
      var s := r.value[|store|];
      && FindById(r.value, newId) == Some(s)
      && FindByApiKey(r.value, s.apiKey) == Some(s)
      && ValidateStreamState(r.value, newId) == Ok(|store|)
  {
    var key := GenerateUniqueApiKey(store, draws);
    if key.None? {
      return Err(DrawsExhausted);
    }
    var s := Stream(newId, data.name, key.value,
                    cfg.publicUrl + "/" + cfg.linkRoot + "/" + key.value,
                    StreamState.Stopped, now, data.startedAt, data.destinations, data.ffmpegFlags);
    AppendedIsFound(store, s);
    return Ok(store + [s]);
  }

  /** A stream appended under an unused id and an unused key is what both
      repository lookups return. */
  lemma AppendedIsFound(store: Store, s: Stream)
    requires !HasId(store, s.id) && ApiKeyFree(store, s.apiKey)
    ensures IndexOfId(store + [s], s.id) == |store|
    ensures IndexOfApiKey(store + [s], s.apiKey) == |store|
  {
    var c := store + [s];
    assert c[|store|] == s;
    assert forall j | 0 <= j < |store| :: c[j] == store[j];
    assert IndexOfApiKey(c, s.apiKey) == |store| by {
      var k := IndexOfApiKey(c, s.apiKey);
      assert k >= 0 ==> c[k].apiKey == s.apiKey;
    }
  }

  /** The patch applied to a stream with the protected fields (id, apiKey,
      createdAt) dropped first. */
  function MergeStream(s: Stream, p: StreamPatch): (m: Stream)
    ensures m.id == s.id && m.apiKey == s.apiKey && m.createdAt == s.createdAt
  {
    s.(name := if p.name.Some? then p.name.value else s.name,
       rtmpEndpoint := if p.rtmpEndpoint.Some? then p.rtmpEndpoint.value else s.rtmpEndpoint,
       state := if p.state.Some? then p.state.value else s.state,
       startedAt := if p.startedAt.Some? then p.startedAt else s.startedAt,
       destinations := if p.destinations.Some? then p.destinations.value else s.destinations,
       ffmpegFlags := if p.ffmpegFlags.Some? then p.ffmpegFlags else s.ffmpegFlags)
  }

  /** Outcome of a write: the new store and whether the record was modified
      (the store reports no modification when the values are unchanged). */
  datatype Written = Written(store: Store, modified: bool)

  /** `updateStream(id, data)`. */
  function UpdateStream(store: Store, id: string, p: StreamPatch): (r: Result<Written>)
    ensures r.Err? <==> ValidateStreamState(store, id).Err?
    ensures r.Err? ==> r.fault == ValidateStreamState(store, id).fault
    ensures r.Ok? ==>
      var i := IndexOfId(store, id);
      |r.value.store| == |store| &&
      var s := r.value.store[i];
      && (forall j | 0 <= j < |store| && j != i :: r.value.store[j] == store[j])
      && s.id == store[i].id && s.apiKey == store[i].apiKey && s.createdAt == store[i].createdAt
      && (p.name.Some? ==> s.name == p.name.value) && (p.name.None? ==> s.name == store[i].name)
      && (p.state.Some? ==> s.state == p.state.value) && (p.state.None? ==> s.state == store[i].state)
      && (p.destinations.Some? ==> s.destinations == p.destinations.value)
      && (p.destinations.None? ==> s.destinations == store[i].destinations)
      && (p.rtmpEndpoint.Some? ==> s.rtmpEndpoint == p.rtmpEndpoint.value)
      && (p.rtmpEndpoint.None? ==> s.rtmpEndpoint == store[i].rtmpEndpoint)
      && (p.startedAt.Some? ==> s.startedAt == p.startedAt)
      && (p.startedAt.None? ==> s.startedAt == store[i].startedAt)
      && (p.ffmpegFlags.Some? ==> s.ffmpegFlags == p.ffmpegFlags)
      && (p.ffmpegFlags.None? ==> s.ffmpegFlags == store[i].ffmpegFlags)
      && (r.value.modified <==> s != store[i])
  {
    match ValidateStreamState(store, id)
    case Err(f) => Err(f)
    case Ok(i) =>
      var m := MergeStream(store[i], p);
      Ok(Written(Write(store, id, m), m != store[i]))
  }

  /** A patch that only names protected fields changes nothing. */
  lemma ProtectedFieldsNeverWritten(store: Store, id: string, p: StreamPatch)
    requires UpdateStream(store, id, p).Ok?
    requires p.name.None? && p.rtmpEndpoint.None? && p.state.None? && p.startedAt.None?
    requires p.destinations.None? && p.ffmpegFlags.None?
    ensures UpdateStream(store, id, p).value == Written(store, false)
  {
    var i := IndexOfId(store, id);
    assert MergeStream(store[i], p) == store[i];
    assert Write(store, id, store[i]) == store;
  }

  /** `deleteStream(id)`: the stream's record is removed. */
  function DeleteStream(store: Store, id: string): (r: Result<Store>)
    ensures r.Err? <==> ValidateStreamState(store, id).Err?
    ensures r.Ok? ==>
      var i := IndexOfId(store, id);
      r.value == store[..i] + store[i + 1..] && |r.value| == |store| - 1
  {
    match ValidateStreamState(store, id)
    case Err(f) => Err(f)
    case Ok(i) => Ok(store[..i] + store[i + 1..])
  }

  /** With distinct ids, a deleted stream is gone: no lookup finds it and
      every further mutation of it fails as not found. */
  lemma DeleteThenNotFound(store: Store, id: string)
    requires UniqueIds(store) && DeleteStream(store, id).Ok?
    ensures !HasId(DeleteStream(store, id).value, id)
    ensures FindById(DeleteStream(store, id).value, id) == None
    ensures ValidateStreamState(DeleteStream(store, id).value, id) == Err(NotFound)
  {
    var i := IndexOfId(store, id);
    var r := DeleteStream(store, id).value;
    forall j | 0 <= j < |r| ensures r[j].id != id {
      if j < i {
        assert r[j] == store[j];
      } else {
        assert r[j] == store[j + 1];
      }
    }
  }

  predicate DestinationIdUsed(ds: seq<Destination>, id: string) {
    exists j | 0 <= j < |ds| :: ds[j].id == id
  }

  /** The UUID loop of `addDestination`: the first draw no destination of the stream uses. */
  method FreshDestinationId(ds: seq<Destination>, uuids: seq<string>) returns (id: Option<string>)
    ensures id.Some? ==> !DestinationIdUsed(ds, id.value)
    ensures id.Some? ==>
      exists i | 0 <= i < |uuids| :: uuids[i] == id.value
        && forall j | 0 <= j < i :: DestinationIdUsed(ds, uuids[j])
    ensures id.None? ==> forall i | 0 <= i < |uuids| :: DestinationIdUsed(ds, uuids[i])
  {
    var n := 0;
    while n < |uuids|
      invariant 0 <= n <= |uuids|
      invariant forall j | 0 <= j < n :: DestinationIdUsed(ds, uuids[j])
    {
      if !DestinationIdUsed(ds, uuids[n]) {
        return Some(uuids[n]);
      }
      n := n + 1;
    }
    return None;
  }

  /** The stored destination of a draft: the draft's fields, the given id,
      and the Disconnected state. */
  function NewDestination(d: DestinationDraft, id: string): Destination {
    Destination(id, d.platform, d.streamKey, d.serverUrl, Disconnected, d.error, d.enabled, d.ffmpegFlags)
  }

  /** `addDestination` once its id is chosen: the destination is appended,
      Disconnected, at the end of the list. */
  function AppendDestination(store: Store, streamId: string, d: DestinationDraft, newId: string): (r: Result<Store>)
    ensures r.Err? <==> ValidateStreamState(store, streamId).Err?
    ensures r.Ok? ==>
      var i := IndexOfId(store, streamId);
      var ds := store[i].destinations;
      |r.value| == |store| && |r.value[i].destinations| == |ds| + 1 &&
      var nd := r.value[i].destinations[|ds|];
      && (forall j | 0 <= j < |store| && j != i :: r.value[j] == store[j])
      && r.value[i].(destinations := ds) == store[i]
      && r.value[i].destinations[..|ds|] == ds
      && nd.id == newId && nd.state == Disconnected
      && nd.platform == d.platform && nd.streamKey == d.streamKey && nd.serverUrl == d.serverUrl
      && nd.enabled == d.enabled && nd.error == d.error && nd.ffmpegFlags == d.ffmpegFlags
  {
    match ValidateStreamState(store, streamId)
    case Err(f) => Err(f)
    case Ok(i) =>
      var s := store[i];
      Ok(Write(store, streamId, s.(destinations := s.destinations + [NewDestination(d, newId)])))
  }

  /** `addDestination(streamId, destination)`. */
  method AddDestination(store: Store, streamId: string, d: DestinationDraft, uuids: seq<string>)
    returns (r: Result<Store>)
    ensures ValidateStreamState(store, streamId).Err? ==> r == Err(ValidateStreamState(store, streamId).fault)
    ensures ValidateStreamState(store, streamId).Ok? ==>
      && (r.Err? <==> forall k | 0 <= k < |uuids| ::
            DestinationIdUsed(store[IndexOfId(store, streamId)].destinations, uuids[k]))
      && (r.Err? ==> r.fault == DrawsExhausted)
    ensures r.Ok? ==>
      ValidateStreamState(store, streamId).Ok? &&
      var i := IndexOfId(store, streamId);
      var ds := store[i].destinations;
      |r.value| == |store| && |r.value[i].destinations| == |ds| + 1 &&
      var nd := r.value[i].destinations[|ds|];
      && r.value[i].destinations[..|ds|] == ds
      && !DestinationIdUsed(ds, nd.id) && nd.state == Disconnected
      && nd == NewDestination(d, nd.id)
      && (exists k | 0 <= k < |uuids| :: uuids[k] == nd.id && forall j | 0 <= j < k :: DestinationIdUsed(ds, uuids[j]))
      && r.value[i].(destinations := ds) == store[i]
      && (forall j | 0 <= j < |store| && j != i :: r.value[j] == store[j])
  {
    var v := ValidateStreamState(store, streamId);
    if v.Err? {
      return Err(v.fault);
    }
    var newId := FreshDestinationId(store[v.value].destinations, uuids);
    if newId.None? {
      return Err(DrawsExhausted);
    }
    r := AppendDestination(store, streamId, d, newId.value);
  }

  /** Destinations whose id differs from `id`, in order (`filter`). */
  function WithoutDestination(ds: seq<Destination>, id: string): (r: seq<Destination>)
    ensures |r| <= |ds|
    ensures forall k | 0 <= k < |r| :: r[k].id != id
    ensures !DestinationIdUsed(ds, id) ==> r == ds
  {
    if |ds| == 0 then []
    else if ds[0].id == id then WithoutDestination(ds[1..], id)
    else [ds[0]] + WithoutDestination(ds[1..], id)
  }

  /** `removeDestination(streamId, destinationId)`. */
  function RemoveDestination(store: Store, streamId: string, destId: string): (r: Result<Store>)
    ensures r.Ok? <==>
      ValidateStreamState(store, streamId).Ok?
      && DestinationIdUsed(store[IndexOfId(store, streamId)].destinations, destId)
    ensures ValidateStreamState(store, streamId).Err? ==> r == Err(ValidateStreamState(store, streamId).fault)
    ensures ValidateStreamState(store, streamId).Ok? ==>
      (r == Err(NotFound) <==> !DestinationIdUsed(store[IndexOfId(store, streamId)].destinations, destId))
    ensures r.Ok? ==>
      var i := IndexOfId(store, streamId);
      && |r.value| == |store|
      && (forall j | 0 <= j < |store| && j != i :: r.value[j] == store[j])
      && r.value[i].(destinations := store[i].destinations) == store[i]
      && r.value[i].destinations == WithoutDestination(store[i].destinations, destId)
      && |r.value[i].destinations| < |store[i].destinations|
  {
    match ValidateStreamState(store, streamId)
    case Err(f) => Err(f)
    case Ok(i) =>
      var s := store[i];
      if IndexOfDestination(s.destinations, destId) < 0 then Err(NotFound)
      else
        WithoutShrinks(s.destinations, destId);
        Ok(Write(store, streamId, s.(destinations := WithoutDestination(s.destinations, destId))))
  }

  lemma {:induction false} WithoutShrinks(ds: seq<Destination>, id: string)
    requires DestinationIdUsed(ds, id)
    ensures |WithoutDestination(ds, id)| < |ds|
  {
    if ds[0].id != id {
      assert DestinationIdUsed(ds[1..], id) by {
        var j :| 0 <= j < |ds| && ds[j].id == id;
        assert ds[1..][j - 1].id == id;
      }
      WithoutShrinks(ds[1..], id);
    }
  }

  /** The filter keeps exactly the destinations with other ids. */
  lemma {:induction false} WithoutKeepsOthers(ds: seq<Destination>, id: string, x: Destination)
    ensures x in WithoutDestination(ds, id) <==> x in ds && x.id != id
  {
    if |ds| > 0 {
      WithoutKeepsOthers(ds[1..], id, x);
      assert ds == [ds[0]] + ds[1..];
    }
  }

  lemma {:induction false} WithoutAppended(ds: seq<Destination>, nd: Destination)
    requires !DestinationIdUsed(ds, nd.id)
    ensures WithoutDestination(ds + [nd], nd.id) == ds
  {
    if |ds| == 0 {
      assert WithoutDestination([nd], nd.id) == WithoutDestination([], nd.id);
    } else {
      assert (ds + [nd])[1..] == ds[1..] + [nd];
      assert !DestinationIdUsed(ds[1..], nd.id) by {
        forall j | 0 <= j < |ds[1..]| ensures ds[1..][j].id != nd.id {
          assert ds[1..][j] == ds[j + 1];
        }
      }
      WithoutAppended(ds[1..], nd);
      assert ds == [ds[0]] + ds[1..];
    }
  }

  /** Adding a destination under a fresh id and removing that id again gives
      back the original store. */
  lemma AddThenRemoveRestores(store: Store, streamId: string, d: DestinationDraft, newId: string)
    requires ValidateStreamState(store, streamId).Ok?
    requires !DestinationIdUsed(store[IndexOfId(store, streamId)].destinations, newId)
    ensures AppendDestination(store, streamId, d, newId).Ok?
    ensures RemoveDestination(AppendDestination(store, streamId, d, newId).value, streamId, newId) == Ok(store)
  {
    var i := IndexOfId(store, streamId);
    var s := store[i];
    var nd := NewDestination(d, newId);
    var added := AppendDestination(store, streamId, d, newId).value;
    AppendedAt(store, streamId, d, newId);
    var removed := RemoveDestination(added, streamId, newId);
    assert removed.Ok?;
    assert removed.value[i] == s by {
      WithoutAppended(s.destinations, nd);
    }
    assert removed.value == store by {
      assert forall j | 0 <= j < |store| :: removed.value[j] == store[j];
    }
  }

  /** Where `AppendDestination` leaves the stream: at the same position, with
      the new destination, whose id is then in use, at the end of its list. */
  lemma AppendedAt(store: Store, streamId: string, d: DestinationDraft, newId: string)
    requires ValidateStreamState(store, streamId).Ok?
    ensures var i := IndexOfId(store, streamId);
      var added := AppendDestination(store, streamId, d, newId).value;
      && IndexOfId(added, streamId) == i
      && ValidateStreamState(added, streamId).Ok?
      && added[i].destinations == store[i].destinations + [NewDestination(d, newId)]
      && DestinationIdUsed(added[i].destinations, newId)
  {
    var i := IndexOfId(store, streamId);
    var added := AppendDestination(store, streamId, d, newId).value;
    assert IndexOfId(added, streamId) == i by {
      assert forall j | 0 <= j < i :: added[j] == store[j];
    }
    assert added[i].destinations == store[i].destinations + [NewDestination(d, newId)];
    assert added[i].destinations[|store[i].destinations|].id == newId;
  }

  /** The destination with the patch's present fields written over it; its id never changes. */
  function MergeDestination(d: Destination, p: DestinationPatch): (m: Destination)
    ensures m.id == d.id
  {
    d.(platform := if p.platform.Some? then p.platform.value else d.platform,
       streamKey := if p.streamKey.Some? then p.streamKey.value else d.streamKey,
       serverUrl := if p.serverUrl.Some? then p.serverUrl.value else d.serverUrl,
       state := if p.state.Some? then p.state.value else d.state,
       error := if p.error.Some? then p.error else d.error,
       enabled := if p.enabled.Some? then p.enabled.value else d.enabled,
       ffmpegFlags := if p.ffmpegFlags.Some? then p.ffmpegFlags else d.ffmpegFlags)
  }

  /** `updateDestination(streamId, destinationId, updates)`: the entry at the
      first matching position is replaced by the merged record. A patch that
      changes nothing is reported by the store as "not modified" and fails. */
  function UpdateDestination(store: Store, streamId: string, destId: string, p: DestinationPatch): (r: Result<Store>)
    ensures r.Ok? <==>
      ValidateStreamState(store, streamId).Ok? &&
      var ds := store[IndexOfId(store, streamId)].destinations;
      var k := IndexOfDestination(ds, destId);
      k >= 0 && MergeDestination(ds[k], p) != ds[k]
    ensures ValidateStreamState(store, streamId).Err? ==> r == Err(ValidateStreamState(store, streamId).fault)
    ensures ValidateStreamState(store, streamId).Ok? ==>
      var ds := store[IndexOfId(store, streamId)].destinations;
      && (r == Err(NotFound) <==> IndexOfDestination(ds, destId) < 0)
      && (r == Err(WriteFailed) <==>
            IndexOfDestination(ds, destId) >= 0
            && MergeDestination(ds[IndexOfDestination(ds, destId)], p) == ds[IndexOfDestination(ds, destId)])
    ensures r.Ok? ==>
      var i := IndexOfId(store, streamId);
      var ds := store[i].destinations;
      var k := IndexOfDestination(ds, destId);
      && |r.value| == |store|
      && (forall j | 0 <= j < |store| && j != i :: r.value[j] == store[j])
      && r.value[i].(destinations := ds) == store[i]
      && |r.value[i].destinations| == |ds|
      && r.value[i].destinations[k] == MergeDestination(ds[k], p)
      && r.value[i].destinations[k].id == destId
      && forall m | 0 <= m < |ds| && m != k :: r.value[i].destinations[m] == ds[m]
  {
    match ValidateStreamState(store, streamId)
    case Err(f) => Err(f)
    case Ok(i) =>
      var s := store[i];
      var k := IndexOfDestination(s.destinations, destId);
      if k < 0 then Err(NotFound)
      else
        var m := MergeDestination(s.destinations[k], p);
        if m == s.destinations[k] then Err(WriteFailed)
        else Ok(Write(store, streamId, s.(destinations := s.destinations[k := m])))
  }

  /** After an update, looking the destination up again gives the merged record. */
  lemma UpdateDestinationThenLookup(store: Store, streamId: string, destId: string, p: DestinationPatch)
    requires UpdateDestination(store, streamId, destId, p).Ok?
    ensures var i := IndexOfId(store, streamId);
            var ds := store[i].destinations;
            var r := UpdateDestination(store, streamId, destId, p).value;
            && IndexOfId(r, streamId) == i
            && IndexOfDestination(r[i].destinations, destId) == IndexOfDestination(ds, destId)
            && r[i].destinations[IndexOfDestination(ds, destId)] == MergeDestination(ds[IndexOfDestination(ds, destId)], p)
  {
    var i := IndexOfId(store, streamId);
    var ds := store[i].destinations;
    var k := IndexOfDestination(ds, destId);
    var r := UpdateDestination(store, streamId, destId, p).value;
    assert IndexOfId(r, streamId) == i by {
      assert forall j | 0 <= j < i :: r[j] == store[j];
    }
    var nds := r[i].destinations;
    assert IndexOfDestination(nds, destId) == k by {
      assert forall m | 0 <= m < k :: nds[m] == ds[m];
    }
  }

  /** Every mutation is refused, with the same fault, for an unknown stream or
      one that is not Stopped, so destinations never change while a stream runs. */
  lemma MutationsNeedStopped(store: Store, id: string, p: StreamPatch, d: DestinationDraft,
                             newId: string, destId: string, dp: DestinationPatch)
    requires !HasId(store, id) || !store[IndexOfId(store, id)].state.Stopped?
    ensures var f := if HasId(store, id) then InvalidState else NotFound;
            && UpdateStream(store, id, p) == Err(f)
            && DeleteStream(store, id) == Err(f)
            && AppendDestination(store, id, d, newId) == Err(f)
            && RemoveDestination(store, id, destId) == Err(f)
            && UpdateDestination(store, id, destId, dp) == Err(f)
  {
  }
}

=== FILE: stream_manager.dfy ===
/** Stream manager of the Deno snapshot (backend/services/StreamManager.ts):
    media-server publish hooks matched by stream key, start/stop/delete
    without the later snapshots' guards, and destination add/remove over the
    in-memory collection. The streams are the collection in insertion order;
    `activeStreams` maps a stream id to the publishing session. Rejecting a
    session is returned as an effect, random ids and key bytes are supplied. */
module StreamManager {
  import opened Outcomes
  import opened Text
  import opened LegacyModel
  import Hex

  datatype Manager = Manager(streams: seq<StreamInstance>, activeStreams: map<string, string>)

  /** `session.reject()` on a media-server session. */
  datatype Effect = RejectSession(sessionId: string)

  datatype Hooked = Hooked(mgr: Manager, effects: seq<Effect>)

  /** The fields of a new destination that the caller chooses. */
  datatype DestinationDraft = DestinationDraft(platform: Platform, streamKey: string, serverUrl: string)

  /** Position of the first stream with this id, or -1 (`findOne({ id })`). */
  function IndexOfStream(streams: seq<StreamInstance>, id: string): (r: int)
    ensures -1 <= r < |streams|
    ensures r >= 0 ==> streams[r].id == id && forall j | 0 <= j < r :: streams[j].id != id
    ensures r == -1 ==> forall j | 0 <= j < |streams| :: streams[j].id != id
  {
    FirstIndex(MapSeq(streams, (x: StreamInstance) => x.id), id)
  }

  /** `updateStreamStatus`: the first stream with the id takes the status, and
      its message is overwritten by the (absent) one passed along. */
  function SetStatus(streams: seq<StreamInstance>, id: string, status: StreamStatus): (r: seq<StreamInstance>)
    ensures |r| == |streams|
    ensures IndexOfStream(streams, id) == -1 ==> r == streams
    ensures IndexOfStream(streams, id) >= 0 ==>
      var i := IndexOfStream(streams, id);
      r[i] == streams[i].(status := status, statusMessage := None)
    ensures forall j | 0 <= j < |streams| && j != IndexOfStream(streams, id) :: r[j] == streams[j]
  {
    var i := IndexOfStream(streams, id);
    if i < 0 then streams else streams[i := streams[i].(status := status, statusMessage := None)]
  }

  /** `StreamPath.split("/").pop()`: the text after the last '/', or the
      whole path when it has none. */
  function KeyOfPath(path: string): (key: string)
    ensures '/' !in key
    ensures key == path[LastIndexOf(path, '/') + 1..]
  {
    var parts := Split(path, '/');
    LastPartAfterLastSlash(path);
    parts[|parts| - 1]
  }

  lemma LastPartAfterLastSlash(path: string)
    ensures var parts := Split(path, '/');
      parts[|parts| - 1] == path[LastIndexOf(path, '/') + 1..]
  {
    var parts := Split(path, '/');
    var r := parts[|parts| - 1];
    var n := |path|;
    var last := LastIndexOf(path, '/');
    SplitJoin(path, '/');
    LastPartIsSuffix(parts, '/');
    assert r == path[n - |r|..];
    if last == -1 {
      CountZero(path, '/');
      assert Join(parts, '/') == parts[0];
    } else {
      assert Count(path, '/') > 0 by {
        if Count(path, '/') == 0 {
          CountZeroAbsent(path, '/');
        }
      }
      SplitLastFollowsSeparator(path, '/');
      assert path[n - |r| - 1] == '/';
      assert forall j | n - |r| <= j < n :: path[j] == r[j - (n - |r|)];
      assert n - |r| - 1 == last;
    }
  }

  lemma {:induction false} CountZeroAbsent(s: string, c: char)
    requires Count(s, c) == 0
    ensures forall j | 0 <= j < |s| :: s[j] != c
  {
    if |s| > 0 {
      CountZeroAbsent(s[1..], c);
      assert forall j | 1 <= j < |s| :: s[j] == s[1..][j - 1];
    }
  }

  lemma {:induction false} CountZero(s: string, c: char)
    requires forall j | 0 <= j < |s| :: s[j] != c
    ensures Count(s, c) == 0
  {
    if |s| > 0 {
      CountZero(s[1..], c);
    }
  }

  lemma {:induction false} LastPartIsSuffix(parts: seq<string>, sep: char)
    requires |parts| >= 1
    ensures EndsWith(Join(parts, sep), parts[|parts| - 1])
  {
    if |parts| > 1 {
      LastPartIsSuffix(parts[1..], sep);
      assert Join(parts, sep) == parts[0] + [sep] + Join(parts[1..], sep);
    }
  }

  /** `findStreamByStreamKey`: a stream whose endpoint contains the key
      anywhere, not only at its end; none exactly when no endpoint does. */
  function FindByStreamKey(streams: seq<StreamInstance>, key: string): (r: Option<StreamInstance>)
    ensures r.Some? ==> Contains(r.value.rtmpEndpoint, key)
    ensures r.None? <==> forall j | 0 <= j < |streams| :: !Contains(streams[j].rtmpEndpoint, key)
  {
    if |streams| == 0 then None
    else if Contains(streams[0].rtmpEndpoint, key) then Some(streams[0])
    else
      var rest := FindByStreamKey(streams[1..], key);
      assert rest.None? ==> forall j | 1 <= j < |streams| :: streams[j] == streams[1..][j - 1];
      rest
  }

  /** The stream found is the first matching one in collection order. */
  lemma {:induction false} FindByStreamKeyIsFirst(streams: seq<StreamInstance>, key: string, j: int)
    requires 0 <= j < |streams| && Contains(streams[j].rtmpEndpoint, key)
    requires forall i | 0 <= i < j :: !Contains(streams[i].rtmpEndpoint, key)
    ensures FindByStreamKey(streams, key) == Some(streams[j])
  {
    if j > 0 {
      FindByStreamKeyIsFirst(streams[1..], key, j - 1);
    }
  }

  /** The `prePublish` hook on a non-empty key: an unmatched key or a
      Stopped stream gets the session rejected; any other stream, Error
      included, goes to Waiting and records the session. */
  function Admit(m: Manager, sessionId: string, key: string): (out: Hooked)
    ensures var found := FindByStreamKey(m.streams, key);
      && (found.None? || found.value.status == Stopped ==> out == Hooked(m, [RejectSession(sessionId)]))
      && (found.Some? && found.value.status != Stopped ==>
            && out.effects == []
            && out.mgr.streams == SetStatus(m.streams, found.value.id, Waiting)
            && out.mgr.activeStreams == m.activeStreams[found.value.id := sessionId])
  {
    match FindByStreamKey(m.streams, key)
    case None => Hooked(m, [RejectSession(sessionId)])
    case Some(s) =>
      if s.status == Stopped then Hooked(m, [RejectSession(sessionId)])
      else Hooked(Manager(SetStatus(m.streams, s.id, Waiting), m.activeStreams[s.id := sessionId]), [])
  }

  /** The `postPublish` hook on a non-empty key: a matched stream goes Live,
      whatever its state. */
  function GoLive(m: Manager, key: string): (r: Manager)
    ensures r.activeStreams == m.activeStreams
    ensures FindByStreamKey(m.streams, key).None? ==> r == m
    ensures FindByStreamKey(m.streams, key).Some? ==>
      r.streams == SetStatus(m.streams, FindByStreamKey(m.streams, key).value.id, StreamStatus.Live)
  {
    match FindByStreamKey(m.streams, key)
    case None => m
    case Some(s) => m.(streams := SetStatus(m.streams, s.id, StreamStatus.Live))
  }

  /** The `donePublish` hook on a non-empty key: a matched stream goes back to
      Waiting and its session is forgotten. */
  function EndPublish(m: Manager, key: string): (r: Manager)
    ensures FindByStreamKey(m.streams, key).None? ==> r == m
    ensures FindByStreamKey(m.streams, key).Some? ==>
      var id := FindByStreamKey(m.streams, key).value.id;
      && r.streams == SetStatus(m.streams, id, Waiting)
      && r.activeStreams == m.activeStreams - {id}
  {
    match FindByStreamKey(m.streams, key)
    case None => m
    case Some(s) => Manager(SetStatus(m.streams, s.id, Waiting), m.activeStreams - {s.id})
  }

  /** The three hooks read the key from the stream path and ignore a path
      whose last segment is empty. */
  function PrePublish(m: Manager, sessionId: string, path: string): (out: Hooked)
    ensures KeyOfPath(path) == "" ==> out == Hooked(m, [])
    ensures KeyOfPath(path) != "" ==> out == Admit(m, sessionId, KeyOfPath(path))
  {
    var key := KeyOfPath(path);
    if key == "" then Hooked(m, []) else Admit(m, sessionId, key)
  }

  function PostPublish(m: Manager, path: string): (r: Manager)
    ensures KeyOfPath(path) == "" ==> r == m
    ensures KeyOfPath(path) != "" ==> r == GoLive(m, KeyOfPath(path))
  {
    var key := KeyOfPath(path);
    if key == "" then m else GoLive(m, key)
  }

  function DonePublish(m: Manager, path: string): (r: Manager)
    ensures KeyOfPath(path) == "" ==> r == m
    ensures KeyOfPath(path) != "" ==> r == EndPublish(m, KeyOfPath(path))
  {
    var key := KeyOfPath(path);
    if key == "" then m else EndPublish(m, key)
  }

  /** `startStream`: nothing for an unknown id; otherwise Waiting from any
      state, and the stored record is returned. */
  function StartStream(m: Manager, id: string): (r: Option<(Manager, StreamInstance)>)
    ensures r.None? <==> IndexOfStream(m.streams, id) == -1
    ensures r.Some? ==>
      var i := IndexOfStream(m.streams, id);
      && r.value.0 == m.(streams := SetStatus(m.streams, id, Waiting))
      && r.value.1 == r.value.0.streams[i]
      && r.value.1.status == Waiting && r.value.1.id == id
      && r.value.1.destinations == m.streams[i].destinations
  {
    var i := IndexOfStream(m.streams, id);
    if i < 0 then None
    else
      var streams := SetStatus(m.streams, id, Waiting);
      Some((Manager(streams, m.activeStreams), streams[i]))
  }

  /** `stopStream`: nothing for an unknown id; otherwise a recorded session
      that still exists is rejected, the record is cleared and the stream is
      Stopped. An empty recorded session id counts as none and stays. */
  function StopStream(m: Manager, id: string, sessions: set<string>): (r: Option<(Hooked, StreamInstance)>)
    ensures r.None? <==> IndexOfStream(m.streams, id) == -1
    ensures r.Some? ==>
      var (h, s) := r.value;
      && h.mgr.streams == SetStatus(m.streams, id, Stopped)
      && s == h.mgr.streams[IndexOfStream(m.streams, id)] && s.status == Stopped
      && (id in m.activeStreams && m.activeStreams[id] != "" ==>
            && h.mgr.activeStreams == m.activeStreams - {id}
            && h.effects == (if m.activeStreams[id] in sessions then [RejectSession(m.activeStreams[id])] else []))
      && (id !in m.activeStreams || m.activeStreams[id] == "" ==>
            h.mgr.activeStreams == m.activeStreams && h.effects == [])
  {
    var i := IndexOfStream(m.streams, id);
    if i < 0 then None
    else
      var streams := SetStatus(m.streams, id, Stopped);
      if id in m.activeStreams && m.activeStreams[id] != "" then
        var sid := m.activeStreams[id];
        Some((Hooked(Manager(streams, m.activeStreams - {id}), if sid in sessions then [RejectSession(sid)] else []),
              streams[i]))
      else Some((Hooked(Manager(streams, m.activeStreams), []), streams[i]))
  }

  /** Every stream whose id differs, in order (`deleteOne({ id })`, which
      removes every match). */
  function WithoutStream(streams: seq<StreamInstance>, id: string): (r: seq<StreamInstance>)
    ensures |r| <= |streams|
    ensures forall k | 0 <= k < |r| :: r[k].id != id
    ensures IndexOfStream(streams, id) >= 0 ==> |r| < |streams|
    ensures IndexOfStream(streams, id) == -1 ==> r == streams
  {
    if |streams| == 0 then []
    else if streams[0].id == id then WithoutStream(streams[1..], id)
    else [streams[0]] + WithoutStream(streams[1..], id)
  }

  /** The filter keeps exactly the streams with other ids. */
  lemma {:induction false} WithoutStreamKeepsOthers(streams: seq<StreamInstance>, id: string, x: StreamInstance)
    ensures x in WithoutStream(streams, id) <==> x in streams && x.id != id
  {
    if |streams| > 0 {
      WithoutStreamKeepsOthers(streams[1..], id, x);
      assert streams == [streams[0]] + streams[1..];
    }
  }

  /** The filter keeps the order: it distributes over concatenation, so the
      kept streams stand in the collection's order. */
  lemma {:induction false} WithoutStreamConcat(a: seq<StreamInstance>, b: seq<StreamInstance>, id: string)
    ensures WithoutStream(a + b, id) == WithoutStream(a, id) + WithoutStream(b, id)
  {
    if |a| > 0 {
      assert (a + b)[1..] == a[1..] + b;
      WithoutStreamConcat(a[1..], b, id);
    } else {
      assert a + b == b;
    }
  }

  /** `deleteStream`: false for an unknown id; refused unless the stream is
      Stopped or Error; otherwise every stream with the id and its session
      record go, and the answer is true. */
  function DeleteStream(m: Manager, id: string): (r: Result<(Manager, bool)>)
    ensures IndexOfStream(m.streams, id) == -1 ==> r == Ok((m, false))
    ensures IndexOfStream(m.streams, id) >= 0 ==>
      var s := m.streams[IndexOfStream(m.streams, id)];
      && (r.Err? <==> s.status != Stopped && s.status != Error)
      && (r.Err? ==> r.fault == InvalidState)
      && (r.Ok? ==> r.value == (Manager(WithoutStream(m.streams, id), m.activeStreams - {id}), true))
  {
    var i := IndexOfStream(m.streams, id);
    if i < 0 then Ok((m, false))
    else if m.streams[i].status != Stopped && m.streams[i].status != Error then Err(InvalidState)
    else Ok((Manager(WithoutStream(m.streams, id), m.activeStreams - {id}), true))
  }

  /** `generateStreamKey`: 16 random bytes as 32 lower-case hex characters,
      from which the bytes can be read back. */
  function GenerateStreamKey(buffer: seq<Hex.Byte>): (key: string)
    requires |buffer| == 16
    ensures |key| == 32 && forall i | 0 <= i < |key| :: Hex.IsLowerHex(key[i])
    ensures Hex.Decode(key) == buffer
  {
    Hex.DecodeEncode(buffer);
    Hex.Encode(buffer)
  }

  /** `createStream`: a Stopped stream without destinations, its endpoint
      fixed to the local media server's `live` application, appended to the
      collection. */
  function CreateStream(m: Manager, name: string, uuid: string, buffer: seq<Hex.Byte>, now: int)
    : (r: (Manager, StreamInstance))
    requires |buffer| == 16
    ensures var (m', s) := r;
      && m'.streams == m.streams + [s] && m'.activeStreams == m.activeStreams
      && s.id == uuid && s.name == name && s.createdAt == now
      && s.apiKey == GenerateStreamKey(buffer) && |s.apiKey| == 32
      && s.status == Stopped && s.statusMessage.None? && s.destinations == []
      && s.rtmpEndpoint == "rtmp://localhost:1935/live/" + s.apiKey
      && EndsWith(s.rtmpEndpoint, "/live/" + s.apiKey)
  {
    var key := GenerateStreamKey(buffer);
    var endpoint := "rtmp://localhost:1935/live/" + key;
    assert endpoint[|endpoint| - |"/live/" + key|..] == "/live/" + key;
    var s := StreamInstance(uuid, name, key, endpoint, Stopped, None, now, []);
    (Manager(m.streams + [s], m.activeStreams), s)
  }

  /** `addDestination`: nothing for an unknown stream; otherwise a
      destination with the supplied id, disconnected and enabled, is appended
      and the stored record returned. */
  function AddDestination(m: Manager, streamId: string, draft: DestinationDraft, uuid: string)
    : (r: Option<(Manager, StreamInstance)>)
    ensures r.None? <==> IndexOfStream(m.streams, streamId) == -1
    ensures r.Some? ==>
      var i := IndexOfStream(m.streams, streamId);
      var added := Destination(uuid, draft.platform, draft.streamKey, draft.serverUrl, Disconnected, true);
      && r.value.1 == m.streams[i].(destinations := m.streams[i].destinations + [added])
      && r.value.0 == m.(streams := m.streams[i := r.value.1])
  {
    var i := IndexOfStream(m.streams, streamId);
    if i < 0 then None
    else
      var added := Destination(uuid, draft.platform, draft.streamKey, draft.serverUrl, Disconnected, true);
      var s := m.streams[i].(destinations := m.streams[i].destinations + [added]);
      Some((m.(streams := m.streams[i := s]), s))
  }

  /** `removeDestination`: nothing for an unknown stream or destination;
      otherwise exactly one entry, the first with the id, is spliced out. */
  function RemoveDestination(m: Manager, streamId: string, destinationId: string)
    : (r: Option<(Manager, StreamInstance)>)
    ensures IndexOfStream(m.streams, streamId) == -1 ==> r.None?
    ensures IndexOfStream(m.streams, streamId) >= 0 ==>
      var i := IndexOfStream(m.streams, streamId);
      var ds := m.streams[i].destinations;
      var k := FirstIndexBy(ds, (d: Destination) => d.id, destinationId);
      && (r.None? <==> k == -1)
      && (r.Some? ==>
            && |r.value.1.destinations| == |ds| - 1
            && r.value.1.destinations == ds[..k] + ds[k + 1..]
            && r.value.1 == m.streams[i].(destinations := r.value.1.destinations)
            && r.value.0 == m.(streams := m.streams[i := r.value.1]))
  {
    var i := IndexOfStream(m.streams, streamId);
    if i < 0 then None
    else
      var ds := m.streams[i].destinations;
      var k := FirstIndexBy(ds, (d: Destination) => d.id, destinationId);
      if k < 0 then None
      else
        var s := m.streams[i].(destinations := ds[..k] + ds[k + 1..]);
        Some((m.(streams := m.streams[i := s]), s))
  }

  /** Adding a destination under an id the stream does not use yet and then
      removing that id restores the stream. */
  lemma AddThenRemoveRestores(m: Manager, streamId: string, draft: DestinationDraft, uuid: string)
    requires IndexOfStream(m.streams, streamId) >= 0
    requires FirstIndexBy(m.streams[IndexOfStream(m.streams, streamId)].destinations, (d: Destination) => d.id, uuid) == -1
    ensures var (m1, _) := AddDestination(m, streamId, draft, uuid).value;
      RemoveDestination(m1, streamId, uuid).Some? && RemoveDestination(m1, streamId, uuid).value.0 == m
  {
    var i := IndexOfStream(m.streams, streamId);
    var ds := m.streams[i].destinations;
    var added := AddDestination(m, streamId, draft, uuid).value;
    var m1 := added.0;
    var s1 := added.1;
    assert m1.streams == m.streams[i := s1];
    assert IndexOfStream(m1.streams, streamId) == i by {
      assert forall j | 0 <= j < i :: m1.streams[j] == m.streams[j];
      assert m1.streams[i].id == streamId;
    }
    var ds1 := s1.destinations;
    assert ds1 == ds + [Destination(uuid, draft.platform, draft.streamKey, draft.serverUrl, Disconnected, true)];
    assert FirstIndexBy(ds1, (d: Destination) => d.id, uuid) == |ds| by {
      assert ds1[|ds|].id == uuid;
      assert forall j | 0 <= j < |ds| :: ds1[j] == ds[j];
    }
    assert ds1[..|ds|] + ds1[|ds| + 1..] == ds;
  }

  /** A stream that was stopped can always be deleted afterwards, and the
      deletion leaves no stream with its id and no session record. */
  lemma StopThenDelete(m: Manager, id: string, sessions: set<string>)
    requires IndexOfStream(m.streams, id) >= 0
    ensures var (h, _) := StopStream(m, id, sessions).value;
      var d := DeleteStream(h.mgr, id);
      && d.Ok? && d.value.1
      && id !in d.value.0.activeStreams
      && forall k | 0 <= k < |d.value.0.streams| :: d.value.0.streams[k].id != id
  {
    var (h, _) := StopStream(m, id, sessions).value;
    var i := IndexOfStream(m.streams, id);
    assert IndexOfStream(h.mgr.streams, id) == i by {
      assert forall j | 0 <= j < i :: h.mgr.streams[j] == m.streams[j];
    }
  }

  /** A stream created with a key no existing endpoint contains is the one a
      publish to `/live/<key>` finds. */
  lemma CreatedStreamIsFound(m: Manager, name: string, uuid: string, buffer: seq<Hex.Byte>, now: int)
    requires |buffer| == 16
    requires forall j | 0 <= j < |m.streams| :: !Contains(m.streams[j].rtmpEndpoint, GenerateStreamKey(buffer))
    ensures var (m1, s) := CreateStream(m, name, uuid, buffer, now);
      && KeyOfPath("/live/" + s.apiKey) == s.apiKey
      && FindByStreamKey(m1.streams, KeyOfPath("/live/" + s.apiKey)) == Some(s)
  {
    var (m1, s) := CreateStream(m, name, uuid, buffer, now);
    var key := s.apiKey;
    var path := "/live/" + key;
    assert forall i | 0 <= i < |key| :: key[i] != '/' by {
      forall i | 0 <= i < |key| ensures key[i] != '/' {
        assert Hex.IsLowerHex(key[i]);
      }
    }
    KeyOfLivePath(key);
    SuffixOccurs("rtmp://localhost:1935/live/", key);
    FoundAtEnd(m.streams, s, key);
  }

  /** A string occurs at the end of anything it is appended to. */
  lemma SuffixOccurs(prefix: string, key: string)
    ensures OccursAt(prefix + key, key, |prefix + key| - |key|)
  {
    assert (prefix + key)[|prefix|..] == key;
  }

  lemma KeyOfLivePath(key: string)
    requires forall i | 0 <= i < |key| :: key[i] != '/'
    ensures KeyOfPath("/live/" + key) == key
  {
    var path := "/live/" + key;
    assert path[5] == '/';
    assert LastIndexOf(path, '/') == 5 by {
      assert forall j | 5 < j < |path| :: path[j] == key[j - 6];
    }
    assert path[6..] == key;
  }

  /** The last part of a split is preceded by the separator whenever there is
      more than one part. */
  lemma SplitLastFollowsSeparator(s: string, sep: char)
    requires Count(s, sep) > 0
    ensures var parts := Split(s, sep);
      var last := parts[|parts| - 1];
      |last| < |s| && s[|s| - |last| - 1] == sep
  {
    var parts := Split(s, sep);
    SplitJoin(s, sep);
    JoinLast(parts, sep);
  }

  lemma {:induction false} JoinLast(parts: seq<string>, sep: char)
    requires |parts| >= 2
    ensures var j := Join(parts, sep);
      var last := parts[|parts| - 1];
      |last| < |j| && j[|j| - |last| - 1] == sep
  {
    var j := Join(parts, sep);
    var last := parts[|parts| - 1];
    assert j == parts[0] + [sep] + Join(parts[1..], sep);
    if |parts| == 2 {
      assert Join(parts[1..], sep) == last;
    } else {
      JoinLast(parts[1..], sep);
    }
  }

  lemma {:induction false} FoundAtEnd(streams: seq<StreamInstance>, s: StreamInstance, key: string)
    requires forall j | 0 <= j < |streams| :: !Contains(streams[j].rtmpEndpoint, key)
    requires Contains(s.rtmpEndpoint, key)
    ensures FindByStreamKey(streams + [s], key) == Some(s)
  {
    if |streams| == 0 {
      assert streams + [s] == [s];
    } else {
      assert (streams + [s])[1..] == streams[1..] + [s];
      FoundAtEnd(streams[1..], s, key);
    }
  }

  /** A publish that is admitted, goes live and ends leaves the stream
      Waiting with no session recorded. */
  lemma PublishLifecycle(m: Manager, sessionId: string, key: string, id: string)
    requires var f := FindByStreamKey(m.streams, key); f.Some? && f.value.id == id && f.value.status != Stopped
    ensures var pre := Admit(m, sessionId, key);
      var post := GoLive(pre.mgr, key);
      var done := EndPublish(post, key);
      && pre.effects == []
      && id in post.activeStreams && post.activeStreams[id] == sessionId
      && done.activeStreams == m.activeStreams - {id}
      && done.streams == SetStatus(m.streams, id, Waiting)
  {
    var pre := Admit(m, sessionId, key);
    KeyFoundAfterStatus(m.streams, key, id, Waiting);
    var post := GoLive(pre.mgr, key);
    KeyFoundAfterStatus(pre.mgr.streams, key, id, StreamStatus.Live);
    SetStatusTwice(pre.mgr.streams, id, StreamStatus.Live, Waiting);
    SetStatusTwice(m.streams, id, Waiting, Waiting);
    assert m.activeStreams[id := sessionId] - {id} == m.activeStreams - {id};
  }

  /** A status write keeps ids and endpoints, so a key lookup finds the same
      stream id as before. */
  lemma {:induction false} KeyFoundAfterStatus(streams: seq<StreamInstance>, key: string, id: string, status: StreamStatus)
    requires FindByStreamKey(streams, key).Some? && FindByStreamKey(streams, key).value.id == id
    ensures FindByStreamKey(SetStatus(streams, id, status), key).Some?
    ensures FindByStreamKey(SetStatus(streams, id, status), key).value.id == id
  {
    var r := SetStatus(streams, id, status);
    assert forall j | 0 <= j < |streams| :: r[j].id == streams[j].id && r[j].rtmpEndpoint == streams[j].rtmpEndpoint;
    SameKeysSameFind(streams, r, key);
  }

  lemma {:induction false} SameKeysSameFind(a: seq<StreamInstance>, b: seq<StreamInstance>, key: string)
    requires |a| == |b|
    requires forall j | 0 <= j < |a| :: a[j].id == b[j].id && a[j].rtmpEndpoint == b[j].rtmpEndpoint
    ensures FindByStreamKey(a, key).Some? <==> FindByStreamKey(b, key).Some?
    ensures FindByStreamKey(a, key).Some? ==> FindByStreamKey(a, key).value.id == FindByStreamKey(b, key).value.id
  {
    if |a| > 0 {
      SameKeysSameFind(a[1..], b[1..], key);
    }
  }

  /** Writing two statuses in a row keeps only the second. */
  lemma SetStatusTwice(streams: seq<StreamInstance>, id: string, s1: StreamStatus, s2: StreamStatus)
    ensures SetStatus(SetStatus(streams, id, s1), id, s2) == SetStatus(streams, id, s2)
  {
    var i := IndexOfStream(streams, id);
    if i >= 0 {
      var once := SetStatus(streams, id, s1);
      assert IndexOfStream(once, id) == i by {
        assert forall j | 0 <= j < i :: once[j] == streams[j];
      }
    }
  }
}

=== FILE: stream_mgr_service.dfy ===
/** Stream lifecycle manager of the `backend/service` snapshot
    (backend/service/StreamMgrService.ts): Stopped -> Waiting on start,
    Waiting -> Live when ingest data flows, Live -> Waiting when it ends,
    anything but Stopped -> Stopped on stop. Calls into the ingest gateway and
    the transcoder runner are returned as effects. */
module StreamMgrService {
  import opened Outcomes
  import opened ServiceModel

  datatype Effect =
    | KickClient(streamId: string)       // rtmpInjestService.kickClient
    | StopProcesses(streamId: string)    // ffmpegRunnerService.stopStream
    | StartProcesses(stream: Stream)     // ffmpegRunnerService.startStream
    | EnableAccept                       // rtmpInjestService.setAcceptEnabled(true)

  datatype Step = Step(store: Store, effects: seq<Effect>)

  /** Every destination back to Disconnected with its error cleared. */
  function ResetDestinations(ds: seq<Destination>): (r: seq<Destination>)
    ensures |r| == |ds|
    ensures forall k | 0 <= k < |r| ::
      r[k].state == Disconnected && r[k].error == None && SameConfig(r[k], ds[k])
  {
    seq(|ds|, k requires 0 <= k < |ds| => ds[k].(state := Disconnected, error := None))
  }

  /** The stream `startStream` writes: Waiting, destinations reset. */
  function Started(s: Stream): Stream {
    s.(state := Waiting, destinations := ResetDestinations(s.destinations))
  }

  /** `startStream(id)`. */
  function StartStream(store: Store, id: string): (r: Result<Store>)
    ensures r.Ok? <==> HasId(store, id) && store[IndexOfId(store, id)].state.Stopped?
    ensures r == Err(NotFound) <==> !HasId(store, id)
    ensures r == Err(InvalidState) <==> HasId(store, id) && !store[IndexOfId(store, id)].state.Stopped?
    ensures r.Ok? ==>
      var i := IndexOfId(store, id);
      && |r.value| == |store|
      && r.value[i].state == Waiting
      && |r.value[i].destinations| == |store[i].destinations|
      && (forall k | 0 <= k < |store[i].destinations| ::
            r.value[i].destinations[k].state == Disconnected
            && r.value[i].destinations[k].error == None
            && SameConfig(r.value[i].destinations[k], store[i].destinations[k]))
      && r.value[i].(state := store[i].state, destinations := store[i].destinations) == store[i]
      && (forall j | 0 <= j < |store| && j != i :: r.value[j] == store[j])
  {
    var i := IndexOfId(store, id);
    if i < 0 then Err(NotFound)
    else if !store[i].state.Stopped? then Err(InvalidState)
    else Ok(Write(store, id, Started(store[i])))
  }

  /** `stopStream(id)`: an error for an unknown or already-stopped stream. */
  function StopStream(store: Store, id: string): (r: Result<Step>)
    ensures r.Ok? <==> HasId(store, id) && !store[IndexOfId(store, id)].state.Stopped?
    ensures r == Err(NotFound) <==> !HasId(store, id)
    ensures r == Err(InvalidState) <==> HasId(store, id) && store[IndexOfId(store, id)].state.Stopped?
    ensures r.Ok? ==>
      var i := IndexOfId(store, id);
      && |r.value.store| == |store|
      && r.value.store[i] == store[i].(state := StreamState.Stopped)
      && (forall j | 0 <= j < |store| && j != i :: r.value.store[j] == store[j])
      && r.value.effects == [KickClient(id), StopProcesses(id)]
  {
    var i := IndexOfId(store, id);
    if i < 0 then Err(NotFound)
    else if store[i].state.Stopped? then Err(InvalidState)
    else Ok(Step(Write(store, id, store[i].(state := StreamState.Stopped)), [KickClient(id), StopProcesses(id)]))
  }

  /** `onInjestStarted(stream)`: the stream record carried by the ingest event
      must be Waiting; that record is written back as Live and its processes started. */
  function OnInjestStarted(store: Store, stream: Option<Stream>): (r: Result<Step>)
    ensures r.Ok? <==> stream.Some? && stream.value.state == Waiting
    ensures r.Ok? ==>
      var s := stream.value;
      && r.value.effects == [StartProcesses(s)]
      && |r.value.store| == |store|
      && (HasId(store, s.id) ==> r.value.store[IndexOfId(store, s.id)] == s.(state := StreamState.Live))
      && (forall j | 0 <= j < |store| && store[j].id != s.id :: r.value.store[j] == store[j])
  {
    match stream
    case None => Err(NotFound)
    case Some(s) =>
      if s.state != Waiting then Err(InvalidState)
      else Ok(Step(Write(store, s.id, s.(state := StreamState.Live)), [StartProcesses(s)]))
  }

  /** `onInjestStopped(id)`: only a Live stream reacts; it goes back to Waiting
      after its processes are told to stop. */
  function OnInjestStopped(store: Store, id: string): (r: Result<Step>)
    ensures r.Err? <==> !HasId(store, id)
    ensures r.Ok? && store[IndexOfId(store, id)].state != StreamState.Live ==> r.value == Step(store, [])
    ensures r.Ok? && store[IndexOfId(store, id)].state == StreamState.Live ==>
      var i := IndexOfId(store, id);
      && r.value.effects == [StopProcesses(id)]
      && |r.value.store| == |store|
      && r.value.store[i] == store[i].(state := Waiting)
      && (forall j | 0 <= j < |store| && j != i :: r.value.store[j] == store[j])
  {
    var i := IndexOfId(store, id);
    if i < 0 then Err(NotFound)
    else if store[i].state != StreamState.Live then Ok(Step(store, []))
    else Ok(Step(Write(store, id, store[i].(state := Waiting)), [StopProcesses(id)]))
  }

  /** Ingest starting on a Waiting stream and then ending restores the store:
      the stream goes Live with its processes started, then back to Waiting
      with its processes stopped. */
  lemma InjestStartThenStop(store: Store, id: string)
    requires HasId(store, id) && store[IndexOfId(store, id)].state == Waiting
    ensures var s := store[IndexOfId(store, id)];
            var up := OnInjestStarted(store, Some(s));
            && up.Ok? && up.value.effects == [StartProcesses(s)]
            && OnInjestStopped(up.value.store, id) == Ok(Step(store, [StopProcesses(id)]))
  {
    var i := IndexOfId(store, id);
    var s := store[i];
    var live := OnInjestStarted(store, Some(s)).value.store;
    assert live[i] == s.(state := StreamState.Live);
    assert IndexOfId(live, id) == i by {
      assert forall j | 0 <= j < i :: live[j] == store[j];
    }
    var back := OnInjestStopped(live, id).value.store;
    assert back[i] == s;
    assert back == store;
  }

  /** The destination state a process status is shown as. */
  function DestinationStateFor(status: ProcessStatus): DestinationState {
    match status
    case Starting => Connecting
    case Running => DestinationState.Live
    case _ => Disconnected
  }

  /** `onFfmpegProcessStatusUpdated(process)`: the first destination with the
      process's destination id takes the state the process status maps to. */
  function OnProcessStatus(store: Store, p: ProcessReport): (r: Store)
    ensures |r| == |store|
    ensures !HasId(store, p.stream) ==> r == store
    ensures HasId(store, p.stream) ==>
      var i := IndexOfId(store, p.stream);
      var ds := store[i].destinations;
      var k := IndexOfDestination(ds, p.destination);
      && (forall j | 0 <= j < |store| && j != i :: r[j] == store[j])
      && (k < 0 ==> r == store)
      && (k >= 0 ==>
            && r[i].(destinations := ds) == store[i]
            && |r[i].destinations| == |ds|
            && r[i].destinations[k] == ds[k].(state := DestinationStateFor(p.status))
            && forall m | 0 <= m < |ds| && m != k :: r[i].destinations[m] == ds[m])
  {
    var i := IndexOfId(store, p.stream);
    if i < 0 then store
    else
      var s := store[i];
      var k := IndexOfDestination(s.destinations, p.destination);
      if k < 0 then store
      else
        var d := s.destinations[k].(state := DestinationStateFor(p.status));
        Write(store, s.id, s.(destinations := s.destinations[k := d]))
  }

  /** Each status maps to the destination state the dashboard shows. */
  lemma DestinationStateMapping(status: ProcessStatus)
    ensures DestinationStateFor(status) == Connecting <==> status == Starting
    ensures DestinationStateFor(status) == DestinationState.Live <==> status == Running
    ensures DestinationStateFor(status) == Disconnected <==> status == Stopping || status == ProcessStatus.Stopped
  {
  }

  /** The startup restore, over the stream list read once at startup: every
      stream not Stopped is written as Stopped and then started. */
  function RestoreFrom(store: Store, todo: seq<Stream>): Result<Store>
    decreases |todo|
  {
    if |todo| == 0 then Ok(store)
    else
      var s := todo[0];
      if s.state.Stopped? then RestoreFrom(store, todo[1..])
      else
        match StartStream(Write(store, s.id, s.(state := StreamState.Stopped)), s.id)
        case Err(f) => Err(f)
        case Ok(next) => RestoreFrom(next, todo[1..])
  }

  /** The restore in `initialize`; ingest is enabled only once it finishes. */
  function Restore(store: Store): Result<Step> {
    match RestoreFrom(store, store)
    case Err(f) => Err(f)
    case Ok(s) => Ok(Step(s, [EnableAccept]))
  }

  /** What the restore leaves in slot `j`. */
  function Restored(s: Stream): Stream {
    if s.state.Stopped? then s else Started(s)
  }

  lemma IndexOfUnique(store: Store, j: int)
    requires UniqueIds(store) && 0 <= j < |store|
    ensures IndexOfId(store, store[j].id) == j
  {
  }

  lemma {:induction false} RestoreFromInvariant(orig: Store, cur: Store, k: nat)
    requires UniqueIds(orig) && k <= |orig| && |cur| == |orig|
    requires forall j | 0 <= j < |orig| :: cur[j].id == orig[j].id
    requires forall j | 0 <= j < k :: cur[j] == Restored(orig[j])
    requires forall j | k <= j < |orig| :: cur[j] == orig[j]
    ensures RestoreFrom(cur, orig[k..]).Ok?
    ensures var r := RestoreFrom(cur, orig[k..]).value;
            |r| == |orig| && forall j | 0 <= j < |orig| :: r[j] == Restored(orig[j])
    decreases |orig| - k
  {
    if k < |orig| {
      var s := orig[k];
      assert orig[k..][0] == s && orig[k..][1..] == orig[k + 1..];
      assert UniqueIds(cur);
      IndexOfUnique(cur, k);
      if s.state.Stopped? {
        RestoreFromInvariant(orig, cur, k + 1);
      } else {
        var forced := Write(cur, s.id, s.(state := StreamState.Stopped));
        assert forced[k] == s.(state := StreamState.Stopped);
        assert forall j | 0 <= j < |orig| :: forced[j].id == orig[j].id;
        assert UniqueIds(forced);
        IndexOfUnique(forced, k);
        var next := StartStream(forced, s.id).value;
        assert next[k] == Started(s);
        RestoreFromInvariant(orig, next, k + 1);
      }
    }
  }

  /** With distinct stream ids the restore never fails: Stopped streams are left
      as they were, every other stream ends Waiting with its destinations reset,
      and accepting ingest is switched on afterwards. */
  lemma RestoreStartsEveryActiveStream(store: Store)
    requires UniqueIds(store)
    ensures Restore(store).Ok?
    ensures var r := Restore(store).value;
            && r.effects == [EnableAccept]
            && |r.store| == |store|
            && (forall j | 0 <= j < |store| && store[j].state.Stopped? :: r.store[j] == store[j])
            && (forall j | 0 <= j < |store| && !store[j].state.Stopped? ::
                  r.store[j].state == Waiting && r.store[j] == Started(store[j]))
  {
    assert store[0..] == store;
    RestoreFromInvariant(store, store, 0);
  }

  /** Starting twice in a row fails the second time, leaving the store as the first start left it. */
  lemma StartStreamNotRepeatable(store: Store, id: string)
    requires StartStream(store, id).Ok?
    ensures StartStream(StartStream(store, id).value, id) == Err(InvalidState)
  {
    var i := IndexOfId(store, id);
    var s1 := StartStream(store, id).value;
    assert s1[i].id == id;
    assert IndexOfId(s1, id) == i by {
      assert forall j | 0 <= j < i :: s1[j] == store[j];
    }
  }

  /** A start followed by a stop leaves the stream Stopped, kicks its client and stops its processes. */
  lemma StartThenStop(store: Store, id: string)
    requires StartStream(store, id).Ok?
    ensures var s1 := StartStream(store, id).value;
            var r := StopStream(s1, id);
            && r.Ok?
            && r.value.store[IndexOfId(store, id)].state.Stopped?
            && r.value.effects == [KickClient(id), StopProcesses(id)]
  {
    var i := IndexOfId(store, id);
    var s1 := StartStream(store, id).value;
    assert IndexOfId(s1, id) == i by {
      assert forall j | 0 <= j < i :: s1[j] == store[j];
    }
  }
}

=== FILE: stream_url.dfy ===
/** The internal RTMP address the relay processes read a stream from
    (backend/utils/stream.ts). */
module StreamUrl {
  import opened Text

  /** The ingest server settings the address is built from. */
  datatype IngestConfig = IngestConfig(port: nat, linkRoot: string)

  /** `rtmp://localhost:${port}/${linkRoot}/${apiKey}`. */
  function InternalRtmpUrl(cfg: IngestConfig, apiKey: string): string {
    "rtmp://localhost:" + NatToDecimal(cfg.port) + "/" + cfg.linkRoot + "/" + apiKey
  }

  /** The address always points at the local ingest server... */
  lemma UrlStartsWithLocalhost(cfg: IngestConfig, apiKey: string)
    ensures StartsWith(InternalRtmpUrl(cfg, apiKey), "rtmp://localhost:")
  {
    var u := InternalRtmpUrl(cfg, apiKey);
    assert u[..17] == "rtmp://localhost:";
  }

  /** ...names the configured port right after the scheme and host, then the
      link root between slashes... */
  lemma UrlNamesPortThenRoot(cfg: IngestConfig, apiKey: string)
    ensures var digits := NatToDecimal(cfg.port);
            var u := InternalRtmpUrl(cfg, apiKey);
            OccursAt(u, digits + "/" + cfg.linkRoot + "/", 17)
            && DecimalValue(u[17..17 + |digits|]) == cfg.port
  {
    var digits := NatToDecimal(cfg.port);
    var u := InternalRtmpUrl(cfg, apiKey);
    var mid := digits + "/" + cfg.linkRoot + "/";
    assert u == "rtmp://localhost:" + mid + apiKey;
    assert u[17..17 + |mid|] == mid;
    assert u[17..17 + |digits|] == digits;
  }

  /** ...and ends with the stream's key as its last path segment. */
  lemma UrlEndsWithKey(cfg: IngestConfig, apiKey: string)
    ensures EndsWith(InternalRtmpUrl(cfg, apiKey), "/" + apiKey)
  {
    var u := InternalRtmpUrl(cfg, apiKey);
    var head := "rtmp://localhost:" + NatToDecimal(cfg.port) + "/" + cfg.linkRoot;
    assert u == head + ("/" + apiKey);
  }

  /** Under one configuration, two streams with different keys never share an address. */
  lemma UrlInjective(cfg: IngestConfig, k1: string, k2: string)
    requires InternalRtmpUrl(cfg, k1) == InternalRtmpUrl(cfg, k2)
    ensures k1 == k2
  {
    var head := "rtmp://localhost:" + NatToDecimal(cfg.port) + "/" + cfg.linkRoot + "/";
    assert InternalRtmpUrl(cfg, k1) == head + k1;
    assert InternalRtmpUrl(cfg, k2) == head + k2;
    assert k1 == (head + k1)[|head|..];
    assert k2 == (head + k2)[|head|..];
  }
}

=== FILE: text.dfy ===
/** String operations of JavaScript's `String` that the hub relies on,
    over `string` (`seq<char>`), each specified by what it returns rather than
    by how it scans. */
module Text {

  predicate StartsWith(s: string, p: string) {
    |p| <= |s| && s[..|p|] == p
  }

  predicate EndsWith(s: string, p: string) {
    |p| <= |s| && s[|s| - |p|..] == p
  }

  /** `sub` occurs in `s` starting at index `i`. */
  predicate OccursAt(s: string, sub: string, i: int) {
    0 <= i && i + |sub| <= |s| && s[i..i + |sub|] == sub
  }

  /** `s.includes(sub)`. */
  predicate Contains(s: string, sub: string) {
    exists i | 0 <= i <= |s| :: OccursAt(s, sub, i)
  }

  /** First occurrence of `sub` at or after `k`, or -1. */
  function IndexFrom(s: string, sub: string, k: nat): (r: int)
    ensures r == -1 || (k <= r && OccursAt(s, sub, r))
    ensures r >= 0 ==> forall j | k <= j < r :: !OccursAt(s, sub, j)
    ensures r == -1 ==> forall j | k <= j :: !OccursAt(s, sub, j)
    decreases |s| + 1 - k
  {
    if k + |sub| > |s| then -1
    else if OccursAt(s, sub, k) then k
    else IndexFrom(s, sub, k + 1)
  }

  /** `s.indexOf(sub)`: the first occurrence, or -1 when there is none. */
  function IndexOf(s: string, sub: string): (r: int)
    ensures r == -1 || OccursAt(s, sub, r)
    ensures r >= 0 ==> forall j | 0 <= j < r :: !OccursAt(s, sub, j)
    ensures r == -1 <==> !Contains(s, sub)
  {
    IndexFrom(s, sub, 0)
  }

  /** The first position holding `x`, or -1: `indexOf` on a string with a
      one-character needle, or on an array. */
  function FirstIndex<T(==)>(s: seq<T>, x: T): (r: int)
    ensures -1 <= r < |s|
    ensures r >= 0 ==> s[r] == x && forall j | 0 <= j < r :: s[j] != x
    ensures r == -1 <==> x !in s
  {
    if |s| == 0 then -1
    else if s[0] == x then 0
    else var k := FirstIndex(s[1..], x); if k < 0 then -1 else k + 1
  }

  /** The first position whose key is `x`, or -1 (`findIndex(e => key(e) === x)`). */
  function FirstIndexBy<T, K(==)>(s: seq<T>, key: T -> K, x: K): (r: int)
    ensures -1 <= r < |s|
    ensures r >= 0 ==> key(s[r]) == x && forall j | 0 <= j < r :: key(s[j]) != x
    ensures r == -1 ==> forall j | 0 <= j < |s| :: key(s[j]) != x
  {
    FirstIndex(MapSeq(s, key), x)
  }

  /** `f` applied to every element, in order (`Array.prototype.map`). */
  function MapSeq<T, U>(s: seq<T>, f: T -> U): (r: seq<U>)
    ensures |r| == |s| && forall j | 0 <= j < |s| :: r[j] == f(s[j])
  {
    seq(|s|, j requires 0 <= j < |s| => f(s[j]))
  }

  /** `s.lastIndexOf(c)` for a one-character needle. */
  function LastIndexOf(s: string, c: char): (r: int)
    ensures -1 <= r < |s|
    ensures r >= 0 ==> s[r] == c && forall j | r < j < |s| :: s[j] != c
    ensures r == -1 ==> forall j | 0 <= j < |s| :: s[j] != c
  {
    if |s| == 0 then -1
    else if s[|s| - 1] == c then |s| - 1
    else LastIndexOf(s[..|s| - 1], c)
  }

  /** `s.replace(pat, rep)` with a string pattern: only the first occurrence
      is replaced; an empty pattern inserts `rep` at the front. */
  function ReplaceFirst(s: string, pat: string, rep: string): (r: string)
    ensures !Contains(s, pat) ==> r == s
    ensures Contains(s, pat) ==>
      exists i | 0 <= i <= |s| - |pat| ::
        OccursAt(s, pat, i) && r == s[..i] + rep + s[i + |pat|..]
  {
    var i := IndexOf(s, pat);
    if i < 0 then s else s[..i] + rep + s[i + |pat|..]
  }

  /** Number of occurrences of `c` in `s`. */
  function Count(s: string, c: char): nat {
    if |s| == 0 then 0 else (if s[0] == c then 1 else 0) + Count(s[1..], c)
  }

  /** `s.replace(/c/g, "")`: every `c` removed, all other characters kept in order. */
  function RemoveAll(s: string, c: char): (r: string)
    ensures c !in r
    ensures |r| + Count(s, c) == |s|
  {
    if |s| == 0 then []
    else if s[0] == c then RemoveAll(s[1..], c)
    else [s[0]] + RemoveAll(s[1..], c)
  }

  /** Removing a character that does not occur changes nothing, and removal
      never introduces a character. */
  lemma {:induction false} RemoveAllKeeps(s: string, c: char)
    ensures c !in s ==> RemoveAll(s, c) == s
    ensures forall x | x in RemoveAll(s, c) :: x in s
  {
    if |s| > 0 {
      RemoveAllKeeps(s[1..], c);
      assert s == [s[0]] + s[1..];
    }
  }

  /** Removal works piecewise over a concatenation. */
  lemma {:induction false} RemoveAllConcat(a: string, b: string, c: char)
    ensures RemoveAll(a + b, c) == RemoveAll(a, c) + RemoveAll(b, c)
  {
    if |a| > 0 {
      assert (a + b)[1..] == a[1..] + b;
      RemoveAllConcat(a[1..], b, c);
    } else {
      assert a + b == b;
    }
  }

  /** `s.replace(/c+/g, c)`: every run of `c` shrinks to a single `c`. */
  function CollapseRuns(s: string, c: char): (r: string)
    ensures |s| > 0 ==> |r| > 0 && r[0] == s[0]
    ensures forall i | 0 <= i < |r| - 1 :: !(r[i] == c && r[i + 1] == c)
    ensures RemoveAll(r, c) == RemoveAll(s, c)
    ensures |r| <= |s|
    ensures (forall i | 0 <= i < |s| - 1 :: !(s[i] == c && s[i + 1] == c)) ==> r == s
  {
    if |s| == 0 then []
    else if |s| >= 2 && s[0] == c && s[1] == c then CollapseRuns(s[1..], c)
    else
      var r := [s[0]] + CollapseRuns(s[1..], c);
      assert s == [s[0]] + s[1..];
      r
  }

  /** `s.replace(/^c+/, "")`. */
  function TrimStart(s: string, c: char): (r: string)
    ensures |r| <= |s| && r == s[|s| - |r|..]
    ensures |r| > 0 ==> r[0] != c
    ensures forall i | 0 <= i < |s| - |r| :: s[i] == c
  {
    if |s| > 0 && s[0] == c then TrimStart(s[1..], c) else s
  }

  /** `s.replace(/c+$/, "")`. */
  function TrimEnd(s: string, c: char): (r: string)
    ensures |r| <= |s| && r == s[..|r|]
    ensures |r| > 0 ==> r[|r| - 1] != c
    ensures forall i | |r| <= i < |s| :: s[i] == c
  {
    if |s| > 0 && s[|s| - 1] == c then TrimEnd(s[..|s| - 1], c) else s
  }

  /** Every character of `s` is `c`. */
  predicate AllChar(s: string, c: char) {
    forall i | 0 <= i < |s| :: s[i] == c
  }

  /** `mid` sits in `s` between a run of `c` before it and a run of `c` after it. */
  predicate Strips(s: string, mid: string, c: char) {
    exists a | 0 <= a <= |s| - |mid| ::
      OccursAt(s, mid, a) && AllChar(s[..a], c) && AllChar(s[a + |mid|..], c)
  }

  /** `s.replace(/^c+|c+$/g, "")`: leading and trailing runs of `c` removed.
      The result is the middle of `s` between two runs of `c`, and it is empty
      exactly when `s` is nothing but `c`. */
  function Trim(s: string, c: char): (r: string)
    ensures |r| > 0 ==> r[0] != c && r[|r| - 1] != c
    ensures Strips(s, r, c)
    ensures r == [] <==> AllChar(s, c)
  {
    var t := TrimStart(s, c);
    var r := TrimEnd(t, c);
    TrimSplits(s, t, r, c);
    r
  }

  lemma {:induction false} TrimSplits(s: string, t: string, r: string, c: char)
    requires t == TrimStart(s, c) && r == TrimEnd(t, c)
    ensures Strips(s, r, c)
    ensures r == [] <==> AllChar(s, c)
  {
    TrimMiddle(s, t, r, c);
    TrimEmpty(s, t, r, c);
  }

  lemma TrimMiddle(s: string, t: string, r: string, c: char)
    requires t == TrimStart(s, c) && r == TrimEnd(t, c)
    ensures Strips(s, r, c)
  {
    var a := |s| - |t|;
    assert t == s[a..] && r == t[..|r|];
    assert OccursAt(s, r, a) by {
      assert s[a..a + |r|] == t[..|r|];
    }
    assert AllChar(s[..a], c) by {
      forall i | 0 <= i < a ensures s[..a][i] == c {
        assert s[..a][i] == s[i];
      }
    }
    assert AllChar(s[a + |r|..], c) by {
      forall i | a + |r| <= i < |s| ensures s[i] == c {
        assert s[i] == t[i - a];
      }
    }
  }

  lemma TrimEmpty(s: string, t: string, r: string, c: char)
    requires t == TrimStart(s, c) && r == TrimEnd(t, c)
    ensures r == [] <==> AllChar(s, c)
  {
    var a := |s| - |t|;
    if r == [] {
      assert |t| == 0;
    } else {
      assert t == s[a..] && r == t[..|r|];
      assert s[a] == t[0] == r[0] != c;
    }
  }

  lemma {:induction false} TrimStartPadded(pre: string, rest: string, c: char)
    requires forall i | 0 <= i < |pre| :: pre[i] == c
    requires |rest| > 0 ==> rest[0] != c
    ensures TrimStart(pre + rest, c) == rest
    decreases |pre|
  {
    if |pre| > 0 {
      assert (pre + rest)[1..] == pre[1..] + rest;
      TrimStartPadded(pre[1..], rest, c);
    } else {
      assert pre + rest == rest;
    }
  }

  lemma {:induction false} TrimEndPadded(rest: string, post: string, c: char)
    requires forall i | 0 <= i < |post| :: post[i] == c
    requires |rest| > 0 ==> rest[|rest| - 1] != c
    ensures TrimEnd(rest + post, c) == rest
    decreases |post|
  {
    if |post| > 0 {
      assert (rest + post)[..|rest + post| - 1] == rest + post[..|post| - 1];
      TrimEndPadded(rest, post[..|post| - 1], c);
    } else {
      assert rest + post == rest;
    }
  }

  /** Trimming gives back exactly the text between the runs of `c` it strips. */
  lemma TrimPadded(pre: string, mid: string, post: string, c: char)
    requires forall i | 0 <= i < |pre| :: pre[i] == c
    requires forall i | 0 <= i < |post| :: post[i] == c
    requires |mid| > 0 ==> mid[0] != c && mid[|mid| - 1] != c
    requires |mid| == 0 ==> |post| == 0
    ensures Trim(pre + mid + post, c) == mid
  {
    TrimStartPadded(pre, mid + post, c);
    assert pre + mid + post == pre + (mid + post);
    TrimEndPadded(mid, post, c);
  }

  /** `parts.join(sep)`. */
  function Join(parts: seq<string>, sep: char): string {
    if |parts| == 0 then ""
    else if |parts| == 1 then parts[0]
    else parts[0] + [sep] + Join(parts[1..], sep)
  }

  /** `s.split(sep)` for a one-character separator: always at least one
      piece, and no piece contains the separator. */
  function Split(s: string, sep: char): (r: seq<string>)
    ensures |r| == Count(s, sep) + 1
    ensures forall i | 0 <= i < |r| :: sep !in r[i]
  {
    if |s| == 0 then [""]
    else
      var rest := Split(s[1..], sep);
      if s[0] == sep then [""] + rest
      else [[s[0]] + rest[0]] + rest[1..]
  }

  lemma JoinCons(c: char, parts: seq<string>, sep: char)
    requires |parts| >= 1
    ensures Join([[c] + parts[0]] + parts[1..], sep) == [c] + Join(parts, sep)
  {
    var q := [[c] + parts[0]] + parts[1..];
    if |parts| > 1 {
      assert q[1..] == parts[1..];
    }
  }

  /** Splitting and re-joining with the same separator gives back the input. */
  lemma {:induction false} SplitJoin(s: string, sep: char)
    ensures Join(Split(s, sep), sep) == s
  {
    if |s| > 0 {
      var rest := Split(s[1..], sep);
      SplitJoin(s[1..], sep);
      if s[0] == sep {
        assert ([""] + rest)[1..] == rest;
        assert s == [sep] + s[1..];
      } else {
        JoinCons(s[0], rest, sep);
        assert s == [s[0]] + s[1..];
      }
    }
  }

  function Digit(d: nat): char
    requires d < 10
  {
    "0123456789"[d]
  }

  predicate IsDigit(ch: char) {
    '0' <= ch <= '9'
  }

  /** The number a string of decimal digits denotes. */
  function DecimalValue(s: string): int
    requires forall i | 0 <= i < |s| :: IsDigit(s[i])
  {
    if |s| == 0 then 0
    else DecimalValue(s[..|s| - 1]) * 10 + (s[|s| - 1] as int - '0' as int)
  }

  /** `${n}` for a non-negative integer. */
  function NatToDecimal(n: nat): (r: string)
    ensures |r| >= 1
    ensures forall i | 0 <= i < |r| :: IsDigit(r[i])
    ensures DecimalValue(r) == n
  {
    if n < 10 then [Digit(n)]
    else
      var r := NatToDecimal(n / 10) + [Digit(n % 10)];
      assert r[..|r| - 1] == NatToDecimal(n / 10);
      r
  }
}
